=== FILE: README.md ===
# Magisto incremental publishing, modelled in Dafny

Magisto turns a source directory of Markdown documents and other files into a static web
site in a target directory. On each run it only does the work that is needed. It lists the
source and target trees in one sorted order and walks them side by side in a "balanced
line" merge. For each path it decides to convert a Markdown document to HTML, copy a file,
delete a target file that no longer has a source, or skip something that is up to date.
Files under `.static` get their own copy-or-skip decision.

All decisions are gathered in an action set that holds at most one action per path. A
source action and a static action for the same path are reconciled there. The set yields
the sitemap changes and runs the actions in a fixed phase order:

1. skips;
2. deletes, deepest path first;
3. copies;
4. conversions.

A sitemap of page titles is kept next to the output and updated from those changes.

This project models that planning core as pure Dafny functions over immutable values and
proves what the code promises.

| file | module | models |
|---|---|---|
| `outcomes.dfy` | `Outcomes` | results and Java exceptions as values |
| `strings.dfy` | `Strings` | the byte order of `Path.compareTo`, the UTF-16 order of `String.compareTo`, `lastIndexOf`, ASCII `toLowerCase`, `hashCode` |
| `paths.dfy` | `Paths` | relative paths as name sequences, absolute roots, path order |
| `split_path.dfy` | `SplitPaths` | `SplitPath` |
| `file_store.dfy` | `FileStores` | the file-system calls the core makes, on a snapshot map |
| `markdown_loader.dfy` | `MarkdownLoader` | `MarkdownDocumentLoader` (extensions, `supports`) |
| `freemarker_converter.dfy` | `FreeMarker`, `DocumentFreeMarker` | the two `FreeMarkerDocumentConverter` classes (file names, template-change test) |
| `index_filter.dfy` | `IndexFilter` | `SkipGeneratedIndexFilesFilter` |
| `actions.dfy` | `Actions` | the action classes, their identity, `perform`, the execution order |
| `changes.dfy` | `Changes` | `Change` |
| `action_set.dfy` | `ActionSets` | `ActionSet` |
| `json.dfy` | `JsonValues` | JSON values and the casts the code applies to them |
| `page.dfy` | `Pages` | sitemap `Page` |
| `directory.dfy` | `Directories` | sitemap `Directory` |
| `sitemap.dfy` | `Sitemaps` | `Sitemap` |
| `walks.dfy` | `Walks` | generic facts for loops that take one key at a time out of a set |
| `magisto.dfy` | `Planner` | `Magisto`: the merge, static actions, the run's planning half |

How the model is put together:

- **Failures are values.** Each Java exception the core can raise is a `Failure` carrying
  that exception's name.
- **The file system is a snapshot.** It is a map from absolute name sequences to entries
  with a modification time.
- **Directory listings are inputs.** They are passed in as sequences. The predicate
  `Planner.Listed` requires every listed path to exist under its root.
- **Listings are assumed sorted.** Merge results are proved for listings sorted strictly
  by the key the merge compares: the converted file name for Markdown sources, and the
  path itself for everything else.
- **HashMap order is open.** Where the code iterates a `HashMap`, the model picks elements
  in an arbitrary order with `:|`, so every order is covered.
- **TreeSet order is built.** Where it iterates a `TreeSet`, the model builds the order by
  insertion and proves it sorted.

## Model

Paths in the source column are relative to the repository root.

| member | source | states |
|---|---|---|
| Strings.CompareZeroIffEqual | src/main/java/nl/ulso/magisto/Magisto.java:187-190 | Path comparison, by code point (the order of the paths' UTF-8 bytes), is zero exactly when the two names are equal, which is what the merge's "corresponding source and target" test relies on |
| Strings.CompareAntisymmetric | src/main/java/nl/ulso/magisto/Magisto.java:187-190 | Swapping the operands of the path comparison negates it |
| Strings.LessTransitive | src/main/java/nl/ulso/magisto/Magisto.java:187-190 | The code point order used for paths is transitive |
| Strings.LessTotal | src/main/java/nl/ulso/magisto/Magisto.java:187-190 | Any two distinct path names are ordered one way or the other |
| Strings.ProperPrefixIsLess | src/main/java/nl/ulso/magisto/Magisto.java:60-63 | A proper prefix sorts before its extension, the fact behind "files in a directory before the directory" |
| Strings.LastIndexOf | src/main/java/nl/ulso/magisto/io/SplitPath.java:34 | The result is the last position holding the character, and it is -1 exactly when the character does not occur |
| Strings.ToLower | src/main/java/nl/ulso/magisto/document/markdown/MarkdownDocumentLoader.java:59 | Lower-casing keeps the length and folds each character on its own |
| Strings.ToLowerOfLowerCase | src/main/java/nl/ulso/magisto/document/markdown/MarkdownDocumentLoader.java:38-39 | Lower-casing leaves an already lower-case extension unchanged |
| Strings.Int32 | src/main/java/nl/ulso/magisto/io/SplitPath.java:53-55 | Reduction to a Java int lands in the 32-bit range and agrees with its input modulo 2^32 |
| Strings.Utf16Char | src/main/java/nl/ulso/magisto/sitemap/Page.java:70 | A character below U+10000 is one code unit outside the surrogate range; any other is a high and a low surrogate that together give back the code point |
| Strings.Utf16Injective | src/main/java/nl/ulso/magisto/sitemap/Page.java:70 | Different strings have different UTF-16 encodings, so comparing code units still tells strings apart |
| Strings.CompareToZeroIffEqual | src/main/java/nl/ulso/magisto/sitemap/Page.java:70 | `String.compareTo`, over UTF-16 code units, is zero exactly when the strings are equal |
| Strings.CompareToAntisymmetric | src/main/java/nl/ulso/magisto/sitemap/Page.java:70 | Swapping the operands of `String.compareTo` negates it |
| Strings.CompareToTransitive | src/main/java/nl/ulso/magisto/sitemap/Page.java:70 | The UTF-16 order of `String.compareTo` is transitive |
| Strings.Utf16OrderExample | src/main/java/nl/ulso/magisto/sitemap/Page.java:70 | U+1F600 sorts before U+FF21 under `String.compareTo`, though it sorts after it by code point: the two orders differ |
| Paths.ResolveSibling | src/main/java/nl/ulso/magisto/io/SplitPath.java:39 | Resolving a sibling keeps the depth and the parent and replaces only the file name |
| Paths.JoinInjective | src/main/java/nl/ulso/magisto/Magisto.java:188-190 | Two valid paths with the same text form are the same path, so comparing texts compares paths |
| Paths.CompareZeroIffEqual | src/main/java/nl/ulso/magisto/Magisto.java:190 | Path comparison is zero exactly for equal paths |
| Paths.JoinOfConcat | src/main/java/nl/ulso/magisto/Magisto.java:60-63 | The text of a nested path is the parent's text, a separator, and the rest |
| Paths.DescendantSortsAfter | src/main/java/nl/ulso/magisto/Magisto.java:60-63 | A path inside a directory sorts after the directory itself |
| SplitPaths.Split | src/main/java/nl/ulso/magisto/io/SplitPath.java:32-42 | A file name without a dot after its first character keeps the whole path and an empty extension. Otherwise the extension is the dot-free text after the last dot, and the stem is a sibling with the same parent |
| SplitPaths.SplitOfStemAndExtension | src/main/java/nl/ulso/magisto/io/SplitPath.java:38-41 | A name "stem.ext" with a non-empty stem splits into exactly that stem and that extension |
| SplitPaths.DotFileHasNoExtension | src/main/java/nl/ulso/magisto/io/SplitPath.java:35-37 | A name whose only dot is its first character, such as ".static", has no extension |
| SplitPaths.EqualImpliesSameHash | src/main/java/nl/ulso/magisto/io/SplitPath.java:44-55 | Split paths that are equal by stem have equal hash codes, so they can serve as hash-set members |
| SplitPaths.Equal | src/main/java/nl/ulso/magisto/io/SplitPath.java:44-50 | Two split paths are equal exactly when their paths without extension are, whatever their extensions |
| SplitPaths.HashCode | src/main/java/nl/ulso/magisto/io/SplitPath.java:52-55 | The hash of the path without extension, a Java int. `SplitPaths.EqualImpliesSameHash` proves that equal split paths hash alike |
| SplitPaths.SameDocumentExamples | src/main/java/nl/ulso/magisto/io/SplitPath.java:44-50 | "a/foo.md" and "a/foo.html" are the same document, and the same file name in another directory is not |
| FileStores.LastModified | src/main/java/nl/ulso/magisto/io/RealFileSystem.java:90-93 | A timestamp is returned exactly for an existing absolute path, a relative path is refused, and the value is the entry's own time |
| FileStores.Copy | src/main/java/nl/ulso/magisto/io/RealFileSystem.java:149-164 | Both roots must be absolute. A missing source, a missing target parent directory, or a non-empty directory where a file would go is an IOException. A directory source creates a directory stamped now, unless something is already at the target. A file source puts that file, with its time, at the target. Only the target entry changes |
| FileStores.Delete | src/main/java/nl/ulso/magisto/io/RealFileSystem.java:167-171 | Deleting needs an absolute path and succeeds exactly for an existing entry with nothing inside it, which is then gone while nothing else changes |
| FileStores.Write | src/main/java/nl/ulso/magisto/io/RealFileSystem.java:179-181 | Writing a text file at an absolute path succeeds exactly when the parent directory exists and no directory is at the path; otherwise the result is an IOException. It leaves exactly that file changed, holding the new content |
| MarkdownLoader.NewLoader | src/main/java/nl/ulso/magisto/document/markdown/MarkdownDocumentLoader.java:45-50 | A loader is created exactly for an absolute source root, and it keeps that root |
| MarkdownLoader.SupportedExtensions | src/main/java/nl/ulso/magisto/document/markdown/MarkdownDocumentLoader.java:38-39 | The supported extensions are exactly md, markdown and mdown |
| MarkdownLoader.SupportsIff | src/main/java/nl/ulso/magisto/document/markdown/MarkdownDocumentLoader.java:57-60 | A path is supported exactly when its split extension, lower-cased, is one of the Markdown extensions |
| MarkdownLoader.SupportsMarkdownExtensions | src/test/java/nl/ulso/magisto/loader/markdown/MarkdownDocumentLoaderTest.java:41-53 | foo.md, foo.mdown and foo.markdown are supported |
| MarkdownLoader.SupportsAnyLetterCase | src/main/java/nl/ulso/magisto/document/markdown/MarkdownDocumentLoader.java:57-60 | Any name stem.ext whose extension lower-cases to a Markdown extension is supported |
| MarkdownLoader.SupportsMixedCase | src/test/java/nl/ulso/magisto/loader/markdown/MarkdownDocumentLoaderTest.java:56-58 | stem.MarkDown is supported, whatever the stem |
| MarkdownLoader.DoesNotSupportOtherExtensions | src/test/java/nl/ulso/magisto/loader/markdown/MarkdownDocumentLoaderTest.java:61-63 | foo.jpg is not supported |
| MarkdownLoader.NoExtensionNotSupported | src/main/java/nl/ulso/magisto/document/markdown/MarkdownDocumentLoader.java:59 | A file without an extension, or a dot file, is never a Markdown document |
| FreeMarker.GetTargetExtension | src/main/java/nl/ulso/magisto/converter/freemarker/FreeMarkerDocumentConverter.java:84-87 | The target extension is "html" |
| FreeMarker.ConvertedFileName | src/main/java/nl/ulso/magisto/converter/freemarker/FreeMarkerDocumentConverter.java:99-104 | The converted name stays in the same directory at the same depth |
| FreeMarker.ConvertedKeepsDocument | src/main/java/nl/ulso/magisto/converter/freemarker/FreeMarkerDocumentConverter.java:99-104 | The converted name splits into the source's own stem and the target extension, so it names the same document |
| FreeMarker.ConvertedFileNameExample | src/test/java/nl/ulso/magisto/converter/freemarker/FreeMarkerDocumentConverterTest.java:50-52 | stem.MarkDown converts to stem.html in the same directory, whatever the stem and directory |
| FreeMarker.ConvertedFileNameOf | src/main/java/nl/ulso/magisto/converter/freemarker/FreeMarkerDocumentConverter.java:99-104 | A name stem.ext, with a dot-free extension, converts to stem.html in the same directory |
| FreeMarker.ConvertedIsValid | src/main/java/nl/ulso/magisto/converter/freemarker/FreeMarkerDocumentConverter.java:99-104 | The converted name of a valid path is a valid path |
| FreeMarker.IsCustomTemplateChanged | src/main/java/nl/ulso/magisto/converter/freemarker/FreeMarkerDocumentConverter.java:73-82 | Without a custom template the answer is false. Otherwise both timestamps are read, and the answer is true exactly when the template is strictly newer than the touch file |
| DocumentFreeMarker.IsCustomTemplateChanged | src/main/java/nl/ulso/magisto/document/freemarker/FreeMarkerDocumentConverter.java:95-104 | Without a custom template the answer is false. Otherwise a failure to read the touch-file time is passed on, and the answer is whether the template is strictly newer than that time |
| DocumentFreeMarker.SnapshotsAgree | src/main/java/nl/ulso/magisto/document/freemarker/FreeMarkerDocumentConverter.java:95-104 | Given the touch-file time as the store holds it, the older converter decides exactly as the newer one |
| DocumentFreeMarker.ConvertedIsSibling | src/main/java/nl/ulso/magisto/document/freemarker/FreeMarkerDocumentConverter.java:111-116 | The converted name is a sibling of the source whose extension is the target extension |
| IndexFilter.CreateExtensionSet | src/main/java/nl/ulso/magisto/SkipGeneratedIndexFilesFilter.java:64-70 | The set holds exactly the loader's extensions plus the target extension |
| IndexFilter.FindCustomIndexFiles | src/main/java/nl/ulso/magisto/SkipGeneratedIndexFilesFilter.java:72-87 | A stem is a custom index exactly when some source path named "index" in any letter case, with a lower-cased extension in the set, splits to it |
| IndexFilter.NewFilter | src/main/java/nl/ulso/magisto/SkipGeneratedIndexFilesFilter.java:38-42 | The filter keeps the target extension. Its custom indexes are exactly the stems of the source paths that are custom indexes under the loader's extensions plus the target extension |
| IndexFilter.AcceptDirectory | src/main/java/nl/ulso/magisto/SkipGeneratedIndexFilesFilter.java:44-47 | Every directory is accepted |
| IndexFilter.AcceptFile | src/main/java/nl/ulso/magisto/SkipGeneratedIndexFilesFilter.java:49-62 | A file is refused exactly when its base name is "index" and its extension is the target extension, both in any letter case, and its stem is not a custom index |
| IndexFilter.RejectsExactlyGeneratedIndexes | src/main/java/nl/ulso/magisto/SkipGeneratedIndexFilesFilter.java:49-62 | A file is rejected exactly when it is an "index" page with the target extension and no custom index shares its stem |
| IndexFilter.OtherExtensionIsNotCustom | src/main/java/nl/ulso/magisto/SkipGeneratedIndexFilesFilter.java:76-84 | An index.jpg source does not protect the generated index.html |
| IndexFilter.CustomIndexKeepsPage | src/main/java/nl/ulso/magisto/SkipGeneratedIndexFilesFilter.java:55-59 | A source index.md keeps the index.html beside it |
| IndexFilter.CustomIndexIsPerDirectory | src/main/java/nl/ulso/magisto/SkipGeneratedIndexFilesFilter.java:55-59 | A source d/index.md does not keep e/index.html in another directory |
| Actions.NewAction | src/main/java/nl/ulso/magisto/action/AbstractAction.java:30-33 | An action is built exactly for a relative path with absolute roots for its kind; otherwise the result is IllegalArgumentException |
| Actions.CategoryTable | src/main/java/nl/ulso/magisto/action/DeleteTargetAction.java:36-45 | Copy, convert, delete and skip of sources are Source actions, the delete included. Copy and skip of static files are Static actions |
| Actions.Equals | src/main/java/nl/ulso/magisto/action/AbstractAction.java:35-41 | Two actions are equal exactly when they have the same class and the same path |
| Actions.HashCodeConsistent | src/main/java/nl/ulso/magisto/action/AbstractAction.java:43-46 | Equal actions hash alike, and so does any pair with the same path |
| Actions.Perform | src/main/java/nl/ulso/magisto/action/CopySourceAction.java:49-52 | Skips change nothing. A source or static copy succeeds exactly when the copy is possible. It then puts that root's file at the target path, or creates the directory there if nothing is there yet. A delete removes the target entry. A conversion writes the rendered page under the converted name. Each leaves the rest of the store alone |
| Actions.PerformBlocked | src/main/java/nl/ulso/magisto/action/ActionSet.java:165-168 | Performing an already-performed action always fails with IllegalStateException |
| Actions.WrapperReportsAction | src/main/java/nl/ulso/magisto/action/ActionSet.java:148-174 | The wrapper reports the wrapped action's path, type and category |
| Actions.CompareActions | src/test/java/nl/ulso/magisto/action/ActionComparatorTest.java:44-122 | An earlier phase sorts first. Within a phase, deletes sort in descending path order and all other actions in ascending path order |
| Actions.CompareActionsAntisymmetric | src/test/java/nl/ulso/magisto/action/ActionComparatorTest.java:44-122 | Swapping two actions negates their comparison |
| Actions.CompareActionsZeroIff | src/test/java/nl/ulso/magisto/action/ActionComparatorTest.java:44-122 | Two actions compare equal exactly when they share phase and path |
| Actions.PrecedesTotal | src/main/java/nl/ulso/magisto/action/ActionSet.java:87-88 | The execution order relates every pair of actions |
| Actions.PrecedesTransitive | src/main/java/nl/ulso/magisto/action/ActionSet.java:87-88 | The execution order is transitive, so it is a valid sorted-set order |
| Actions.PhaseOrder | src/test/java/nl/ulso/magisto/action/ActionComparatorTest.java:44-90 | Skips come before deletes, deletes before copies, and copies before conversions |
| Actions.DeleteDescendantFirst | src/main/java/nl/ulso/magisto/Magisto.java:60-63 | Deleting a file inside a directory comes before deleting the directory |
| Actions.OtherPhasesParentFirst | src/main/java/nl/ulso/magisto/Magisto.java:60-63 | In every other phase a directory comes before what it contains |
| Actions.ComparatorExamples | src/test/java/nl/ulso/magisto/action/ActionComparatorTest.java:44-122 | The comparator gives -1 or 1 on the test's pairs, with deletes in reverse lexicographic order |
| Actions.Insert | src/main/java/nl/ulso/magisto/action/ActionSet.java:87-88 | Inserting into a sorted sequence puts the action at one position and keeps the sequence sorted |
| Actions.SkipsChangeNothing | src/main/java/nl/ulso/magisto/action/SkipStaticAction.java:41-44 | Performing only skips leaves the file store as it was |
| Changes.NewChange | src/main/java/nl/ulso/magisto/sitemap/Change.java:31-35 | A change is built exactly for a relative path; otherwise the result is IllegalArgumentException |
| ActionSets.EmptySet | src/main/java/nl/ulso/magisto/action/ActionSet.java:51-54 | A new action set is empty and valid |
| ActionSets.DetermineAction | src/main/java/nl/ulso/magisto/action/ActionSet.java:122-132 | Of a source and a static action on one path, the static one wins exactly when the source one is a delete; the winner is never a delete |
| ActionSets.DetermineActionSymmetric | src/main/java/nl/ulso/magisto/action/ActionSet.java:122-126 | The reconciliation does not depend on which action was added first |
| ActionSets.Add | src/main/java/nl/ulso/magisto/action/ActionSet.java:100-120 | A new path is stored. A second action of the same category fails with IllegalStateException. Otherwise the reconciled action replaces the old one, and every other path keeps its action |
| ActionSets.AddAll | src/main/java/nl/ulso/magisto/action/ActionSet.java:100-114 | A successful batch of adds keeps the set valid, and its paths are the old ones plus the added ones |
| ActionSets.AddAllDistinct | src/main/java/nl/ulso/magisto/action/ActionSet.java:100-106 | Adding actions on distinct, new paths always succeeds, stores each action under its path, and keeps the old entries |
| ActionSets.AddAllFrame | src/main/java/nl/ulso/magisto/action/ActionSet.java:100-114 | Adds on other paths leave a stored action as it was |
| ActionSets.AddAllRefusesSameCategory | src/main/java/nl/ulso/magisto/action/ActionSet.java:100-120 | Once a path holds an action, a later action of the same category on it is refused. So a run of adds that succeeds has no such action |
| ActionSets.AddAllNewPath | src/main/java/nl/ulso/magisto/action/ActionSet.java:100-120 | On a new path whose actions all share one category, a successful run of adds has exactly one action on it, and that action is stored |
| ActionSets.AddAllOntoSource | src/main/java/nl/ulso/magisto/action/ActionSet.java:100-132 | Static actions added on a path that holds a source action leave what determineAction makes of the two. A source action other than a delete stays |
| ActionSets.ChangeFor | src/main/java/nl/ulso/magisto/action/ActionSet.java:136-144 | Conversions give an insert-or-update change, deletes give a delete change, both on the action's path, and nothing else gives a change |
| ActionSets.ComputeChanges | src/main/java/nl/ulso/magisto/action/ActionSet.java:134-146 | The changes are exactly those of the set's convert and delete actions, one per path, in any map order |
| ActionSets.SortForExecution | src/main/java/nl/ulso/magisto/action/ActionSet.java:85-88 | The execution sequence is sorted, holds exactly the set's actions, and has one per path |
| ActionSets.PerformInOrder | src/main/java/nl/ulso/magisto/action/ActionSet.java:89-92 | The actions are performed one by one in the given order. Each one performed is then reported as a blocked wrapper, and a failure stops the loop before its action is reported |
| ActionSets.PerformAll | src/main/java/nl/ulso/magisto/action/ActionSet.java:85-94 | Each action is performed in execution order and then reported to the callback as a blocked wrapper. A failure stops the run before its action is reported |
| JsonValues.GetObject | src/main/java/nl/ulso/magisto/sitemap/Sitemap.java:75-77 | A value casts to an object exactly when it is one. A null is a NullPointerException at the first read, and anything else is a ClassCastException |
| JsonValues.GetNullableString | src/main/java/nl/ulso/magisto/sitemap/Page.java:53-58 | An absent or null field reads as a null string. A string field reads as that string, and anything else is a ClassCastException |
| JsonValues.GetString | src/main/java/nl/ulso/magisto/sitemap/Page.java:68-75 | For a string that is then dereferenced, a field succeeds exactly when it holds a string. An absent or null field is a NullPointerException, and any other value a ClassCastException |
| JsonValues.GetArray | src/main/java/nl/ulso/magisto/sitemap/Sitemap.java:74-79 | A field reads as an array exactly when it holds one; any other non-null value is a ClassCastException |
| Pages.PageOf | src/main/java/nl/ulso/magisto/sitemap/Page.java:38-45 | A page records its path's parent directory text, or "" at the top, and its file name and title |
| Pages.NewPage | src/main/java/nl/ulso/magisto/sitemap/Page.java:38-41 | A page built from a path alone has the empty title and the same identity as an untitled page on that path |
| Pages.KeyOfInjective | src/main/java/nl/ulso/magisto/sitemap/Page.java:38-45 | Two valid paths give the same directory-and-file key exactly when they are the same path |
| Pages.Compare | src/main/java/nl/ulso/magisto/sitemap/Page.java:68-75 | Pages are ordered by directory first and then, within one directory, by file, each under String.compareTo. The title plays no part |
| Pages.CompareZeroIffSameKey | src/main/java/nl/ulso/magisto/sitemap/Page.java:68-75 | Pages compare equal exactly when directory and file agree, whatever their titles |
| Pages.CompareAntisymmetric | src/main/java/nl/ulso/magisto/sitemap/Page.java:68-75 | Swapping two pages negates their comparison |
| Pages.LessTransitive | src/main/java/nl/ulso/magisto/sitemap/Page.java:68-75 | Page order, by directory and then by file, each in `String.compareTo`'s UTF-16 order, is transitive |
| Pages.LessTotal | src/main/java/nl/ulso/magisto/sitemap/Page.java:68-75 | Any two pages with different keys are ordered |
| Pages.Utf16PageOrderExample | src/main/java/nl/ulso/magisto/sitemap/Page.java:68-75 | In one directory, a page whose file is U+1F600 comes before one whose file is U+FF21, whatever the titles: pages follow `String.compareTo`, not code point order |
| Pages.FromJson | src/main/java/nl/ulso/magisto/sitemap/Page.java:53-58 | A null entry is a NullPointerException and any other non-object a ClassCastException. An entry decodes exactly when its directory and file are strings and its title is a string, null or absent. The page takes directory and file from the entry, and its title is null exactly when the entry has none |
| Pages.JsonRoundTrip | src/main/java/nl/ulso/magisto/sitemap/Page.java:53-66 | Decoding an encoded page gives the page back |
| Directories.NewDirectory | src/main/java/nl/ulso/magisto/sitemap/Directory.java:39-44 | A new directory has the given name, is empty, and is unchanged |
| Directories.UpdatePage | src/main/java/nl/ulso/magisto/sitemap/Directory.java:111-120 | Afterwards getDirectory finds the directory that holds the file, marked changed. Its pages are the earlier ones, none if it had to be created, with the file's title set. The name is kept |
| Directories.RemovePage | src/main/java/nl/ulso/magisto/sitemap/Directory.java:102-109 | Afterwards getDirectory finds the directory that holds the file, marked changed, with the earlier pages minus the file's page. The name is kept |
| Directories.GetDirectory | src/main/java/nl/ulso/magisto/sitemap/Directory.java:159-164 | A one-name path gives the directory itself. A longer path whose first directory is missing gives None, where the code dereferences null |
| Directories.EditPages | src/main/java/nl/ulso/magisto/sitemap/Directory.java:102-120 | Removing drops the file's page, updating sets its title, and every other page stays as it was |
| Directories.ApplyEdit | src/main/java/nl/ulso/magisto/sitemap/Directory.java:122-137 | A one-name path edits this directory's pages and marks it changed. A longer path edits the named subdirectory, creating it when missing, and leaves this directory's pages and flag alone |
| Directories.EditLeavesOtherSubdirectories | src/main/java/nl/ulso/magisto/sitemap/Directory.java:127-137 | An edit below one subdirectory leaves every other subdirectory present or absent as before, and unchanged |
| Directories.EditThenGet | src/main/java/nl/ulso/magisto/sitemap/Directory.java:122-130 | After an edit, the directory holding the file exists, is marked changed, and carries the edited pages |
| Directories.NothingBelowNewDirectory | src/main/java/nl/ulso/magisto/sitemap/Directory.java:159-164 | A new directory has no nested directory to look up |
| Directories.AncestorsNotMarked | src/main/java/nl/ulso/magisto/sitemap/Directory.java:122-130 | Directories on the way down exist afterwards and keep their own changed flags |
| Directories.RemoveLeavesOtherPages | src/main/java/nl/ulso/magisto/sitemap/Directory.java:102-109 | Removing one page leaves every other page of that directory as it was |
| Directories.NestedDirectoriesExample | src/test/java/nl/ulso/magisto/sitemap/DirectoryTest.java:40-51 | Updating deep/path/to/file creates each level, and the innermost one holds one page |
| Directories.EditKeepsWellNamed | src/main/java/nl/ulso/magisto/sitemap/Directory.java:132-137 | Subdirectories created by an edit are stored under their own names |
| Directories.DeepCopy | src/main/java/nl/ulso/magisto/sitemap/Directory.java:46-58 | A copy has the same name, pages and subdirectory names, and is unchanged |
| Directories.DeepCopyClearsFlags | src/main/java/nl/ulso/magisto/sitemap/Directory.java:46-58 | No directory anywhere in a deep copy is marked changed |
| Directories.Reloaded | src/main/java/nl/ulso/magisto/sitemap/Directory.java:82-91 | What survives a save and reload keeps name and pages, and keeps a subdirectory exactly when it is not empty |
| Directories.UpdateIsNotEmpty | src/main/java/nl/ulso/magisto/sitemap/Directory.java:111-120 | After an update the directory is not empty |
| Directories.UpdateKeepsNoEmptySubdirectories | src/main/java/nl/ulso/magisto/sitemap/Directory.java:111-137 | Updates never leave an empty subdirectory behind |
| Directories.ReloadedIsDeepCopy | src/main/java/nl/ulso/magisto/sitemap/Directory.java:46-100 | Without empty subdirectories, saving and reloading gives the deep copy |
| Directories.RemoveLeavesEmptyShellExample | src/main/java/nl/ulso/magisto/sitemap/Directory.java:102-109 | Removing sub/file from a new directory creates an empty "sub", which a reload drops |
| Directories.ToJsonExample | src/test/java/nl/ulso/magisto/sitemap/DirectoryTest.java:63-77 | Two updates give one page at the top and one subdirectory with one page, and both survive a reload |
| Directories.FromJson | src/main/java/nl/ulso/magisto/sitemap/Directory.java:65-80 | A null object is a NullPointerException and any other non-object a ClassCastException. A decoded directory has a name field and is unchanged |
| Directories.DirectoryItems | src/main/java/nl/ulso/magisto/sitemap/Directory.java:85-92 | The subdirectory items decode back to the non-empty subdirectories, each as it would be reloaded, whatever the map order |
| Directories.PageItems | src/main/java/nl/ulso/magisto/sitemap/Directory.java:93-98 | The page items decode back to exactly the directory's pages, whatever the set order |
| Directories.ToJson | src/main/java/nl/ulso/magisto/sitemap/Directory.java:82-100 | Decoding the encoded directory gives the directory as it would be reloaded, whatever the map order |
| Sitemaps.PagesOf | src/main/java/nl/ulso/magisto/sitemap/Sitemap.java:85-87 | The pages are exactly one per stored key, carrying its title |
| Sitemaps.EmptySitemap | src/main/java/nl/ulso/magisto/sitemap/Sitemap.java:57-63 | The empty sitemap is empty and has no pages |
| Sitemaps.Load | src/main/java/nl/ulso/magisto/sitemap/Sitemap.java:65-83 | A relative root is refused. A missing or unparsable file, or an absent, null or other integer version, is an IOException. A null document is a NullPointerException. A document or version of another JSON type is a ClassCastException. A loaded sitemap came from a version-1 object whose page array reads as its pages |
| Sitemaps.DecodePages | src/main/java/nl/ulso/magisto/sitemap/Sitemap.java:74-78 | Reading the page array gives at most one page per entry, and a longer array reads only if its prefix does. Which arrays read, and which keys and titles result, are stated by the three lemmas below |
| Sitemaps.DecodePagesSucceeds | src/main/java/nl/ulso/magisto/sitemap/Sitemap.java:75-78 | The page array reads exactly when every entry reads as a page |
| Sitemaps.DecodePagesKeys | src/main/java/nl/ulso/magisto/sitemap/Sitemap.java:75-78 | The pages read are exactly those of the entries' keys |
| Sitemaps.DecodePagesTitles | src/main/java/nl/ulso/magisto/sitemap/Sitemap.java:75-78 | Each page read carries the title of an entry with its key |
| Sitemaps.UntitledPageLoads | src/main/java/nl/ulso/magisto/sitemap/Page.java:53-58 | A stored page without a title field loads, with a null title |
| Sitemaps.LoadRefusesEntries | src/main/java/nl/ulso/magisto/sitemap/Sitemap.java:74-78 | A version-1 document whose page array does not read fails with the error of the entry that does not read |
| Sitemaps.NullFileRefused | src/main/java/nl/ulso/magisto/sitemap/Page.java:68-75 | A stored page whose file is null makes loading fail with a NullPointerException |
| Sitemaps.NullEntryRefused | src/main/java/nl/ulso/magisto/sitemap/Sitemap.java:76-77 | A null page entry makes loading fail with a NullPointerException |
| Sitemaps.IncompatibleVersionRefused | src/test/java/nl/ulso/magisto/sitemap/SitemapTest.java:68-74 | A version-2 sitemap is refused with an IOException |
| Sitemaps.LoadCurrentSitemap | src/main/java/nl/ulso/magisto/Magisto.java:97-103 | An I/O failure while loading gives the empty sitemap; other outcomes pass through unchanged |
| Sitemaps.FirstRunStartsEmpty | src/main/java/nl/ulso/magisto/Magisto.java:97-103 | Without a sitemap file the run starts from an empty sitemap |
| Sitemaps.SortedPages | src/main/java/nl/ulso/magisto/sitemap/Sitemap.java:51-55 | The sorted page sequence is strictly ordered and holds exactly the sitemap's pages |
| Sitemaps.Save | src/main/java/nl/ulso/magisto/sitemap/Sitemap.java:89-104 | Saving needs an absolute root, writes version 1 with the pages in order, and loading the saved document gives the same sitemap back |
| Sitemaps.ApplyChange | src/main/java/nl/ulso/magisto/sitemap/Sitemap.java:112-127 | A delete removes the page. An insert-or-update needs the document's title, fails with an IOException without it, and stores it. No other page changes |
| Sitemaps.Apply | src/main/java/nl/ulso/magisto/sitemap/Sitemap.java:112-127 | Applying a list of changes succeeds exactly when every inserted document has a title, and pages no change touches are kept |
| Sitemaps.ApplySnoc | src/main/java/nl/ulso/magisto/sitemap/Sitemap.java:112-127 | Applying a list and then one more change is the same as applying the extended list |
| Sitemaps.LastChangeWins | src/main/java/nl/ulso/magisto/sitemap/Sitemap.java:112-127 | After the changes, the last one decides: a deleted page is absent, and an updated page has its new title |
| Sitemaps.ApplyChangeAsWritten | src/main/java/nl/ulso/magisto/sitemap/Sitemap.java:113-123 | The code as written succeeds only when the path has a title, even for a delete, and then always leaves that page present |
| Sitemaps.DeleteFallsThrough | src/main/java/nl/ulso/magisto/sitemap/Sitemap.java:117-123 | As written, a successful delete still leaves the page present, and it never agrees with the intended delete |
| Sitemaps.DeleteFallsThroughExample | src/main/java/nl/ulso/magisto/sitemap/Sitemap.java:117-123 | Deleting old.html as written fails with an IOException for want of a title, where the intended delete succeeds with an empty sitemap |
| Sitemaps.ApplyChangeToObjects | src/main/java/nl/ulso/magisto/sitemap/Sitemap.java:113-123 | With pages compared by identity, an update appends a fresh page object and keeps the stored ones |
| Sitemaps.TreeSetOf | src/main/java/nl/ulso/magisto/sitemap/Sitemap.java:53-55 | The sorted set built from a page sequence holds every page's key |
| Sitemaps.TreeSetKeepsFirst | src/main/java/nl/ulso/magisto/sitemap/Sitemap.java:53-55 | The sorted set keeps the title of the first page with a given key |
| Sitemaps.TreeSetMembers | src/main/java/nl/ulso/magisto/sitemap/Sitemap.java:53-55 | A key is in the sorted set exactly when some page in the sequence has it |
| Sitemaps.StaleTitleExample | src/main/java/nl/ulso/magisto/sitemap/Sitemap.java:113-126 | As written, retitling a.html keeps the old title when the old page object is iterated first. The intended update stores the new one |
| Sitemaps.FreshTitleExample | src/main/java/nl/ulso/magisto/sitemap/Sitemap.java:53-55 | When the new page object is iterated first, the sorted set keeps the new title |
| Planner.Head | src/main/java/nl/ulso/magisto/Magisto.java:176-178 | The next path is present exactly when the listing is not exhausted, and then it is the first one |
| Planner.CompareNullablePaths | src/main/java/nl/ulso/magisto/Magisto.java:180-191 | An exhausted source sorts last and an exhausted target sorts first. Otherwise the result is zero, negative or positive exactly as the source's key (its converted name when it is Markdown) equals, precedes or follows the target |
| Planner.IsSourceNewerThanTarget | src/main/java/nl/ulso/magisto/Magisto.java:193-197 | The test succeeds exactly when both files exist and answers whether the source is strictly newer |
| Planner.CorrespondingDecision | src/main/java/nl/ulso/magisto/Magisto.java:127-140 | With a matching target: convert exactly when the source is Markdown and newer or conversion is forced; copy a newer non-Markdown file, or any file when copying is forced and conversion does not apply; otherwise skip |
| Planner.CorrespondingAction | src/main/java/nl/ulso/magisto/Magisto.java:127-140 | The action for a matched source is on the source path, is a Source action, and follows that decision table with the real timestamps |
| Planner.NewSourceAction | src/main/java/nl/ulso/magisto/Magisto.java:144-150 | A source without a target is converted exactly when it is Markdown and copied otherwise |
| Planner.Merge | src/main/java/nl/ulso/magisto/Magisto.java:122-156 | The merge emits at least one action per source and per target and at most one per listed path, all of them Source actions |
| Planner.MergeIsPlanned | src/main/java/nl/ulso/magisto/Magisto.java:122-156 | On sorted listings the merge's source actions are exactly, in order, the per-source decision against each source's counterpart target. Its deletes are exactly the targets no source maps to |
| Planner.MergeCoversSources | src/main/java/nl/ulso/magisto/Magisto.java:122-156 | Every listed source gets an action, sorted listings or not |
| Planner.MergeWithinInputs | src/main/java/nl/ulso/magisto/Magisto.java:122-156 | Every action of the merge is on a listed source or a listed target |
| Planner.Planned | src/main/java/nl/ulso/magisto/Magisto.java:127-150 | The reference plan has one action per source, in order, each on that source's path and none of them a delete |
| Planner.Unmatched | src/main/java/nl/ulso/magisto/Magisto.java:152-155 | The targets to delete are exactly the listed targets whose name is no source's key |
| Planner.UpToDateIsSkipped | src/main/java/nl/ulso/magisto/Magisto.java:127-139 | Without forcing, a source whose counterpart is at least as new is skipped |
| Planner.StaticAction | src/main/java/nl/ulso/magisto/Magisto.java:166-172 | A static file is copied exactly when copying is forced, its target is missing, or it is strictly newer than the target; otherwise it is skipped |
| Planner.StaticActionsOf | src/main/java/nl/ulso/magisto/Magisto.java:164-173 | One static action per listed static path, in listing order |
| Planner.AddStaticActions | src/main/java/nl/ulso/magisto/Magisto.java:159-174 | Without a .static directory there are no static actions, and with one every static path gets its decision |
| Planner.StaticPaths | src/main/java/nl/ulso/magisto/Magisto.java:159-174 | The static actions cover exactly the listed static paths |
| Planner.RunContext | src/main/java/nl/ulso/magisto/Magisto.java:73-116 | Planning needs an absolute source root. Conversion is forced exactly when copying is forced, the current sitemap is empty, or the custom template changed |
| Planner.MissingSitemapForcesConversion | src/main/java/nl/ulso/magisto/Magisto.java:73-76 | On the first run, without a sitemap, every Markdown document is reconverted |
| Planner.PlanActions | src/main/java/nl/ulso/magisto/Magisto.java:73-77 | A failure to settle the run's flags is passed on. Otherwise the result is `Planner.Plan` under those flags: every source has an action, and so does every static path when .static exists, and every planned path is a listed source, target or static path |
| Planner.Plan | src/main/java/nl/ulso/magisto/Magisto.java:75-77 | The only failure is IllegalStateException. On success no path has two merge actions. A path that only the merge names holds its merge action, and a path that only .static names holds its `StaticAction`. A path both name holds what determineAction makes of the two |
| Planner.SourcesThenStatics | src/main/java/nl/ulso/magisto/action/ActionSet.java:100-132 | Source-side actions, then static ones, added to an empty set leave that per-path plan |
| Planner.MergedStored | src/main/java/nl/ulso/magisto/action/ActionSet.java:100-120 | A successful add of the merge's actions to an empty set stores each one, and no two share a path |
| Planner.MarkdownSourceKey | src/main/java/nl/ulso/magisto/Magisto.java:187-188 | A source stem.ext with a Markdown extension in any letter case is supported and is compared as stem.html in the same directory |
| Planner.SourceKeyIsNotOwnName | src/main/java/nl/ulso/magisto/Magisto.java:187-188 | A Markdown source is never compared under its own name, since its key ends in html, which is not a Markdown extension |
| Planner.MergeExample | src/main/java/nl/ulso/magisto/Magisto.java:122-156 | A Markdown source newer than its converted target, then a new non-Markdown source sorting before a stale target, give in order: convert the document, copy the new file, delete the stale target |
| Planner.StrayMarkdownTargetConflicts | src/main/java/nl/ulso/magisto/Magisto.java:144-155 | A Markdown source and a target with the same name give a convert and a delete on that one path, in the order of the converted name and the stray name, and adding both fails with IllegalStateException |
| Planner.SamePathTwiceFails | src/main/java/nl/ulso/magisto/action/ActionSet.java:100-120 | Adding two source-side actions on one path to an empty set fails with IllegalStateException |
| Planner.ListedBeforeNeighbourConflicts | src/main/java/nl/ulso/magisto/Magisto.java:117-156 | A Markdown source listed before a non-Markdown source whose name sorts below the Markdown source's key, with that other source already in the target: the merge deletes the target, converts, then copies, and the action set refuses the run |
| Planner.CopyAfterDeleteFails | src/main/java/nl/ulso/magisto/action/ActionSet.java:100-120 | A delete, an action on another path, and a copy of the deleted path: the copy is refused |
| Planner.StyleSheetBesideMarkdown | src/main/java/nl/ulso/magisto/Magisto.java:117-156 | Sources stem.md then stem.css, and target stem.css: delete stem.css, convert stem.md, copy stem.css, and the run is refused |
| Planner.StyleSheetSortsFirst | src/main/java/nl/ulso/magisto/Magisto.java:185-190 | stem.md is Markdown and stem.css is not, and stem.css sorts below stem.html, the key stem.md is compared under |

## Left out

- The real file system, the FreeMarker template engine, Markdown parsing and rendering, JSON
  text, git history, logging, statistics and the factory wiring. The model fixes the
  operations over those parts instead:
  - the file system is a snapshot map;
  - a conversion writes `render(path)` stamped `now`, both taken from the environment;
  - documents' titles are a map from source path to title.
- `ConvertSourceAction` and the document loader's `loadDocument` are not part of this model.
  A conversion's effect is the `Write` described above.
- `FileSystem.findAllPaths` and the prioritising path comparator are not part of this model.
  Listings are parameters that satisfy `Planner.Listed`.
- Planner.MergeIsPlanned: holds only for listings sorted strictly by merge key. That is not
  the order the code lists in. Sources are listed with the Markdown extensions first among
  names of one stem (`SourcePathComparatorTest`), and targets with html first. The merge
  compares a Markdown source under its converted name. The lemma therefore leaves out:
  - a source a.md next to a.css, or next to any other name of that stem that sorts below
    a.html (see Findings and `Planner.StyleSheetBesideMarkdown`);
  - a target a.html next to a.css;
  - a Markdown source next to a source that already has the converted name;
  - two Markdown sources with one stem, such as a.md and a.markdown, which share the key
    a.html and which the code's merge accepts.
- `Magisto.run`'s remaining I/O is left out: preparing directories, saving the sitemap,
  writing the touch file, and performing the actions. `PlanActions` stops at the planned
  action set. Performing it is `ActionSets.PerformAll`, and updating the sitemap is
  `Sitemaps.Apply`.
- Case-insensitive matching folds only ASCII letters. Java's full Unicode case mapping is
  not modelled.
- FileStores.Copy: a new directory is stamped with the run's `now`, standing in for the
  file system's clock. The root of the file system is taken to have no parent, so a copy
  that would create or replace the root fails.
- FileStores.Write: the file system root itself is taken to have no parent, so writing to
  it fails. A relative location is refused, since the store holds absolute paths only.
- JsonValues.GetString: a page's null file is refused at once with a NullPointerException.
  The sorted page set raises it only when the page is compared on its file, which depends
  on the other pages and the hash order.
- Directories.FromJson: a null or absent directory name, and a null or absent page file or
  title, are refused with a NullPointerException. The code keeps a directory named null
  and stores such pages.
- Sitemaps.Load: of two stored entries with one key, the first in the file is kept. The
  code adds them to an identity hash set and then to the sorted set, so hash order decides
  which title survives.
- Strings.HashCode: a fold over code points. Path.hashCode folds bytes and String.hashCode
  folds UTF-16 units, so the values differ. Only the 32-bit range, and equal texts hashing
  alike, are stated.
- Merge: its ensures bound the number of actions. The full description, which actions
  occur and in which order, is `Planner.MergeIsPlanned`, which needs sorted listings.
- Sitemaps.TreeSetOf: states membership only. Which title wins is in
  `Sitemaps.TreeSetKeepsFirst` and `Sitemaps.TreeSetMembers`.
- ActionSets.PerformAll: a failing action ends the run there, as the Java loop does by
  throwing. Best-effort continuation is not modelled.
- Directories.GetDirectory: a missing directory on the way gives `None`, where the code
  throws a NullPointerException.
- Directories.NothingBelowNewDirectory: Java would throw a NullPointerException when
  looking up a missing subdirectory. The model returns `None`.

### Where the code and its description part ways

In each case the model follows the code.

- `ActionSet.performAll` stops at the first action that throws, rather than continuing with
  the remaining actions.
- Sitemap page identities come from the change paths. An insert uses the converted source
  path, such as a.md, and a delete uses the target path, such as a.html.
- The version check in `Sitemap.load` turns any other integer version into an IOException.
  `loadCurrentSitemap` then treats that like a missing file. A version that is not an
  integer is a ClassCastException, which `loadCurrentSitemap` does not catch.
- The static-file decision reads the `forceCopy` field (`Magisto.java:167`), and so does the
  forced copy of matched sources (`Magisto.java:136`). The `forceOverwrite` parameter, which
  also covers an empty sitemap, only feeds `forceConvert`.
- `forceConvert` short-circuits: the custom template is not examined when `forceOverwrite`
  already holds (`Magisto.java:116`).
- `Magisto.java:79` passes two arguments to `Sitemap.apply`, which takes three
  (`Sitemap.java:112`).
- `ActionSet.java:90` calls `perform(fileSystem, sourceRoot, targetRoot)`, while the action
  classes define `perform()` with roots held in fields. The model passes the roots in an
  environment.
- `Directory.java:106` and `Directory.java:115` build pages with `Page(String)` and
  `Page(String, String)`, which `Page.java` does not declare. Directory pages are modelled as
  a map from file name to title, with the "filename"/"title" JSON fields.
- Two string orders are at work. Paths compare by their UTF-8 bytes, which is code point
  order (`Paths.Compare`, used by the merge and the action order). Pages compare their
  directory and file with `String.compareTo`, which orders UTF-16 code units
  (`Pages.Compare`). A character from U+10000 up sorts below U+E000 to U+FFFF in the second
  order and above them in the first. Only the order of saved pages depends on it.
- `Paths.requireRelativePath` and `Paths.requireAbsolutePath` are not part of this model.
  Their failures are taken to be IllegalArgumentException.
- `ActionComparator` is not part of this model. Its order is taken from the comparator test
  and the comment in `Magisto.run`:
  - skips, then deletes, then copies, then conversions;
  - deletes in reverse path order;
  - everything else in path order.

## Findings

| source | as written | input that shows it | evidently intended | confidence | as-written member | corrected member |
|---|---|---|---|---|---|---|
| src/main/java/nl/ulso/magisto/sitemap/Sitemap.java:117-123 | The DELETE case has no `break`, so it falls through into INSERT_OR_UPDATE. That branch looks up a title and re-adds the page | A sitemap holding old.html and the change Delete old.html, where old.html has no source document: as written this is an IOException, and otherwise the page is re-added | A delete only removes the page | not executed | Sitemaps.DeleteFallsThroughExample | Sitemaps.LastChangeWins |
| src/main/java/nl/ulso/magisto/sitemap/Page.java:68-75 | `Page` defines `compareTo` but neither `equals` nor `hashCode`. So `Sitemap.apply`'s `HashSet` remove (Sitemap.java:118) never matches a stored page, and the re-sorted `TreeSet` keeps whichever page with a given key the hash set yields first. That may be the stale one, depending on identity hash order | A sitemap holding a.html titled "Old" and InsertOrUpdate a.html with title "New": when the old page object is iterated first, the result still says "Old" | An update replaces the page's title | not executed | Sitemaps.StaleTitleExample | Sitemaps.Apply |
| src/main/java/nl/ulso/magisto/Magisto.java:117-120 | Sources are listed with the Markdown extensions first among names of one stem, but the merge compares a Markdown source under its converted name (Magisto.java:187-190). A source of the same stem whose name sorts below stem.html is listed after the Markdown source, though its key sorts before | Sources a.md and a.css, with a.css copied to the target on an earlier run: the merge deletes a.css, converts a.md, then copies a.css, and the action set refuses the copy with an IllegalStateException, so the run aborts | The listings are sorted by the key the merge compares, so each source meets its own target | not executed; plausible but unverified, because the listing comparator (`Paths.prioritizeOnExtension`) is not part of this model and its order is taken from SourcePathComparatorTest | Planner.StyleSheetBesideMarkdown | Planner.MergeIsPlanned |

=== FILE: action_set.dfy ===
/**
 * ActionSet: at most one action per path, a rule that settles a SOURCE/STATIC collision
 * on the same path, the index changes the set implies, and the ordered execution of all of it.
 */
module ActionSets {
  import opened Outcomes
  import opened Paths
  import opened FileStores
  import opened Actions
  import opened Changes
  import Walks

  /** The path-to-action map. */
  datatype ActionSet = ActionSet(actions: map<Path, Action>)

  /** Every action is stored under its own path. */
  predicate Valid(s: ActionSet)
  {
    forall p :: p in s.actions ==> s.actions[p].path == p
  }

  function EmptySet(): (r: ActionSet)
    ensures Valid(r) && |r.actions| == 0
  {
    ActionSet(map[])
  }

  /**
   * determineAction for two actions of different categories on the same path: the SOURCE
   * action wins, unless it is a delete, in which case the STATIC action wins.
   */
  function DetermineAction(a: Action, b: Action): (r: Action)
    requires a.Category() != b.Category()
    ensures r == a || r == b
    ensures r.actionType != DeleteTarget
    ensures r.Category() == Static <==> (if a.Category() == Source then a else b).actionType == DeleteTarget
    decreases if a.Category() == Static then 1 else 0
  {
    if a.Category() == Static then DetermineAction(b, a)
    else if a.actionType == DeleteTarget then b
    else a
  }

  /** The outcome of a collision does not depend on which action was added first. */
  lemma DetermineActionSymmetric(a: Action, b: Action)
    requires a.Category() != b.Category()
    ensures DetermineAction(a, b) == DetermineAction(b, a)
  {
  }

  /**
   * add: a new path stores the action as is; a second action of the same category for a
   * path is an IllegalStateException; otherwise the collision rule decides. The entry is
   * never removed, since the rule always picks one of the two.
   */
  function Add(s: ActionSet, a: Action): (r: Result<ActionSet>)
    requires Valid(s)
    ensures a.path !in s.actions ==> r == Success(ActionSet(s.actions[a.path := a]))
    ensures a.path in s.actions ==> (r.Failure? <==> s.actions[a.path].Category() == a.Category())
    ensures r.Failure? ==> r.error == IllegalStateException
    ensures r.Success? ==>
              && Valid(r.value)
              && r.value.actions.Keys == s.actions.Keys + {a.path}
              && (forall p :: p in s.actions && p != a.path ==> r.value.actions[p] == s.actions[p])
              && (a.path in s.actions ==> r.value.actions[a.path] == DetermineAction(s.actions[a.path], a))
              && |r.value.actions| >= |s.actions|
  {
    if a.path !in s.actions then Success(ActionSet(s.actions[a.path := a]))
    else
      var existing := s.actions[a.path];
      if existing.Category() == a.Category() then Failure(IllegalStateException)
      else Success(ActionSet(s.actions[a.path := DetermineAction(existing, a)]))
  }

  /** The paths of a sequence of actions. */
  function PathsOf(actions: seq<Action>): set<Path>
  {
    set i | 0 <= i < |actions| :: actions[i].path
  }

  lemma PathsOfCons(actions: seq<Action>)
    requires |actions| > 0
    ensures PathsOf(actions) == {actions[0].path} + PathsOf(actions[1..])
  {
    forall p | p in PathsOf(actions) ensures p in {actions[0].path} + PathsOf(actions[1..]) {
      var i :| 0 <= i < |actions| && actions[i].path == p;
      if i > 0 { assert actions[1..][i - 1].path == p; }
    }
    forall p | p in PathsOf(actions[1..]) ensures p in PathsOf(actions) {
      var i :| 0 <= i < |actions[1..]| && actions[1..][i].path == p;
      assert actions[i + 1].path == p;
    }
  }

  /** Adding actions one after the other; the first exception ends it. */
  function AddAll(s: ActionSet, actions: seq<Action>): (r: Result<ActionSet>)
    requires Valid(s)
    ensures r.Success? ==> Valid(r.value) && r.value.actions.Keys == s.actions.Keys + PathsOf(actions)
    ensures r.Failure? ==> r.error == IllegalStateException
    decreases |actions|
  {
    if |actions| == 0 then Success(s)
    else
      match Add(s, actions[0])
      case Failure(e) => Failure(e)
      case Success(s') =>
        PathsOfCons(actions);
        AddAll(s', actions[1..])
  }

  /** The paths of the actions are pairwise different. */
  predicate DistinctPaths(actions: seq<Action>)
  {
    forall i, j :: 0 <= i < j < |actions| ==> actions[i].path != actions[j].path
  }

  /** None of the actions' paths is in the set yet. */
  predicate FreshPaths(s: ActionSet, actions: seq<Action>)
  {
    forall i :: 0 <= i < |actions| ==> actions[i].path !in s.actions
  }

  /** t holds every one of the actions under its path and every entry of s unchanged. */
  predicate Stores(t: ActionSet, s: ActionSet, actions: seq<Action>)
  {
    && (forall i :: 0 <= i < |actions| ==> actions[i].path in t.actions && t.actions[actions[i].path] == actions[i])
    && (forall p :: p in s.actions ==> p in t.actions && t.actions[p] == s.actions[p])
  }

  /** Actions on pairwise different new paths are all stored unchanged. */
  lemma {:induction false} AddAllDistinct(s: ActionSet, actions: seq<Action>)
    requires Valid(s) && DistinctPaths(actions) && FreshPaths(s, actions)
    ensures AddAll(s, actions).Success? && Stores(AddAll(s, actions).value, s, actions)
    decreases |actions|
  {
    if |actions| > 0 {
      var s' := AddFresh(s, actions);
      AddAllDistinct(s', actions[1..]);
      StoredTail(AddAll(s', actions[1..]).value, s, s', actions);
    }
  }

  /** The first of the actions goes into the set as is, and the rest still find their paths free. */
  lemma AddFresh(s: ActionSet, actions: seq<Action>) returns (s': ActionSet)
    requires Valid(s) && DistinctPaths(actions) && FreshPaths(s, actions) && |actions| > 0
    ensures s' == ActionSet(s.actions[actions[0].path := actions[0]]) && Valid(s')
    ensures AddAll(s, actions) == AddAll(s', actions[1..])
    ensures DistinctPaths(actions[1..]) && FreshPaths(s', actions[1..])
  {
    assert actions[0].path !in s.actions;
    s' := Add(s, actions[0]).value;
    AddAllFirst(s, actions);
    FreshTail(s, actions);
  }

  /** A run of adds whose first add succeeds continues from the set that add gives. */
  lemma AddAllFirst(s: ActionSet, actions: seq<Action>)
    requires Valid(s) && |actions| > 0 && Add(s, actions[0]).Success?
    ensures AddAll(s, actions) == AddAll(Add(s, actions[0]).value, actions[1..])
  {
  }

  lemma FreshTail(s: ActionSet, actions: seq<Action>)
    requires DistinctPaths(actions) && FreshPaths(s, actions) && |actions| > 0
    ensures DistinctPaths(actions[1..]) && FreshPaths(ActionSet(s.actions[actions[0].path := actions[0]]), actions[1..])
  {
    var s' := ActionSet(s.actions[actions[0].path := actions[0]]);
    forall i | 0 <= i < |actions[1..]| ensures actions[1..][i].path !in s'.actions {
      assert actions[1..][i] == actions[i + 1];
    }
  }

  /** What the rest of the adds store, together with the first action, is what the whole run stores. */
  lemma StoredTail(t: ActionSet, s: ActionSet, s': ActionSet, actions: seq<Action>)
    requires |actions| > 0 && actions[0].path !in s.actions
    requires s' == ActionSet(s.actions[actions[0].path := actions[0]])
    requires Stores(t, s', actions[1..])
    ensures Stores(t, s, actions)
  {
    forall i | 0 <= i < |actions| ensures actions[i].path in t.actions && t.actions[actions[i].path] == actions[i] {
      if i > 0 { assert actions[i] == actions[1..][i - 1]; }
    }
  }

  // ---------------------------------------------------------------------------------------
  // What a run of adds leaves on one path
  // ---------------------------------------------------------------------------------------

  /** None of the actions is on path q. */
  predicate Avoids(actions: seq<Action>, q: Path)
  {
    forall i :: 0 <= i < |actions| ==> actions[i].path != q
  }

  /** Every action on path q has category k. */
  predicate OnPathOfCategory(actions: seq<Action>, q: Path, k: ActionCategory)
  {
    forall i :: 0 <= i < |actions| && actions[i].path == q ==> actions[i].Category() == k
  }

  /** Adds on other paths leave the action stored at q as it was. */
  lemma {:induction false} AddAllFrame(s: ActionSet, actions: seq<Action>, q: Path)
    requires Valid(s) && q in s.actions && Avoids(actions, q)
    ensures AddAll(s, actions).Success? ==>
              q in AddAll(s, actions).value.actions && AddAll(s, actions).value.actions[q] == s.actions[q]
    decreases |actions|
  {
    if |actions| > 0 && Add(s, actions[0]).Success? {
      var s' := Add(s, actions[0]).value;
      AddAllFirst(s, actions);
      AvoidsTail(actions, q);
      AddAllFrame(s', actions[1..], q);
    }
  }

  lemma AvoidsTail(actions: seq<Action>, q: Path)
    requires |actions| > 0 && Avoids(actions, q)
    ensures Avoids(actions[1..], q)
  {
    forall i | 0 <= i < |actions[1..]| ensures actions[1..][i].path != q {
      assert actions[1..][i] == actions[i + 1];
    }
  }

  lemma OnPathOfCategoryTail(actions: seq<Action>, q: Path, k: ActionCategory)
    requires |actions| > 0 && OnPathOfCategory(actions, q, k)
    ensures OnPathOfCategory(actions[1..], q, k)
  {
    forall i | 0 <= i < |actions[1..]| && actions[1..][i].path == q ensures actions[1..][i].Category() == k {
      assert actions[1..][i] == actions[i + 1];
    }
  }

  /**
   * Once path q holds an action of category k, a later action of that category on q is
   * refused: a run of adds that succeeds has no such action.
   */
  lemma {:induction false} AddAllRefusesSameCategory(s: ActionSet, actions: seq<Action>, q: Path)
    requires Valid(s) && q in s.actions && OnPathOfCategory(actions, q, s.actions[q].Category())
    ensures AddAll(s, actions).Success? ==> Avoids(actions, q)
    decreases |actions|
  {
    if |actions| > 0 && Add(s, actions[0]).Success? {
      assert actions[0].path != q;
      var s' := Add(s, actions[0]).value;
      assert q in s'.actions && s'.actions[q] == s.actions[q];
      AddAllFirst(s, actions);
      OnPathOfCategoryTail(actions, q, s.actions[q].Category());
      AddAllRefusesSameCategory(s', actions[1..], q);
      if AddAll(s, actions).Success? {
        AvoidsCons(actions, q);
      }
    }
  }

  lemma AvoidsCons(actions: seq<Action>, q: Path)
    requires |actions| > 0 && actions[0].path != q && Avoids(actions[1..], q)
    ensures Avoids(actions, q)
  {
    forall i | 0 < i < |actions| ensures actions[i].path != q {
      assert actions[i] == actions[1..][i - 1];
    }
  }

  /**
   * A new path q whose actions all have one category: a run of adds that succeeds holds
   * exactly one action on q, and that is the action stored.
   */
  lemma {:induction false} AddAllNewPath(s: ActionSet, actions: seq<Action>, q: Path, k: ActionCategory)
    requires Valid(s) && q !in s.actions && OnPathOfCategory(actions, q, k)
    ensures AddAll(s, actions).Success? ==>
              forall i :: 0 <= i < |actions| && actions[i].path == q ==>
                && q in AddAll(s, actions).value.actions
                && AddAll(s, actions).value.actions[q] == actions[i]
                && forall j :: 0 <= j < |actions| && j != i ==> actions[j].path != q
    decreases |actions|
  {
    if |actions| > 0 && Add(s, actions[0]).Success? && AddAll(s, actions).Success? {
      var s' := Add(s, actions[0]).value;
      AddAllFirst(s, actions);
      OnPathOfCategoryTail(actions, q, k);
      var t := AddAll(s', actions[1..]).value;
      if actions[0].path == q {
        AddAllRefusesSameCategory(s', actions[1..], q);
        AddAllFrame(s', actions[1..], q);
        NewPathFirst(actions, q, t);
      } else {
        AddAllNewPath(s', actions[1..], q, k);
        NewPathLater(actions, q, t);
      }
    }
  }

  /** The first action is the one on q, and no later one is. */
  lemma NewPathFirst(actions: seq<Action>, q: Path, t: ActionSet)
    requires |actions| > 0 && actions[0].path == q && Avoids(actions[1..], q)
    requires q in t.actions && t.actions[q] == actions[0]
    ensures forall i :: 0 <= i < |actions| && actions[i].path == q ==>
              && q in t.actions && t.actions[q] == actions[i]
              && forall j :: 0 <= j < |actions| && j != i ==> actions[j].path != q
  {
    forall j | 0 < j < |actions| ensures actions[j].path != q {
      assert actions[j] == actions[1..][j - 1];
    }
    forall i | 0 <= i < |actions| && actions[i].path == q ensures i == 0 {
    }
  }

  /** The action on q comes later: what the rest of the adds store is what the whole run stores. */
  lemma NewPathLater(actions: seq<Action>, q: Path, t: ActionSet)
    requires |actions| > 0 && actions[0].path != q
    requires forall i :: 0 <= i < |actions[1..]| && actions[1..][i].path == q ==>
               && q in t.actions && t.actions[q] == actions[1..][i]
               && forall j :: 0 <= j < |actions[1..]| && j != i ==> actions[1..][j].path != q
    ensures forall i :: 0 <= i < |actions| && actions[i].path == q ==>
              && q in t.actions && t.actions[q] == actions[i]
              && forall j :: 0 <= j < |actions| && j != i ==> actions[j].path != q
  {
    forall i | 0 <= i < |actions| && actions[i].path == q
      ensures q in t.actions && t.actions[q] == actions[i]
      ensures forall j :: 0 <= j < |actions| && j != i ==> actions[j].path != q
    {
      assert i > 0 && actions[i] == actions[1..][i - 1];
      forall j | 0 < j < |actions| && j != i ensures actions[j].path != q {
        assert actions[j] == actions[1..][j - 1];
      }
    }
  }

  /**
   * Static actions on a path that already holds a source action: a run of adds that
   * succeeds leaves there what the collision rule makes of the source action and each
   * static one. A source action other than a delete stays; a delete gives way to the
   * single static action, since a second one would be refused.
   */
  lemma {:induction false} AddAllOntoSource(s: ActionSet, actions: seq<Action>, q: Path)
    requires Valid(s) && q in s.actions && s.actions[q].Category() == Source
    requires OnPathOfCategory(actions, q, Static)
    ensures AddAll(s, actions).Success? ==> q in AddAll(s, actions).value.actions
    ensures AddAll(s, actions).Success? && s.actions[q].actionType != DeleteTarget ==>
              AddAll(s, actions).value.actions[q] == s.actions[q]
    ensures AddAll(s, actions).Success? ==>
              forall i :: 0 <= i < |actions| && actions[i].path == q ==>
                AddAll(s, actions).value.actions[q] == DetermineAction(s.actions[q], actions[i])
    decreases |actions|
  {
    if |actions| > 0 && Add(s, actions[0]).Success? && AddAll(s, actions).Success? {
      var s' := Add(s, actions[0]).value;
      AddAllFirst(s, actions);
      OnPathOfCategoryTail(actions, q, Static);
      var t := AddAll(s', actions[1..]).value;
      if actions[0].path != q || s.actions[q].actionType != DeleteTarget {
        assert s'.actions[q] == s.actions[q];
        AddAllOntoSource(s', actions[1..], q);
        OntoSourceLater(s.actions[q], actions, q, t);
      } else {
        assert s'.actions[q] == actions[0];
        AddAllRefusesSameCategory(s', actions[1..], q);
        AddAllFrame(s', actions[1..], q);
        OntoDeleteFirst(s.actions[q], actions, q, t);
      }
    }
  }

  /** The source action stays, or the action on q comes later. */
  lemma OntoSourceLater(existing: Action, actions: seq<Action>, q: Path, t: ActionSet)
    requires |actions| > 0 && existing.Category() == Source && OnPathOfCategory(actions, q, Static)
    requires q in t.actions
    requires actions[0].path == q ==> existing.actionType != DeleteTarget && t.actions[q] == existing
    requires forall i :: 0 <= i < |actions[1..]| && actions[1..][i].path == q ==>
               t.actions[q] == DetermineAction(existing, actions[1..][i])
    ensures forall i :: 0 <= i < |actions| && actions[i].path == q ==>
              t.actions[q] == DetermineAction(existing, actions[i])
  {
    forall i | 0 <= i < |actions| && actions[i].path == q
      ensures t.actions[q] == DetermineAction(existing, actions[i])
    {
      if i > 0 { assert actions[i] == actions[1..][i - 1]; }
    }
  }

  /** A delete gave way to the first static action on q, and no later one is on q. */
  lemma OntoDeleteFirst(existing: Action, actions: seq<Action>, q: Path, t: ActionSet)
    requires |actions| > 0 && actions[0].path == q && OnPathOfCategory(actions, q, Static)
    requires existing.actionType == DeleteTarget
    requires Avoids(actions[1..], q)
    requires q in t.actions && t.actions[q] == actions[0]
    ensures forall i :: 0 <= i < |actions| && actions[i].path == q ==>
              t.actions[q] == DetermineAction(existing, actions[i])
  {
    forall i | 0 <= i < |actions| && actions[i].path == q
      ensures t.actions[q] == DetermineAction(existing, actions[i])
    {
      assert i == 0;
    }
  }

  /**
   * The change an action implies for the index: a conversion inserts or updates the page,
   * a delete deletes it, skips and copies imply none.
   */
  function ChangeFor(a: Action): (r: Option<Change>)
    ensures r.Some? <==> a.actionType == ConvertSource || a.actionType == DeleteTarget
    ensures r.Some? ==> r.value.path == a.path
    ensures r.Some? ==> (r.value.changeType == InsertOrUpdate <==> a.actionType == ConvertSource)
  {
    match a.actionType
    case ConvertSource => Some(Change(InsertOrUpdate, a.path))
    case DeleteTarget => Some(Change(Changes.Delete, a.path))
    case SkipSource | SkipStatic | CopySource | CopyStatic => None
  }

  /**
   * computeChanges: one change per stored conversion or delete, with the same path, and
   * nothing else; the map is walked in no particular order.
   */
  method ComputeChanges(s: ActionSet) returns (changes: seq<Change>)
    requires Valid(s)
    ensures forall p :: p in s.actions && ChangeFor(s.actions[p]).Some? ==> ChangeFor(s.actions[p]).value in changes
    ensures forall c :: c in changes ==> c.path in s.actions && ChangeFor(s.actions[c.path]) == Some(c)
    ensures forall i, j :: 0 <= i < j < |changes| ==> changes[i].path != changes[j].path
  {
    changes := [];
    var remaining := s.actions.Keys;
    while remaining != {}
      invariant remaining <= s.actions.Keys
      invariant forall p :: p in s.actions && p !in remaining && ChangeFor(s.actions[p]).Some? ==>
                  ChangeFor(s.actions[p]).value in changes
      invariant forall c :: c in changes ==>
                  c.path in s.actions && c.path !in remaining && ChangeFor(s.actions[c.path]) == Some(c)
      invariant forall i, j :: 0 <= i < j < |changes| ==> changes[i].path != changes[j].path
      decreases |remaining|
    {
      var p :| p in remaining;
      var change := ChangeFor(s.actions[p]);
      if change.Some? {
        changes := changes + [change.value];
      }
      remaining := remaining - {p};
    }
  }

  /** Inserting an action on a new path keeps the paths pairwise different. */
  lemma InsertKeepsDistinct(before: seq<Action>, x: Action, at: nat)
    requires DistinctPaths(before) && at <= |before|
    requires forall k :: 0 <= k < |before| ==> before[k].path != x.path
    ensures DistinctPaths(before[..at] + [x] + before[at..])
  {
    var order := before[..at] + [x] + before[at..];
    forall i, j | 0 <= i < j < |order| ensures order[i].path != order[j].path {
      if i < at && j == at {
        assert order[i] == before[i];
      } else if i == at {
        assert order[j] == before[j - 1];
      } else if i < at && j > at {
        assert order[i] == before[i] && order[j] == before[j - 1];
      } else if i > at {
        assert order[i] == before[i - 1] && order[j] == before[j - 1];
      } else {
        assert order[i] == before[i] && order[j] == before[j];
      }
    }
  }

  /** Inserting adds exactly the one action. */
  lemma InsertMembers(before: seq<Action>, x: Action, at: nat)
    requires at <= |before|
    ensures forall a :: a in before[..at] + [x] + before[at..] <==> a in before || a == x
    ensures |before[..at] + [x] + before[at..]| == |before| + 1
  {
    assert before == before[..at] + before[at..];
  }

  /**
   * The sequence holds exactly the stored actions of the paths in done, in execution order
   * and one per path.
   */
  ghost predicate SortedStored(order: seq<Action>, s: ActionSet, done: set<Path>)
  {
    && SortedForExecution(order)
    && DistinctPaths(order)
    && |order| == |done|
    && forall a :: a in order <==> a.path in done && a.path in s.actions && s.actions[a.path] == a
  }

  /** Inserting the stored action of one more path keeps the sequence sorted and exact. */
  method InsertStored(s: ActionSet, before: seq<Action>, ghost done: set<Path>, p: Path)
    returns (order: seq<Action>)
    requires Valid(s) && p in s.actions && p !in done
    requires SortedStored(before, s, done)
    ensures SortedStored(order, s, done + {p})
  {
    var x := s.actions[p];
    var at;
    order, at := Insert(before, x);
    forall k | 0 <= k < |before| ensures before[k].path != x.path {
      assert before[k] in before;
    }
    InsertKeepsDistinct(before, x, at);
    InsertMembers(before, x, at);
  }

  /** The stored actions in execution order: sorted, each stored action exactly once. */
  method SortForExecution(s: ActionSet) returns (order: seq<Action>)
    requires Valid(s)
    ensures SortedForExecution(order)
    ensures forall a :: a in order <==> a.path in s.actions && s.actions[a.path] == a
    ensures DistinctPaths(order)
    ensures |order| == |s.actions|
  {
    order := [];
    var remaining := s.actions.Keys;
    while remaining != {}
      invariant remaining <= s.actions.Keys
      invariant SortedStored(order, s, s.actions.Keys - remaining)
      decreases |remaining|
    {
      var p :| p in remaining;
      order := InsertStored(s, order, s.actions.Keys - remaining, p);
      Walks.TakeOne(s.actions.Keys, remaining, p);
      remaining := remaining - {p};
    }
    assert s.actions.Keys - remaining == s.actions.Keys;
  }

  /**
   * performAll: performs every stored action once, in execution order, and hands each one,
   * wrapped so that it cannot be performed again, to the callback. An exception from an
   * action ends the run; the callbacks made up to then stand.
   */
  method PerformAll(s: ActionSet, fs: FileStore, env: Environment)
    returns (order: seq<Action>, r: Result<FileStore>, notified: seq<BlockedAction>)
    requires Valid(s)
    ensures SortedForExecution(order) && DistinctPaths(order) && |order| == |s.actions|
    ensures forall a :: a in order <==> a.path in s.actions && s.actions[a.path] == a
    ensures r == PerformSequence(order, fs, env)
    ensures r.Success? ==> |notified| == |order|
    ensures r.Failure? ==> |notified| < |order|
    ensures |notified| <= |order| && forall i :: 0 <= i < |notified| ==> notified[i] == BlockedAction(order[i])
  {
    order := SortForExecution(s);
    r, notified := PerformInOrder(order, fs, env);
  }

  /** The loop of performAll over an ordered sequence of actions. */
  method PerformInOrder(order: seq<Action>, fs: FileStore, env: Environment)
    returns (r: Result<FileStore>, notified: seq<BlockedAction>)
    ensures r == PerformSequence(order, fs, env)
    ensures r.Success? ==> |notified| == |order|
    ensures r.Failure? ==> |notified| < |order|
    ensures |notified| <= |order| && forall i :: 0 <= i < |notified| ==> notified[i] == BlockedAction(order[i])
  {
    var current := fs;
    var i := 0;
    notified := [];
    while i < |order|
      invariant i <= |order| && |notified| == i
      invariant forall k :: 0 <= k < i ==> notified[k] == BlockedAction(order[k])
      invariant PerformSequence(order, fs, env) == PerformSequence(order[i..], current, env)
    {
      var step := Perform(order[i], current, env);
      PerformSequenceFirst(order[i..], current, env);
      if step.Failure? {
        r := Failure(step.error);
        return;
      }
      assert order[i..][1..] == order[i + 1..];
      current := step.value;
      notified := notified + [BlockedAction(order[i])];
      i := i + 1;
    }
    r := Success(current);
  }

  /** Running a sequence is running its first action, then the rest on what that left. */
  lemma PerformSequenceFirst(actions: seq<Action>, fs: FileStore, env: Environment)
    requires |actions| > 0
    ensures Perform(actions[0], fs, env).Failure? ==>
              PerformSequence(actions, fs, env) == Failure(Perform(actions[0], fs, env).error)
    ensures Perform(actions[0], fs, env).Success? ==>
              PerformSequence(actions, fs, env) == PerformSequence(actions[1..], Perform(actions[0], fs, env).value, env)
  {
  }
}

=== FILE: actions.dfy ===
/**
 * The closed family of actions the planner emits: one tagged variant per action class,
 * the category each belongs to, the effect of performing it on the file store, and the
 * order in which a set of them is executed.
 */
module Actions {
  import opened Outcomes
  import opened Paths
  import opened FileStores
  import Strings
  import FreeMarker

  /** ActionCategory: which tree an action stems from. A delete counts as SOURCE. */
  datatype ActionCategory = Source | Static

  /** ActionType, one per action class. */
  datatype ActionType = SkipSource | SkipStatic | CopySource | CopyStatic | ConvertSource | DeleteTarget

  function CategoryOf(t: ActionType): ActionCategory
  {
    match t
    case SkipStatic | CopyStatic => Static
    case SkipSource | CopySource | ConvertSource | DeleteTarget => Source
  }

  /** An action: the relative path it works on and its class. */
  datatype Action = Action(path: Path, actionType: ActionType) {
    function Category(): ActionCategory { CategoryOf(actionType) }
  }

  /**
   * What performing an action needs besides the file store: the three roots, the rendered
   * page the converter writes for a source path, and the clock the written file is stamped with.
   */
  datatype Environment = Environment(sourceRoot: Location, staticRoot: Location, targetRoot: Location,
                                     render: Path -> string, now: int)

  /** The roots a constructor of the given class demands to be absolute. */
  predicate RootsAbsolute(t: ActionType, env: Environment)
  {
    match t
    case CopySource => env.sourceRoot.absolute && env.targetRoot.absolute
    case CopyStatic => env.staticRoot.absolute && env.targetRoot.absolute
    case DeleteTarget => env.targetRoot.absolute
    case SkipSource | SkipStatic | ConvertSource => true
  }

  /**
   * The action constructors: the path must be relative (AbstractAction) and the roots the
   * class keeps absolute; either violation is an IllegalArgumentException.
   */
  function NewAction(t: ActionType, path: Location, env: Environment): (r: Result<Action>)
    ensures r.Success? <==> !path.absolute && RootsAbsolute(t, env)
    ensures r.Failure? ==> r.error == IllegalArgumentException
    ensures r.Success? ==> r.value.path == path.names && r.value.actionType == t
  {
    if path.absolute || !RootsAbsolute(t, env) then Failure(IllegalArgumentException)
    else Success(Action(path.names, t))
  }

  /** The category of each class, as the class passes it to its super constructor. */
  lemma CategoryTable()
    ensures CategoryOf(CopySource) == Source && CategoryOf(ConvertSource) == Source
    ensures CategoryOf(DeleteTarget) == Source && CategoryOf(SkipSource) == Source
    ensures CategoryOf(CopyStatic) == Static && CategoryOf(SkipStatic) == Static
  {
  }

  /** AbstractAction.equals: same class and equal paths, which is plain equality of actions. */
  function Equals(a: Action, b: Action): (r: bool)
    ensures r <==> a == b
  {
    a.actionType == b.actionType && a.path == b.path
  }

  /** AbstractAction.hashCode: the hash of the path alone. */
  function HashCode(a: Action): int
  {
    Strings.HashCode(Join(a.path))
  }

  /** hashCode agrees with equals, and does not see the class at all. */
  lemma HashCodeConsistent(a: Action, b: Action)
    ensures Equals(a, b) ==> HashCode(a) == HashCode(b)
    ensures a.path == b.path ==> HashCode(a) == HashCode(b)
  {
  }

  /**
   * perform: skips leave the store alone; copies duplicate the file, or create the directory,
   * at the same relative path from the source or static root in the target root; a delete
   * removes the target entry; a conversion writes the rendered page under the converted
   * file name.
   */
  function Perform(a: Action, fs: FileStore, env: Environment): (r: Result<FileStore>)
    ensures a.actionType in {SkipSource, SkipStatic} ==> r == Success(fs)
    ensures a.actionType == CopySource && RootsAbsolute(CopySource, env) ==>
              && (r.Success? <==> CopyPossible(fs, Resolve(env.sourceRoot, a.path).names, Resolve(env.targetRoot, a.path).names))
              && (r.Success? ==>
                    && Resolve(env.targetRoot, a.path).names in r.value
                    && OnlyChangedAt(fs, r.value, Resolve(env.targetRoot, a.path).names)
                    && (fs[Resolve(env.sourceRoot, a.path).names].File? ==>
                          r.value[Resolve(env.targetRoot, a.path).names] == fs[Resolve(env.sourceRoot, a.path).names])
                    && (fs[Resolve(env.sourceRoot, a.path).names].Directory? ==>
                          if Resolve(env.targetRoot, a.path).names in fs then r.value == fs
                          else r.value[Resolve(env.targetRoot, a.path).names] == FileStores.Directory(env.now)))
    ensures a.actionType == CopyStatic && RootsAbsolute(CopyStatic, env) ==>
              && (r.Success? <==> CopyPossible(fs, Resolve(env.staticRoot, a.path).names, Resolve(env.targetRoot, a.path).names))
              && (r.Success? ==>
                    && Resolve(env.targetRoot, a.path).names in r.value
                    && OnlyChangedAt(fs, r.value, Resolve(env.targetRoot, a.path).names)
                    && (fs[Resolve(env.staticRoot, a.path).names].File? ==>
                          r.value[Resolve(env.targetRoot, a.path).names] == fs[Resolve(env.staticRoot, a.path).names])
                    && (fs[Resolve(env.staticRoot, a.path).names].Directory? ==>
                          if Resolve(env.targetRoot, a.path).names in fs then r.value == fs
                          else r.value[Resolve(env.targetRoot, a.path).names] == FileStores.Directory(env.now)))
    ensures a.actionType == DeleteTarget && RootsAbsolute(DeleteTarget, env) ==>
              && (r.Success? <==> Exists(fs, Resolve(env.targetRoot, a.path))
                                  && !HasChildren(fs, Resolve(env.targetRoot, a.path).names))
              && (r.Success? ==>
                    && Resolve(env.targetRoot, a.path).names !in r.value
                    && OnlyChangedAt(fs, r.value, Resolve(env.targetRoot, a.path).names))
    ensures a.actionType == ConvertSource && r.Success? ==>
              && |a.path| > 0
              && Exists(fs, Resolve(env.sourceRoot, a.path))
              && var target := Resolve(env.targetRoot, FreeMarker.ConvertedFileName(a.path)).names;
                 && target in r.value
                 && r.value[target] == File(env.render(a.path), env.now)
                 && OnlyChangedAt(fs, r.value, target)
  {
    match a.actionType
    case SkipSource | SkipStatic => Success(fs)
    case CopySource => Copy(fs, env.sourceRoot, env.targetRoot, a.path, env.now)
    case CopyStatic => Copy(fs, env.staticRoot, env.targetRoot, a.path, env.now)
    case DeleteTarget => Delete(fs, Resolve(env.targetRoot, a.path))
    case ConvertSource =>
      // The code has no such check: ConvertedFileName needs a file name, and no listed
      // path is empty, so this branch only keeps the function total.
      if |a.path| == 0 then Failure(NullPointerException)
      else if !Exists(fs, Resolve(env.sourceRoot, a.path)) then Failure(IOException)
      else Write(fs, Resolve(env.targetRoot, FreeMarker.ConvertedFileName(a.path)), env.render(a.path), env.now)
  }

  /**
   * The wrapper ActionSet hands to the callback: it reports the wrapped action's path,
   * class and category, but refuses to be performed again.
   */
  datatype BlockedAction = BlockedAction(action: Action) {
    function Path(): Path { action.path }
    function Type(): ActionType { action.actionType }
    function Category(): ActionCategory { action.Category() }
  }

  function PerformBlocked(b: BlockedAction, fs: FileStore, env: Environment): (r: Result<FileStore>)
    ensures r == Failure(IllegalStateException)
  {
    Failure(IllegalStateException)
  }

  /** A wrapped action shows the same path, class and category as the action itself. */
  lemma WrapperReportsAction(a: Action)
    ensures BlockedAction(a).Path() == a.path
    ensures BlockedAction(a).Type() == a.actionType
    ensures BlockedAction(a).Category() == a.Category()
  {
  }

  // ---------------------------------------------------------------------------------------
  // Execution order (ActionComparator)
  // ---------------------------------------------------------------------------------------

  /** The execution phase of a class: skips, then deletes, then copies, then conversions. */
  function Rank(t: ActionType): nat
  {
    match t
    case SkipSource | SkipStatic => 0
    case DeleteTarget => 1
    case CopySource | CopyStatic => 2
    case ConvertSource => 3
  }

  /**
   * ActionComparator.compare: by phase first; within a phase by path, ascending, except for
   * deletes, which run in descending path order.
   */
  function CompareActions(a: Action, b: Action): (r: int)
    ensures Rank(a.actionType) < Rank(b.actionType) ==> r < 0
    ensures Rank(a.actionType) > Rank(b.actionType) ==> r > 0
    ensures Rank(a.actionType) == Rank(b.actionType) && a.actionType == DeleteTarget ==>
              (r < 0 <==> Strings.Less(Join(b.path), Join(a.path)))
    ensures Rank(a.actionType) == Rank(b.actionType) && a.actionType != DeleteTarget ==>
              (r < 0 <==> Strings.Less(Join(a.path), Join(b.path)))
  {
    if Rank(a.actionType) < Rank(b.actionType) then -1
    else if Rank(a.actionType) > Rank(b.actionType) then 1
    else if a.actionType == DeleteTarget then Paths.Compare(b.path, a.path)
    else Paths.Compare(a.path, b.path)
  }

  /** a may run before b. */
  predicate Precedes(a: Action, b: Action)
  {
    CompareActions(a, b) <= 0
  }

  lemma CompareActionsAntisymmetric(a: Action, b: Action)
    ensures CompareActions(a, b) == -CompareActions(b, a)
  {
    Strings.CompareAntisymmetric(Join(a.path), Join(b.path));
  }

  /** Two actions compare equal exactly when they share a phase and a path. */
  lemma CompareActionsZeroIff(a: Action, b: Action)
    requires ValidPath(a.path) && ValidPath(b.path)
    ensures CompareActions(a, b) == 0 <==> Rank(a.actionType) == Rank(b.actionType) && a.path == b.path
  {
    Paths.CompareZeroIffEqual(a.path, b.path);
    Paths.CompareZeroIffEqual(b.path, a.path);
  }

  lemma PrecedesTotal(a: Action, b: Action)
    ensures Precedes(a, b) || Precedes(b, a)
  {
    CompareActionsAntisymmetric(a, b);
  }

  /** String order extended to "at most". */
  lemma StringAtMostTransitive(x: string, y: string, z: string)
    requires Strings.Compare(x, y) <= 0 && Strings.Compare(y, z) <= 0
    ensures Strings.Compare(x, z) <= 0
  {
    Strings.CompareZeroIffEqual(x, y);
    Strings.CompareZeroIffEqual(y, z);
    if Strings.Less(x, y) && Strings.Less(y, z) {
      Strings.LessTransitive(x, y, z);
    }
  }

  lemma PrecedesTransitive(a: Action, b: Action, c: Action)
    requires Precedes(a, b) && Precedes(b, c)
    ensures Precedes(a, c)
  {
    if Rank(a.actionType) == Rank(b.actionType) == Rank(c.actionType) {
      if a.actionType == DeleteTarget {
        StringAtMostTransitive(Join(c.path), Join(b.path), Join(a.path));
      } else {
        StringAtMostTransitive(Join(a.path), Join(b.path), Join(c.path));
      }
    }
  }

  /** Skips go before deletes, deletes before copies, copies before conversions. */
  lemma PhaseOrder(a: Action, b: Action)
    ensures a.actionType in {SkipSource, SkipStatic} && b.actionType == DeleteTarget ==> CompareActions(a, b) == -1
    ensures a.actionType == DeleteTarget && b.actionType in {CopySource, CopyStatic} ==> CompareActions(a, b) == -1
    ensures a.actionType in {CopySource, CopyStatic} && b.actionType == ConvertSource ==> CompareActions(a, b) == -1
  {
  }

  /** Deleting a directory's content comes before deleting the directory itself. */
  lemma DeleteDescendantFirst(p: Path, q: Path)
    requires |p| > 0 && |q| > 0
    ensures CompareActions(Action(p + q, DeleteTarget), Action(p, DeleteTarget)) < 0
  {
    Paths.DescendantSortsAfter(p, q);
  }

  /** Within the other phases a directory's entry comes before the entries below it. */
  lemma OtherPhasesParentFirst(p: Path, q: Path, t: ActionType)
    requires |p| > 0 && |q| > 0 && t != DeleteTarget
    ensures CompareActions(Action(p, t), Action(p + q, t)) < 0
  {
    Paths.DescendantSortsAfter(p, q);
  }

  /** The cases ActionComparatorTest pins down, on the paths "a" and "b". */
  lemma ComparatorExamples()
    ensures CompareActions(Action(["a"], SkipSource), Action(["a"], DeleteTarget)) == -1
    ensures CompareActions(Action(["a"], DeleteTarget), Action(["a"], CopySource)) == -1
    ensures CompareActions(Action(["a"], CopySource), Action(["a"], ConvertSource)) == -1
    ensures CompareActions(Action(["a"], CopySource), Action(["b"], CopySource)) == -1
    ensures CompareActions(Action(["b"], ConvertSource), Action(["a"], ConvertSource)) == 1
    ensures CompareActions(Action(["a"], DeleteTarget), Action(["b"], DeleteTarget)) == 1
    ensures CompareActions(Action(["b"], DeleteTarget), Action(["a"], DeleteTarget)) == -1
  {
  }

  /** Execution order of a whole sequence. */
  predicate SortedForExecution(s: seq<Action>)
  {
    forall i, j :: 0 <= i < j < |s| ==> Precedes(s[i], s[j])
  }

  /**
   * The position at which x enters a sorted sequence: after everything that precedes it.
   * Sitemaps.InsertPage is the same insertion step for pages; each is proved against its
   * own order's transitivity and totality lemmas.
   */
  method Insert(sorted: seq<Action>, x: Action) returns (r: seq<Action>, at: nat)
    requires SortedForExecution(sorted)
    ensures at <= |sorted| && r == sorted[..at] + [x] + sorted[at..]
    ensures SortedForExecution(r)
  {
    at := 0;
    while at < |sorted| && Precedes(sorted[at], x)
      invariant at <= |sorted|
      invariant forall k :: 0 <= k < at ==> Precedes(sorted[k], x)
    {
      at := at + 1;
    }
    r := sorted[..at] + [x] + sorted[at..];
    if at < |sorted| {
      PrecedesTotal(sorted[at], x);
      forall k | at <= k < |sorted|
        ensures Precedes(x, sorted[k])
      {
        if k > at {
          PrecedesTransitive(x, sorted[at], sorted[k]);
        }
      }
    }
    forall i, j | 0 <= i < j < |r|
      ensures Precedes(r[i], r[j])
    {
      if i < at && j > at {
        assert r[i] == sorted[i] && r[j] == sorted[j - 1];
      } else if i < at && j == at {
      } else if i == at {
        assert r[j] == sorted[j - 1];
      } else if i > at {
        assert r[i] == sorted[i - 1] && r[j] == sorted[j - 1];
      } else {
        assert r[i] == sorted[i] && r[j] == sorted[j];
      }
    }
  }

  /**
   * Performing a sequence of actions in turn; the first failure ends the run, as an
   * exception thrown by perform ends ActionSet.performAll.
   */
  function PerformSequence(actions: seq<Action>, fs: FileStore, env: Environment): (r: Result<FileStore>)
    decreases |actions|
  {
    if |actions| == 0 then Success(fs)
    else
      match Perform(actions[0], fs, env)
      case Failure(e) => Failure(e)
      case Success(fs') => PerformSequence(actions[1..], fs', env)
  }

  /** Skips never touch the store, so a run of skips leaves it as it was. */
  lemma {:induction false} SkipsChangeNothing(actions: seq<Action>, fs: FileStore, env: Environment)
    requires forall i :: 0 <= i < |actions| ==> actions[i].actionType in {SkipSource, SkipStatic}
    ensures PerformSequence(actions, fs, env) == Success(fs)
  {
    if |actions| > 0 {
      SkipsChangeNothing(actions[1..], fs, env);
    }
  }
}

=== FILE: changes.dfy ===
/** Change: one page of the index to insert, update or delete. */
module Changes {
  import opened Outcomes
  import opened Paths

  datatype ChangeType = InsertOrUpdate | Delete

  /** An immutable (type, relative path) record. */
  datatype Change = Change(changeType: ChangeType, path: Path)

  /** The constructor: a path that is not relative is an IllegalArgumentException. */
  function NewChange(changeType: ChangeType, path: Location): (r: Result<Change>)
    ensures r.Success? <==> !path.absolute
    ensures r.Failure? ==> r.error == IllegalArgumentException
    ensures r.Success? ==> r.value.changeType == changeType && r.value.path == path.names
  {
    if path.absolute then Failure(IllegalArgumentException) else Success(Change(changeType, path.names))
  }
}

=== FILE: directory.dfy ===
/**
 * Directory: a node of the page tree, with subdirectories by name, pages by file name, and
 * a flag set on the node whose own pages were edited. Pages are inserted, updated and
 * removed along a path, creating the directories on the way; the JSON form leaves out
 * empty subdirectories.
 */
module Directories {
  import opened Outcomes
  import opened Paths
  import opened JsonValues
  import Walks

  const NameField: string := "name"
  const DirectoriesField: string := "directories"
  const PagesField: string := "pages"
  const PageFileField: string := "filename"
  const PageTitleField: string := "title"

  /** A directory node; pages map a file name to its title. */
  datatype Directory = Directory(name: string, subdirectories: map<string, Directory>,
                                 pages: map<string, string>, changed: bool)

  /** Directory(name): no subdirectories, no pages, not changed. */
  function NewDirectory(name: string): (r: Directory)
    ensures r.name == name && IsEmpty(r) && !r.changed
  {
    Directory(name, map[], map[], false)
  }

  /** isEmpty: no subdirectories and no pages. */
  predicate IsEmpty(d: Directory)
  {
    |d.subdirectories| == 0 && |d.pages| == 0
  }

  /** Every subdirectory is stored under its own name, all the way down. */
  predicate WellNamed(d: Directory)
  {
    forall k | k in d.subdirectories :: d.subdirectories[k].name == k && WellNamed(d.subdirectories[k])
  }

  /** No flag is set anywhere in the tree. */
  predicate NoneChanged(d: Directory)
  {
    !d.changed && forall k | k in d.subdirectories :: NoneChanged(d.subdirectories[k])
  }

  /** What to do to the page at the end of a path. */
  datatype PageEdit = Remove | Update(title: string)

  /** The pages of the one directory that holds the edited page. */
  function EditPages(pages: map<string, string>, filename: string, edit: PageEdit): (r: map<string, string>)
    ensures edit.Remove? ==> filename !in r
    ensures edit.Update? ==> filename in r && r[filename] == edit.title
    ensures forall f :: f != filename ==> (f in r <==> f in pages) && (f in pages ==> r[f] == pages[f])
  {
    match edit
    case Remove => pages - {filename}
    case Update(title) => pages[filename := title]
  }

  /** The subdirectory of that name, or a new empty one when there is none. */
  function Child(d: Directory, name: string): (r: Directory)
    ensures name in d.subdirectories ==> r == d.subdirectories[name]
    ensures name !in d.subdirectories ==> r == NewDirectory(name)
  {
    if name in d.subdirectories then d.subdirectories[name] else NewDirectory(name)
  }

  /** Path.toString of a path of at most one name: that name, or "" for the empty path. */
  function PageName(path: Path): (r: string)
    requires |path| <= 1
    ensures r == Join(path)
  {
    if |path| == 0 then "" else path[0]
  }

  /**
   * apply: a one-name path edits this directory's pages and marks it changed; a longer path
   * descends into the subdirectory of the first name, creating it when missing, and leaves
   * this directory's flag and pages as they are.
   */
  function ApplyEdit(d: Directory, path: Path, edit: PageEdit): (r: Directory)
    ensures r.name == d.name
    ensures |path| <= 1 ==>
              r.changed && r.subdirectories == d.subdirectories && r.pages == EditPages(d.pages, PageName(path), edit)
    ensures |path| >= 2 ==> r.changed == d.changed && r.pages == d.pages && path[0] in r.subdirectories
    decreases |path|
  {
    if |path| <= 1 then d.(changed := true, pages := EditPages(d.pages, PageName(path), edit))
    else d.(subdirectories := d.subdirectories[path[0] := ApplyEdit(Child(d, path[0]), path[1..], edit)])
  }

  /** An edit along a longer path leaves every other subdirectory as it was. */
  lemma EditLeavesOtherSubdirectories(d: Directory, path: Path, edit: PageEdit, k: string)
    requires |path| >= 2 && k != path[0]
    ensures k in ApplyEdit(d, path, edit).subdirectories <==> k in d.subdirectories
    ensures k in d.subdirectories ==> ApplyEdit(d, path, edit).subdirectories[k] == d.subdirectories[k]
  {
  }

  /** A longer path replaces the first subdirectory on it by that subdirectory edited along the rest. */
  lemma EditDescends(d: Directory, path: Path, edit: PageEdit)
    requires |path| >= 2
    ensures ApplyEdit(d, path, edit)
            == d.(subdirectories := d.subdirectories[path[0] := ApplyEdit(Child(d, path[0]), path[1..], edit)])
  {
  }

  /** updatePage: the page at the path gets the title; any earlier page of that name is replaced. */
  function UpdatePage(d: Directory, path: Path, title: string): (r: Directory)
    ensures r.name == d.name
    ensures |path| >= 1 ==>
              && GetDirectory(r, path).Some? && GetDirectory(r, path).value.changed
              && GetDirectory(r, path).value.pages == PagesBefore(GetDirectory(d, path))[path[|path| - 1] := title]
  {
    if |path| >= 1 then
      EditedHolder(d, path, Update(title));
      ApplyEdit(d, path, Update(title))
    else ApplyEdit(d, path, Update(title))
  }

  /** removePage: the page at the path is gone; directories on the way are still created. */
  function RemovePage(d: Directory, path: Path): (r: Directory)
    ensures r.name == d.name
    ensures |path| >= 1 ==>
              && GetDirectory(r, path).Some? && GetDirectory(r, path).value.changed
              && GetDirectory(r, path).value.pages == PagesBefore(GetDirectory(d, path)) - {path[|path| - 1]}
  {
    if |path| >= 1 then
      EditedHolder(d, path, Remove);
      ApplyEdit(d, path, Remove)
    else ApplyEdit(d, path, Remove)
  }

  /**
   * getDirectory(path): the directory that holds the page at the path. A missing directory
   * on the way is a null dereference in the source, None here.
   */
  function GetDirectory(d: Directory, path: Path): (r: Option<Directory>)
    ensures |path| <= 1 ==> r == Some(d)
    ensures |path| >= 2 && path[0] !in d.subdirectories ==> r.None?
    decreases |path|
  {
    if |path| <= 1 then Some(d)
    else if path[0] !in d.subdirectories then None
    else GetDirectory(d.subdirectories[path[0]], path[1..])
  }

  /** The pages a directory would have before an edit: none if it does not exist yet. */
  function PagesBefore(holder: Option<Directory>): map<string, string>
  {
    if holder.Some? then holder.value.pages else map[]
  }

  /** Whether the directory at the path exists and is marked. */
  predicate MarkedAt(d: Directory, path: Path)
  {
    GetDirectory(d, path).Some? && GetDirectory(d, path).value.changed
  }

  /** Below a new directory there is nothing but itself. */
  lemma NothingBelowNewDirectory(name: string, path: Path)
    requires |path| >= 2
    ensures GetDirectory(NewDirectory(name), path) == None
  {
  }

  /** Looking up a longer path looks up the rest in the first subdirectory. */
  lemma GetDescends(d: Directory, path: Path)
    requires |path| >= 2 && path[0] in d.subdirectories
    ensures GetDirectory(d, path) == GetDirectory(d.subdirectories[path[0]], path[1..])
  {
  }

  /** The pages before an edit are the same whether looked up here or in the child the edit descends to. */
  lemma PagesBeforeDescends(d: Directory, path: Path)
    requires |path| >= 2
    ensures PagesBefore(GetDirectory(d, path)) == PagesBefore(GetDirectory(Child(d, path[0]), path[1..]))
  {
    if path[0] !in d.subdirectories && |path| >= 3 {
      NothingBelowNewDirectory(path[0], path[1..]);
    }
  }

  /** So is the flag. */
  lemma MarkedDescends(d: Directory, path: Path)
    requires |path| >= 2
    ensures MarkedAt(d, path) <==> MarkedAt(Child(d, path[0]), path[1..])
  {
    if path[0] !in d.subdirectories && |path| >= 3 {
      NothingBelowNewDirectory(path[0], path[1..]);
    }
  }

  /** After an edit the lookup along the path descends into the edited child. */
  lemma EditedDescends(d: Directory, path: Path, q: Path, edit: PageEdit)
    requires |path| >= 2 && |q| >= 2 && q[0] == path[0]
    ensures GetDirectory(ApplyEdit(d, path, edit), q) == GetDirectory(ApplyEdit(Child(d, path[0]), path[1..], edit), q[1..])
  {
    EditDescends(d, path, edit);
    GetDescends(ApplyEdit(d, path, edit), q);
  }

  /**
   * After an edit along a path, getDirectory finds the directory that was edited: it is
   * marked changed, and its pages are the earlier ones with the edit applied at the file
   * name (none earlier when the directory had to be created).
   */
  lemma {:induction false} EditThenGet(d: Directory, path: Path, edit: PageEdit) returns (holder: Directory)
    requires |path| >= 1
    ensures GetDirectory(ApplyEdit(d, path, edit), path) == Some(holder)
    ensures holder.changed
    ensures holder.pages == EditPages(PagesBefore(GetDirectory(d, path)), path[|path| - 1], edit)
    decreases |path|
  {
    if |path| >= 2 {
      holder := EditThenGet(Child(d, path[0]), path[1..], edit);
      EditedDescends(d, path, path, edit);
      PagesBeforeDescends(d, path);
      LastOfTail(path);
    } else {
      holder := ApplyEdit(d, path, edit);
      EditHereThenGet(d, path, edit);
    }
  }

  /** EditThenGet without the named result, for use inside expressions. */
  lemma EditedHolder(d: Directory, path: Path, edit: PageEdit)
    requires |path| >= 1
    ensures GetDirectory(ApplyEdit(d, path, edit), path).Some?
    ensures GetDirectory(ApplyEdit(d, path, edit), path).value.changed
    ensures GetDirectory(ApplyEdit(d, path, edit), path).value.pages
            == EditPages(PagesBefore(GetDirectory(d, path)), path[|path| - 1], edit)
  {
    var holder := EditThenGet(d, path, edit);
  }

  /** A one-name path edits the directory itself. */
  lemma EditHereThenGet(d: Directory, path: Path, edit: PageEdit)
    requires |path| == 1
    ensures GetDirectory(ApplyEdit(d, path, edit), path) == Some(ApplyEdit(d, path, edit))
    ensures ApplyEdit(d, path, edit).changed
    ensures ApplyEdit(d, path, edit).pages == EditPages(PagesBefore(GetDirectory(d, path)), path[0], edit)
  {
  }

  /**
   * Only the directory that holds the page is marked: every directory above it keeps the
   * flag it had, and one created on the way starts unmarked.
   */
  lemma {:induction false} AncestorsNotMarked(d: Directory, path: Path, edit: PageEdit, i: nat)
    requires i + 1 < |path|
    ensures GetDirectory(ApplyEdit(d, path, edit), path[..i + 1]).Some?
    ensures MarkedAt(ApplyEdit(d, path, edit), path[..i + 1]) <==> MarkedAt(d, path[..i + 1])
    decreases i
  {
    if i > 0 {
      var q := path[..i + 1];
      AncestorsNotMarked(Child(d, path[0]), path[1..], edit, i - 1);
      TailOfPrefix(path, i);
      EditedDescends(d, path, q, edit);
      MarkedDescends(d, q);
    }
  }

  /** Pages elsewhere in the directory that holds the page are left alone by a removal. */
  lemma RemoveLeavesOtherPages(d: Directory, path: Path, other: string)
    requires |path| >= 1 && other != path[|path| - 1]
    ensures GetDirectory(RemovePage(d, path), path).Some?
    ensures var before := PagesBefore(GetDirectory(d, path));
            var after := GetDirectory(RemovePage(d, path), path).value.pages;
            (other in after <==> other in before) && (other in before ==> after[other] == before[other])
  {
    var holder := EditThenGet(d, path, Remove);
  }

  /** DirectoryTest: a page four levels down lands in deep/path/to, found both ways. */
  lemma NestedDirectoriesExample()
    ensures var d := UpdatePage(NewDirectory("."), ["deep", "path", "to", "file"], "Test");
            && GetDirectory(d, ["deep", "path", "to", "file"]).Some?
            && GetDirectory(d, ["deep", "path", "to", "file"]).value
               == d.subdirectories["deep"].subdirectories["path"].subdirectories["to"]
            && GetDirectory(d, ["deep", "path", "to", "file"]).value.pages == map["file" := "Test"]
  {
    var d := UpdatePage(NewDirectory("."), ["deep", "path", "to", "file"], "Test");
    var holder := EditThenGet(NewDirectory("."), ["deep", "path", "to", "file"], Update("Test"));
    assert ["deep", "path", "to", "file"][1..] == ["path", "to", "file"];
    assert ["path", "to", "file"][1..] == ["to", "file"];
  }

  /** Replacing one subdirectory by a well-named one of the same name keeps the tree well named. */
  lemma ReplaceKeepsWellNamed(d: Directory, name: string, child: Directory)
    requires WellNamed(d) && WellNamed(child) && child.name == name
    ensures WellNamed(d.(subdirectories := d.subdirectories[name := child]))
  {
  }

  /** The child an edit descends into is well named. */
  lemma ChildOfWellNamed(d: Directory, name: string)
    requires WellNamed(d)
    ensures WellNamed(Child(d, name)) && Child(d, name).name == name
  {
  }

  /** An edit keeps every subdirectory under its own name. */
  lemma {:induction false} EditKeepsWellNamed(d: Directory, path: Path, edit: PageEdit)
    requires WellNamed(d)
    ensures WellNamed(ApplyEdit(d, path, edit))
    decreases |path|
  {
    if |path| >= 2 {
      ChildOfWellNamed(d, path[0]);
      EditKeepsWellNamed(Child(d, path[0]), path[1..], edit);
      EditDescends(d, path, edit);
      ReplaceKeepsWellNamed(d, path[0], ApplyEdit(Child(d, path[0]), path[1..], edit));
    }
  }

  /** deepCopy: the same tree with every flag cleared. */
  function DeepCopy(d: Directory): (r: Directory)
    ensures r.name == d.name && r.pages == d.pages && !r.changed
    ensures r.subdirectories.Keys == d.subdirectories.Keys
    decreases d
  {
    Directory(d.name, map k | k in d.subdirectories :: DeepCopy(d.subdirectories[k]), d.pages, false)
  }

  lemma {:induction false} DeepCopyClearsFlags(d: Directory)
    ensures NoneChanged(DeepCopy(d))
    decreases d
  {
    forall k | k in d.subdirectories ensures NoneChanged(DeepCopy(d).subdirectories[k]) {
      DeepCopyClearsFlags(d.subdirectories[k]);
    }
  }

  // ---------------------------------------------------------------------------------------
  // JSON
  // ---------------------------------------------------------------------------------------

  /**
   * The tree as it reads back from its JSON form: subdirectories that were empty are gone
   * (one whose own subdirectories were all empty stays, now without them), and every flag
   * is cleared.
   */
  function Reloaded(d: Directory): (r: Directory)
    ensures r.name == d.name && r.pages == d.pages && !r.changed
    ensures forall k :: k in r.subdirectories <==> k in d.subdirectories && !IsEmpty(d.subdirectories[k])
    decreases d
  {
    Directory(d.name,
              map k | k in d.subdirectories && !IsEmpty(d.subdirectories[k]) :: Reloaded(d.subdirectories[k]),
              d.pages, false)
  }

  function PageToJson(filename: string, title: string): Json
  {
    JObject(map[PageFileField := JString(filename), PageTitleField := JString(title)])
  }

  /** No subdirectory anywhere in the tree is empty. */
  predicate NoEmptySubdirectories(d: Directory)
  {
    forall k | k in d.subdirectories :: !IsEmpty(d.subdirectories[k]) && NoEmptySubdirectories(d.subdirectories[k])
  }

  /**
   * A tree built by updatePage alone never holds an empty subdirectory: every directory
   * created on the way gets the page or a directory below it.
   */
  lemma {:induction false} UpdateKeepsNoEmptySubdirectories(d: Directory, path: Path, title: string)
    requires NoEmptySubdirectories(d)
    ensures NoEmptySubdirectories(UpdatePage(d, path, title))
    decreases |path|
  {
    if |path| >= 2 {
      var child := Child(d, path[0]);
      ChildHasNoEmpty(d, path[0]);
      UpdateKeepsNoEmptySubdirectories(child, path[1..], title);
      UpdateIsNotEmpty(child, path[1..], title);
      EditDescends(d, path, Update(title));
      ReplaceKeepsNoEmpty(d, path[0], UpdatePage(child, path[1..], title));
    }
  }

  /** The child an edit descends into has no empty subdirectories either. */
  lemma ChildHasNoEmpty(d: Directory, name: string)
    requires NoEmptySubdirectories(d)
    ensures NoEmptySubdirectories(Child(d, name))
  {
  }

  /** Replacing one subdirectory by a non-empty one without empty subdirectories keeps the property. */
  lemma ReplaceKeepsNoEmpty(d: Directory, name: string, child: Directory)
    requires NoEmptySubdirectories(d) && NoEmptySubdirectories(child) && !IsEmpty(child)
    ensures NoEmptySubdirectories(d.(subdirectories := d.subdirectories[name := child]))
  {
  }

  /** After an update the directory holds the page or the directory leading to it. */
  lemma UpdateIsNotEmpty(d: Directory, path: Path, title: string)
    ensures !IsEmpty(UpdatePage(d, path, title))
  {
    var r := UpdatePage(d, path, title);
    if |path| <= 1 {
      assert PageName(path) in r.pages;
    } else {
      assert path[0] in r.subdirectories;
    }
  }

  /** Without empty subdirectories, reading the JSON form back loses only the flags. */
  lemma {:induction false} ReloadedIsDeepCopy(d: Directory)
    requires NoEmptySubdirectories(d)
    ensures Reloaded(d) == DeepCopy(d)
    decreases d
  {
    forall k | k in d.subdirectories ensures Reloaded(d.subdirectories[k]) == DeepCopy(d.subdirectories[k]) {
      ReloadedIsDeepCopy(d.subdirectories[k]);
    }
    assert Reloaded(d).subdirectories == DeepCopy(d).subdirectories;
  }

  /**
   * removePage on a missing path still creates the directories on the way; they stay
   * empty, and the JSON form leaves them out.
   */
  lemma RemoveLeavesEmptyShellExample()
    ensures var d := RemovePage(NewDirectory("root"), ["sub", "file"]);
            && "sub" in d.subdirectories && IsEmpty(d.subdirectories["sub"])
            && Reloaded(d).subdirectories == map[]
  {
    var d := RemovePage(NewDirectory("root"), ["sub", "file"]);
    assert ["sub", "file"][1..] == ["file"];
    assert d.subdirectories.Keys == {"sub"};
    assert Reloaded(d).subdirectories.Keys == {};
  }

  /** DirectoryTest toJSON: one page at the root and one subdirectory are written out. */
  lemma ToJsonExample()
    ensures var d := UpdatePage(UpdatePage(NewDirectory("root"), ["sub", "file"], "Title 1"), ["file"], "Title 2");
            && Reloaded(d).pages == map["file" := "Title 2"]
            && Reloaded(d).subdirectories.Keys == {"sub"}
            && Reloaded(d).subdirectories["sub"].pages == map["file" := "Title 1"]
  {
    var d1 := UpdatePage(NewDirectory("root"), ["sub", "file"], "Title 1");
    assert ["sub", "file"][1..] == ["file"];
    assert d1.subdirectories.Keys == {"sub"};
    var d := UpdatePage(d1, ["file"], "Title 2");
    assert d.subdirectories == d1.subdirectories;
    assert Reloaded(d).subdirectories.Keys == {"sub"};
  }

  /** The page array, in order; of two pages with one file name the first is kept. */
  function DecodePages(items: seq<Json>): (r: Result<map<string, string>>)
    ensures r.Success? ==> |r.value| <= |items|
    decreases |items|
  {
    if |items| == 0 then Success(map[])
    else
      var pages :- DecodePages(items[..|items| - 1]);
      var fields :- GetObject(items[|items| - 1]);
      var filename :- GetString(fields, PageFileField);
      var title :- GetString(fields, PageTitleField);
      if filename in pages then Success(pages) else Success(pages[filename := title])
  }

  /**
   * fromJSONObject: name, then the subdirectories, then the pages; flags start cleared. A
   * null object is a NullPointerException, any other non-object a ClassCastException.
   */
  function FromJson(j: Json): (r: Result<Directory>)
    ensures !j.JObject? ==> r == Failure(if j.JNull? then NullPointerException else ClassCastException)
    ensures r.Success? ==> !r.value.changed && j.JObject? && NameField in j.fields
                           && j.fields[NameField] == JString(r.value.name)
    decreases j
  {
    var fields :- GetObject(j);
    var name :- GetString(fields, NameField);
    var directoryItems :- GetArray(fields, DirectoriesField);
    var subdirectories :- DecodeDirectories(directoryItems);
    var pageItems :- GetArray(fields, PagesField);
    var pages :- DecodePages(pageItems);
    Success(Directory(name, subdirectories, pages, false))
  }

  /** The directory array, in order; a later directory of the same name replaces an earlier one. */
  function DecodeDirectories(items: seq<Json>): (r: Result<map<string, Directory>>)
    ensures r.Success? ==> |r.value| <= |items|
    decreases items
  {
    if |items| == 0 then Success(map[])
    else
      var subdirectories :- DecodeDirectories(items[..|items| - 1]);
      var directory :- FromJson(items[|items| - 1]);
      Success(subdirectories[directory.name := directory])
  }

  /** The subdirectories in done that are written out, as they read back. */
  function ReloadedSubset(d: Directory, done: set<string>): map<string, Directory>
    requires done <= d.subdirectories.Keys
  {
    map k | k in done && !IsEmpty(d.subdirectories[k]) :: Reloaded(d.subdirectories[k])
  }

  /** The pages among the file names in written. */
  function PagesSubset(pages: map<string, string>, written: set<string>): map<string, string>
    requires written <= pages.Keys
  {
    map f | f in written :: pages[f]
  }

  /** The three field names of a directory object are different strings. */
  lemma DirectoryFieldsDiffer()
    ensures NameField != DirectoriesField && NameField != PagesField && DirectoriesField != PagesField
  {
    assert NameField[0] != DirectoriesField[0] && NameField[0] != PagesField[0];
    assert DirectoriesField[0] != PagesField[0];
  }

  /** The two field names of a page object are different strings. */
  lemma PageFieldsDiffer()
    ensures PageFileField != PageTitleField
  {
    assert PageFileField[0] != PageTitleField[0];
  }

  /** One more decoded directory is stored under its name. */
  lemma DecodeDirectoriesSnoc(before: seq<Json>, item: Json, m: map<string, Directory>, dir: Directory)
    requires DecodeDirectories(before) == Success(m) && FromJson(item) == Success(dir)
    ensures DecodeDirectories(before + [item]) == Success(m[dir.name := dir])
  {
    assert (before + [item])[..|before|] == before;
  }

  /** One more page, with a new file name, is stored under it. */
  lemma DecodePagesSnoc(before: seq<Json>, m: map<string, string>, f: string, title: string)
    requires DecodePages(before) == Success(m) && f !in m
    ensures DecodePages(before + [PageToJson(f, title)]) == Success(m[f := title])
  {
    var item := PageToJson(f, title);
    PageFieldsDiffer();
    assert GetString(item.fields, PageFileField) == Success(f);
    assert GetString(item.fields, PageTitleField) == Success(title);
    assert (before + [item])[..|before|] == before;
  }

  lemma ReloadedSubsetSkips(d: Directory, done: set<string>, k: string)
    requires done <= d.subdirectories.Keys && k in d.subdirectories && IsEmpty(d.subdirectories[k])
    ensures ReloadedSubset(d, done + {k}) == ReloadedSubset(d, done)
  {
  }

  lemma ReloadedSubsetAdds(d: Directory, done: set<string>, k: string)
    requires done <= d.subdirectories.Keys && k in d.subdirectories && !IsEmpty(d.subdirectories[k])
    ensures ReloadedSubset(d, done + {k}) == ReloadedSubset(d, done)[k := Reloaded(d.subdirectories[k])]
  {
  }

  lemma PagesSubsetAdd(pages: map<string, string>, written: set<string>, f: string)
    requires written <= pages.Keys && f in pages && f !in written
    ensures f !in PagesSubset(pages, written)
    ensures PagesSubset(pages, written + {f}) == PagesSubset(pages, written)[f := pages[f]]
  {
  }

  lemma WholeSubsets(d: Directory)
    ensures ReloadedSubset(d, d.subdirectories.Keys) == Reloaded(d).subdirectories
    ensures PagesSubset(d.pages, d.pages.Keys) == d.pages
  {
  }

  /** A directory object with the three fields decodes to the directory they hold. */
  lemma WholeDirectory(d: Directory, directoryItems: seq<Json>, pageItems: seq<Json>)
    requires DecodeDirectories(directoryItems) == Success(ReloadedSubset(d, d.subdirectories.Keys))
    requires DecodePages(pageItems) == Success(PagesSubset(d.pages, d.pages.Keys))
    ensures FromJson(JObject(map[NameField := JString(d.name), DirectoriesField := JArray(directoryItems),
                                 PagesField := JArray(pageItems)])) == Success(Reloaded(d))
  {
    var fields := map[NameField := JString(d.name), DirectoriesField := JArray(directoryItems),
                      PagesField := JArray(pageItems)];
    DirectoryFieldsDiffer();
    assert GetString(fields, NameField) == Success(d.name);
    assert GetArray(fields, DirectoriesField) == Success(directoryItems);
    assert GetArray(fields, PagesField) == Success(pageItems);
    WholeSubsets(d);
  }

  /** The subdirectory under k stays named k and well named below. */
  lemma ChildWellNamed(d: Directory, k: string)
    requires WellNamed(d) && k in d.subdirectories
    ensures WellNamed(d.subdirectories[k]) && d.subdirectories[k].name == k
  {
  }

  /** The items read back as the written-out subdirectories among done. */
  predicate Encodes(items: seq<Json>, d: Directory, done: set<string>)
    requires done <= d.subdirectories.Keys
  {
    DecodeDirectories(items) == Success(ReloadedSubset(d, done))
  }

  /** The items read back as the pages among written. */
  predicate EncodesPages(items: seq<Json>, pages: map<string, string>, written: set<string>)
    requires written <= pages.Keys
  {
    DecodePages(items) == Success(PagesSubset(pages, written))
  }

  lemma NothingEncoded(d: Directory)
    ensures Encodes([], d, {})
  {
    assert ReloadedSubset(d, {}) == map[];
  }

  lemma NoPagesEncoded(pages: map<string, string>)
    ensures EncodesPages([], pages, {})
  {
    assert PagesSubset(pages, {}) == map[];
  }

  /** One more subdirectory written out, or left out when it is empty. */
  method AddDirectoryItem(d: Directory, ghost done: set<string>, k: string, items: seq<Json>) returns (items': seq<Json>)
    requires WellNamed(d) && done <= d.subdirectories.Keys && k in d.subdirectories && k !in done
    requires Encodes(items, d, done)
    ensures Encodes(items', d, done + {k})
    decreases d, 0
  {
    var child := d.subdirectories[k];
    if IsEmpty(child) {
      ReloadedSubsetSkips(d, done, k);
      items' := items;
    } else {
      ReloadedSubsetAdds(d, done, k);
      ChildWellNamed(d, k);
      var item := ToJson(child);
      DecodeDirectoriesSnoc(items, item, ReloadedSubset(d, done), Reloaded(child));
      items' := items + [item];
    }
  }

  /** One more page written out. */
  method AddPageItem(pages: map<string, string>, ghost written: set<string>, f: string, items: seq<Json>)
    returns (items': seq<Json>)
    requires written <= pages.Keys && f in pages && f !in written
    requires EncodesPages(items, pages, written)
    ensures EncodesPages(items', pages, written + {f})
  {
    PagesSubsetAdd(pages, written, f);
    DecodePagesSnoc(items, PagesSubset(pages, written), f, pages[f]);
    items' := items + [PageToJson(f, pages[f])];
  }

  /** The JSON items of the non-empty subdirectories, in the unspecified order of the map. */
  method DirectoryItems(d: Directory) returns (items: seq<Json>)
    requires WellNamed(d)
    ensures Encodes(items, d, d.subdirectories.Keys)
    decreases d, 1
  {
    items := [];
    var remaining := d.subdirectories.Keys;
    NothingEncoded(d);
    while remaining != {}
      invariant remaining <= d.subdirectories.Keys
      invariant Encodes(items, d, d.subdirectories.Keys - remaining)
      decreases |remaining|
    {
      var k :| k in remaining;
      items := AddDirectoryItem(d, d.subdirectories.Keys - remaining, k, items);
      Walks.TakeOne(d.subdirectories.Keys, remaining, k);
      remaining := remaining - {k};
    }
    Walks.NoneRemaining(d.subdirectories.Keys);
  }

  /** The JSON items of the pages, in the unspecified order of the map. */
  method PageItems(pages: map<string, string>) returns (items: seq<Json>)
    ensures DecodePages(items) == Success(pages)
  {
    items := [];
    var remaining := pages.Keys;
    NoPagesEncoded(pages);
    while remaining != {}
      invariant remaining <= pages.Keys
      invariant EncodesPages(items, pages, pages.Keys - remaining)
      decreases |remaining|
    {
      var f :| f in remaining;
      items := AddPageItem(pages, pages.Keys - remaining, f, items);
      Walks.TakeOne(pages.Keys, remaining, f);
      remaining := remaining - {f};
    }
    Walks.NoneRemaining(pages.Keys);
    assert PagesSubset(pages, pages.Keys) == pages;
  }

  /**
   * toJSONObject: the name, every non-empty subdirectory and every page, in the unspecified
   * order of the maps. Reading the result back gives the tree without its empty
   * subdirectories and flags.
   */
  method ToJson(d: Directory) returns (j: Json)
    requires WellNamed(d)
    ensures FromJson(j) == Success(Reloaded(d))
    decreases d, 2
  {
    var directoryItems := DirectoryItems(d);
    var pageItems := PageItems(d.pages);
    WholeSubsets(d);
    WholeDirectory(d, directoryItems, pageItems);
    j := JObject(map[NameField := JString(d.name), DirectoriesField := JArray(directoryItems),
                     PagesField := JArray(pageItems)]);
  }
}

=== FILE: file_store.dfy ===
/**
 * The file system the core works on, as a snapshot: absolute name sequences mapped to
 * entries with a modification time. Only the operations the core calls are modelled.
 */
module FileStores {
  import opened Outcomes
  import opened Paths

  datatype Entry = File(content: string, lastModified: int) | Directory(lastModified: int)

  /** Entries keyed by the names of their absolute location. */
  type FileStore = map<seq<string>, Entry>

  predicate Exists(fs: FileStore, location: Location)
  {
    location.absolute && location.names in fs
  }

  /** FileSystem.getLastModifiedInMillis: absolute paths only; a missing file is an IOException. */
  function LastModified(fs: FileStore, location: Location): (r: Result<int>)
    ensures r.Success? <==> Exists(fs, location)
    ensures !location.absolute ==> r == Failure(IllegalArgumentException)
    ensures r.Success? ==> r.value == fs[location.names].lastModified
  {
    if !location.absolute then Failure(IllegalArgumentException)
    else if location.names !in fs then Failure(IOException)
    else Success(fs[location.names].lastModified)
  }

  /** The store is unchanged except at one location. */
  predicate OnlyChangedAt(fs: FileStore, fs': FileStore, names: seq<string>)
  {
    && (forall k :: k in fs && k != names ==> k in fs' && fs'[k] == fs[k])
    && (forall k :: k in fs' && k != names ==> k in fs)
  }

  /** The entry at names would sit in a directory that is there; the root always is. */
  predicate ParentIsDirectory(fs: FileStore, names: seq<string>)
  {
    |names| > 0 && (|names| == 1 || (names[..|names| - 1] in fs && fs[names[..|names| - 1]].Directory?))
  }

  /** Whether a copy can go ahead: what Files.createDirectory or Files.copy would refuse. */
  predicate CopyPossible(fs: FileStore, source: seq<string>, target: seq<string>)
  {
    && source in fs
    && if fs[source].Directory? then target in fs || ParentIsDirectory(fs, target)
       else ParentIsDirectory(fs, target) && !(target in fs && fs[target].Directory? && HasChildren(fs, target))
  }

  /**
   * FileSystem.copy(sourceRoot, targetRoot, path): a directory is created at targetRoot/path,
   * stamped now, unless something is there already; a file is copied over whatever file or
   * empty directory is at targetRoot/path, keeping its modification time. A missing source,
   * a missing parent directory or a non-empty directory in the way is an IOException.
   */
  function Copy(fs: FileStore, sourceRoot: Location, targetRoot: Location, path: Path, now: int)
    : (r: Result<FileStore>)
    ensures !sourceRoot.absolute || !targetRoot.absolute ==> r == Failure(IllegalArgumentException)
    ensures sourceRoot.absolute && targetRoot.absolute ==>
              (r.Success? <==> CopyPossible(fs, Resolve(sourceRoot, path).names, Resolve(targetRoot, path).names))
    ensures sourceRoot.absolute && targetRoot.absolute && r.Failure? ==> r.error == IOException
    ensures r.Success? ==>
              && Resolve(targetRoot, path).names in r.value
              && OnlyChangedAt(fs, r.value, Resolve(targetRoot, path).names)
    ensures r.Success? && fs[Resolve(sourceRoot, path).names].File? ==>
              r.value[Resolve(targetRoot, path).names] == fs[Resolve(sourceRoot, path).names]
    ensures r.Success? && fs[Resolve(sourceRoot, path).names].Directory? ==>
              r.value == (if Resolve(targetRoot, path).names in fs then fs
                          else fs[Resolve(targetRoot, path).names := Directory(now)])
  {
    if !sourceRoot.absolute || !targetRoot.absolute then Failure(IllegalArgumentException)
    else
      var source, target := Resolve(sourceRoot, path).names, Resolve(targetRoot, path).names;
      if !CopyPossible(fs, source, target) then Failure(IOException)
      else if fs[source].Directory? then
        if target in fs then Success(fs) else Success(fs[target := Directory(now)])
      else Success(fs[target := fs[source]])
  }

  /** Something is stored strictly inside the directory at names. */
  predicate HasChildren(fs: FileStore, names: seq<string>)
  {
    exists k :: k in fs && |k| > |names| && k[..|names|] == names
  }

  /**
   * FileSystem.delete: removes the entry at an absolute location; a missing entry or a
   * directory that still holds entries is an IOException.
   */
  function Delete(fs: FileStore, location: Location): (r: Result<FileStore>)
    ensures !location.absolute ==> r == Failure(IllegalArgumentException)
    ensures location.absolute ==>
              (r.Success? <==> location.names in fs && !HasChildren(fs, location.names))
    ensures r.Success? ==>
              location.names !in r.value && OnlyChangedAt(fs, r.value, location.names)
  {
    if !location.absolute then Failure(IllegalArgumentException)
    else if location.names !in fs || HasChildren(fs, location.names) then Failure(IOException)
    else Success(fs - {location.names})
  }

  /**
   * Writing a text file (newBufferedWriterForTextFile, then the text): the file at an absolute
   * location is created or truncated and holds content, stamped now. A missing parent
   * directory or a directory at the location is an IOException.
   */
  function Write(fs: FileStore, location: Location, content: string, now: int): (r: Result<FileStore>)
    ensures !location.absolute ==> r == Failure(IllegalArgumentException)
    ensures location.absolute ==>
              (r.Success? <==> ParentIsDirectory(fs, location.names)
                               && !(location.names in fs && fs[location.names].Directory?))
    ensures location.absolute && r.Failure? ==> r.error == IOException
    ensures r.Success? ==>
              && location.names in r.value
              && r.value[location.names] == File(content, now)
              && OnlyChangedAt(fs, r.value, location.names)
  {
    if !location.absolute then Failure(IllegalArgumentException)
    else if !ParentIsDirectory(fs, location.names) || (location.names in fs && fs[location.names].Directory?) then
      Failure(IOException)
    else Success(fs[location.names := File(content, now)])
  }
}

=== FILE: freemarker_converter.dfy ===
/**
 * converter/freemarker/FreeMarkerDocumentConverter: the naming of converted files and the
 * custom-template staleness check. Rendering itself is not part of this model.
 */
module FreeMarker {
  import opened Outcomes
  import opened Paths
  import opened SplitPaths
  import opened FileStores

  /** TARGET_EXTENSION. */
  const TargetExtension: string := "html"

  /** CUSTOM_PAGE_TEMPLATE, looked up in the template root. */
  const CustomPageTemplate: string := ".page.ftl"

  /** The touch file whose modification time marks the last export. */
  const TouchFileName: string := ".magisto-export"

  /** getTargetExtension. */
  function GetTargetExtension(): (r: string)
    ensures r == "html"
  {
    TargetExtension
  }

  /** getConvertedFileName: the last extension replaced by "html", in the same directory. */
  function ConvertedFileName(p: Path): (r: Path)
    requires |p| > 0
    ensures |r| == |p| && Parent(r) == Parent(p)
  {
    ResolveSibling(p, FileName(Split(p).pathWithoutExtension) + "." + TargetExtension)
  }

  /**
   * The DocumentConverter contract: the converted name differs from the source name in the
   * extension alone, and that extension is "html".
   */
  lemma ConvertedKeepsDocument(p: Path)
    requires ValidPath(p)
    ensures Split(ConvertedFileName(p)) == SplitPath(Split(p).pathWithoutExtension, TargetExtension)
    ensures SameDocument(ConvertedFileName(p), p)
  {
    var stem := StemOfValid(p);
    ConvertedSplit(p, stem);
  }

  lemma ConvertedSplit(p: Path, stem: string)
    requires |p| > 0 && |stem| > 0 && stem == FileName(Split(p).pathWithoutExtension)
    ensures Split(ConvertedFileName(p)) == SplitPath(Split(p).pathWithoutExtension, TargetExtension)
  {
    TargetExtensionHasNoDot();
    RenamedSplit(p, stem, TargetExtension);
  }

  lemma TargetExtensionHasNoDot()
    ensures '.' !in TargetExtension
  {
  }

  /** Giving the stem of a path a new extension splits back into the same stem and that extension. */
  lemma RenamedSplit(p: Path, stem: string, extension: string)
    requires |p| > 0 && |stem| > 0 && stem == FileName(Split(p).pathWithoutExtension) && '.' !in extension
    ensures Split(ResolveSibling(p, stem + "." + extension)) == SplitPath(Split(p).pathWithoutExtension, extension)
  {
    var renamed := ResolveSibling(p, stem + "." + extension);
    var without := Split(p).pathWithoutExtension;
    SplitOfStemAndExtension(renamed, stem, extension);
    ParentAndName(without);
    assert ResolveSibling(renamed, stem) == Parent(p) + [stem];
  }

  /** The stem of a valid path is not empty. */
  lemma StemOfValid(p: Path) returns (stem: string)
    requires ValidPath(p)
    ensures stem == FileName(Split(p).pathWithoutExtension) && |stem| > 0
  {
    stem := FileName(Split(p).pathWithoutExtension);
    assert ValidName(FileName(p));
  }

  /** The converted path is one a directory listing could return. */
  lemma ConvertedIsValid(p: Path)
    requires ValidPath(p)
    ensures ValidPath(ConvertedFileName(p))
  {
    var r := ConvertedFileName(p);
    var s := Split(p);
    var stem := FileName(s.pathWithoutExtension);
    assert ValidName(FileName(p));
    if !NoExtension(FileName(p)) {
      assert forall i :: 0 <= i < |stem| ==> stem[i] == (stem + "." + s.originalExtension)[i];
    }
    assert '/' !in stem + "." + TargetExtension;
    forall i | 0 <= i < |r|
      ensures ValidName(r[i])
    {
      if i < |r| - 1 {
        assert r[i] == Parent(r)[i] == Parent(p)[i] == p[i];
      }
    }
  }

  /** A file stem.extension becomes stem.html in the same directory. */
  lemma ConvertedFileNameOf(directory: Path, stem: string, extension: string)
    requires |stem| > 0 && '.' !in extension
    ensures ConvertedFileName(directory + [stem + "." + extension]) == directory + [stem + "." + TargetExtension]
  {
    SplitInDirectory(directory, stem, extension);
    assert FileName(directory + [stem]) == stem;
  }

  /** The documented example: "foo.MarkDown" becomes "foo.html", whatever the stem. */
  lemma ConvertedFileNameExample(directory: Path, stem: string)
    requires |stem| > 0
    ensures ConvertedFileName(directory + [stem + "." + "MarkDown"]) == directory + [stem + "." + "html"]
  {
    ConvertedFileNameOf(directory, stem, "MarkDown");
  }

  /** The converter, bound to the template root (the loader's source root) and the target root. */
  datatype FreeMarkerDocumentConverter = FreeMarkerDocumentConverter(templateRoot: Location, targetRoot: Location)

  /**
   * isCustomTemplateChanged: false without a custom template; otherwise whether the template
   * is strictly newer than the touch file. Reading a missing touch file is an IOException.
   */
  function IsCustomTemplateChanged(c: FreeMarkerDocumentConverter, fs: FileStore): (r: Result<bool>)
    ensures !Exists(fs, Resolve(c.templateRoot, [CustomPageTemplate])) ==> r == Success(false)
    ensures Exists(fs, Resolve(c.templateRoot, [CustomPageTemplate])) ==>
              (r.Success? <==> Exists(fs, Resolve(c.targetRoot, [TouchFileName])))
    ensures r == Success(true) <==>
              && Exists(fs, Resolve(c.templateRoot, [CustomPageTemplate]))
              && Exists(fs, Resolve(c.targetRoot, [TouchFileName]))
              && fs[Resolve(c.templateRoot, [CustomPageTemplate]).names].lastModified
                   > fs[Resolve(c.targetRoot, [TouchFileName]).names].lastModified
  {
    var template := Resolve(c.templateRoot, [CustomPageTemplate]);
    if !Exists(fs, template) then Success(false)
    else
      match LastModified(fs, Resolve(c.targetRoot, [TouchFileName]))
      case Failure(e) => Failure(e)
      case Success(touchFileTimestamp) =>
        var customTemplateTimestamp := fs[template.names].lastModified;
        Success(customTemplateTimestamp > touchFileTimestamp)
  }
}

/**
 * document/freemarker/FreeMarkerDocumentConverter, the older snapshot. Its
 * getConvertedFileName and getTargetExtension are the same code as in FreeMarker; only the
 * staleness check differs, reading the touch file through the file system's own accessor.
 */
module DocumentFreeMarker {
  import opened Outcomes
  import opened Paths
  import opened FileStores
  import FreeMarker
  import SplitPaths

  /**
   * isCustomTemplateChanged(sourceRoot, targetRoot): false without sourceRoot/.page.ftl;
   * otherwise the touch file's time is read first, as the file system reports it in
   * touchFileTimestamp, and a failure to read it is passed on; the answer is whether the
   * template is strictly newer.
   */
  function IsCustomTemplateChanged(fs: FileStore, sourceRoot: Location, touchFileTimestamp: Result<int>)
    : (r: Result<bool>)
    ensures !Exists(fs, Resolve(sourceRoot, [FreeMarker.CustomPageTemplate])) ==> r == Success(false)
    ensures Exists(fs, Resolve(sourceRoot, [FreeMarker.CustomPageTemplate])) && touchFileTimestamp.Failure? ==>
              r == Failure(touchFileTimestamp.error)
    ensures Exists(fs, Resolve(sourceRoot, [FreeMarker.CustomPageTemplate])) && touchFileTimestamp.Success? ==>
              r == Success(fs[Resolve(sourceRoot, [FreeMarker.CustomPageTemplate]).names].lastModified
                           > touchFileTimestamp.value)
  {
    var template := Resolve(sourceRoot, [FreeMarker.CustomPageTemplate]);
    if !Exists(fs, template) then Success(false)
    else
      var touchFileTime :- touchFileTimestamp;
      var customTemplateTimestamp := fs[template.names].lastModified;
      Success(customTemplateTimestamp > touchFileTime)
  }

  /** Given the touch file's time as the store holds it, both snapshots decide alike. */
  lemma SnapshotsAgree(fs: FileStore, sourceRoot: Location, targetRoot: Location)
    ensures IsCustomTemplateChanged(fs, sourceRoot, LastModified(fs, Resolve(targetRoot, [FreeMarker.TouchFileName])))
              == FreeMarker.IsCustomTemplateChanged(FreeMarker.FreeMarkerDocumentConverter(sourceRoot, targetRoot), fs)
  {
  }

  /** The converted path is a sibling of the source: same directory, "html" extension. */
  lemma ConvertedIsSibling(p: Path)
    requires ValidPath(p)
    ensures Parent(FreeMarker.ConvertedFileName(p)) == Parent(p)
    ensures SplitPaths.Split(FreeMarker.ConvertedFileName(p)).originalExtension == FreeMarker.GetTargetExtension()
  {
    FreeMarker.ConvertedKeepsDocument(p);
  }
}

=== FILE: index_filter.dfy ===
/**
 * SkipGeneratedIndexFilesFilter: hides generated index pages from the target listing unless
 * the source tree holds a custom index for the same document.
 */
module IndexFilter {
  import Strings
  import opened Paths
  import opened SplitPaths

  /** Magisto.INDEX_FILE_NAME, the base name of generated index pages. */
  const IndexFileName: string := "index"

  /** The filter: the custom index documents (as paths without extension) and the target extension. */
  datatype SkipGeneratedIndexFilesFilter = Filter(customIndexes: set<Path>, targetExtension: string)

  /** createExtensionSet: the loader's extensions plus the converter's target extension. */
  function CreateExtensionSet(supportedExtensions: set<string>, targetExtension: string): (r: set<string>)
    ensures forall e :: e in r <==> e in supportedExtensions || e == targetExtension
  {
    supportedExtensions + {targetExtension}
  }

  /** A source path that findCustomIndexFiles keeps: base name "index" in any case, a known extension. */
  predicate IsCustomIndex(p: Path, extensions: set<string>)
  {
    && |p| > 0
    && Strings.EqualsIgnoreCase(FileName(Split(p).pathWithoutExtension), IndexFileName)
    && Strings.ToLower(Split(p).originalExtension) in extensions
  }

  /** findCustomIndexFiles: the custom index documents among the source paths. */
  function FindCustomIndexFiles(sourcePaths: set<Path>, extensions: set<string>): (r: set<Path>)
    ensures forall d :: d in r <==>
              exists p :: p in sourcePaths && IsCustomIndex(p, extensions) && Split(p).pathWithoutExtension == d
  {
    set p | p in sourcePaths && IsCustomIndex(p, extensions) :: Split(p).pathWithoutExtension
  }

  /** The constructor. */
  function NewFilter(sourcePaths: set<Path>, supportedExtensions: set<string>, targetExtension: string)
    : (r: SkipGeneratedIndexFilesFilter)
    ensures r.targetExtension == targetExtension
    ensures forall p :: p in sourcePaths && IsCustomIndex(p, supportedExtensions + {targetExtension}) ==>
              Split(p).pathWithoutExtension in r.customIndexes
    ensures forall d :: d in r.customIndexes ==>
              exists p :: p in sourcePaths && IsCustomIndex(p, supportedExtensions + {targetExtension})
                          && Split(p).pathWithoutExtension == d
  {
    Filter(FindCustomIndexFiles(sourcePaths, CreateExtensionSet(supportedExtensions, targetExtension)),
           targetExtension)
  }

  /** acceptDirectory: directories are never filtered. */
  predicate AcceptDirectory(f: SkipGeneratedIndexFilesFilter, p: Path): (r: bool)
    ensures r
  {
    true
  }

  /** A target file that looks generated: base name "index" and the target extension, in any case. */
  predicate LooksGenerated(p: Path, targetExtension: string)
  {
    && |p| > 0
    && Strings.EqualsIgnoreCase(FileName(Split(p).pathWithoutExtension), IndexFileName)
    && Strings.EqualsIgnoreCase(Split(p).originalExtension, targetExtension)
  }

  /** acceptFile. */
  predicate AcceptFile(f: SkipGeneratedIndexFilesFilter, p: Path): (r: bool)
    requires |p| > 0
    ensures !r <==> LooksGenerated(p, f.targetExtension) && Split(p).pathWithoutExtension !in f.customIndexes
  {
    var splitPath := Split(p);
    if Strings.EqualsIgnoreCase(FileName(splitPath.pathWithoutExtension), IndexFileName)
       && Strings.EqualsIgnoreCase(splitPath.originalExtension, f.targetExtension)
    then splitPath.pathWithoutExtension in f.customIndexes
    else true
  }

  /**
   * A target file is hidden exactly when it looks generated and no source path is a custom
   * index for the same document; every other file is kept.
   */
  lemma RejectsExactlyGeneratedIndexes(sourcePaths: set<Path>, supportedExtensions: set<string>,
                                       targetExtension: string, p: Path)
    requires |p| > 0
    ensures !AcceptFile(NewFilter(sourcePaths, supportedExtensions, targetExtension), p) <==>
              && LooksGenerated(p, targetExtension)
              && !exists q :: q in sourcePaths && IsCustomIndex(q, supportedExtensions + {targetExtension})
                              && SameDocument(q, p)
  {
  }

  /** The lower-case forms the examples below compare. */
  lemma IndexIsLowerCase()
    ensures Strings.ToLower("index") == "index"
  {
    Strings.ToLowerOfLowerCase("index");
  }

  lemma HtmlIsLowerCase()
    ensures Strings.ToLower("html") == "html"
  {
    Strings.ToLowerOfLowerCase("html");
  }

  lemma MdIsLowerCase()
    ensures Strings.ToLower("md") == "md"
  {
    Strings.ToLowerOfLowerCase("md");
  }

  lemma JpgIsLowerCase()
    ensures Strings.ToLower("jpg") == "jpg"
  {
    Strings.ToLowerOfLowerCase("jpg");
  }

  /** index.html looks generated in any directory. */
  lemma IndexPageLooksGenerated(directory: Path)
    ensures LooksGenerated(directory + ["index" + "." + "html"], "html")
  {
    SplitInDirectory(directory, "index", "html");
    IndexIsLowerCase();
    HtmlIsLowerCase();
  }

  /** index.md is a custom index. */
  lemma MarkdownIndexIsCustom(directory: Path)
    ensures IsCustomIndex(directory + ["index" + "." + "md"], {"md", "markdown", "mdown"} + {"html"})
  {
    SplitInDirectory(directory, "index", "md");
    IndexIsLowerCase();
    MdIsLowerCase();
  }

  /** index.jpg is not a custom index. */
  lemma ImageIndexIsNotCustom(directory: Path)
    ensures !IsCustomIndex(directory + ["index" + "." + "jpg"], {"md", "markdown", "mdown"} + {"html"})
  {
    SplitInDirectory(directory, "index", "jpg");
    JpgIsLowerCase();
    JpgIsNotKnown();
  }

  /** "jpg" is neither a Markdown extension nor the target extension. */
  lemma JpgIsNotKnown()
    ensures "jpg" !in {"md", "markdown", "mdown"} + {"html"}
  {
    assert "jpg"[0] != "md"[0] && "jpg"[0] != "markdown"[0] && "jpg"[0] != "mdown"[0] && "jpg"[0] != "html"[0];
  }

  /** index.md and index.html in one directory are one document. */
  lemma SameDirectorySameDocument(directory: Path)
    ensures SameDocument(directory + ["index" + "." + "md"], directory + ["index" + "." + "html"])
  {
    SplitInDirectory(directory, "index", "md");
    SplitInDirectory(directory, "index", "html");
  }

  /** index.md and index.html in different directories are different documents. */
  lemma OtherDirectoryOtherDocument(directory: Path, other: Path)
    requires directory != other
    ensures !SameDocument(directory + ["index" + "." + "md"], other + ["index" + "." + "html"])
  {
    SplitInDirectory(directory, "index", "md");
    SplitInDirectory(other, "index", "html");
    assert (directory + ["index"])[..|directory|] == directory;
    assert (other + ["index"])[..|other|] == other;
  }

  /** In any directory, a source "index.jpg" is not a custom index: "index.html" is still hidden. */
  lemma OtherExtensionIsNotCustom(directory: Path)
    ensures !AcceptFile(NewFilter({directory + ["index" + "." + "jpg"]}, {"md", "markdown", "mdown"}, "html"),
                        directory + ["index" + "." + "html"])
  {
    RejectsExactlyGeneratedIndexes({directory + ["index" + "." + "jpg"]}, {"md", "markdown", "mdown"}, "html",
                                   directory + ["index" + "." + "html"]);
    IndexPageLooksGenerated(directory);
    ImageIndexIsNotCustom(directory);
  }

  /** A source "index.md" keeps the "index.html" beside it. */
  lemma CustomIndexKeepsPage(directory: Path)
    ensures AcceptFile(NewFilter({directory + ["index" + "." + "md"]}, {"md", "markdown", "mdown"}, "html"),
                       directory + ["index" + "." + "html"])
  {
    RejectsExactlyGeneratedIndexes({directory + ["index" + "." + "md"]}, {"md", "markdown", "mdown"}, "html",
                                   directory + ["index" + "." + "html"]);
    MarkdownIndexIsCustom(directory);
    SameDirectorySameDocument(directory);
  }

  /** A source "index.md" does not keep an "index.html" in another directory. */
  lemma CustomIndexIsPerDirectory(directory: Path, other: Path)
    requires directory != other
    ensures !AcceptFile(NewFilter({directory + ["index" + "." + "md"]}, {"md", "markdown", "mdown"}, "html"),
                        other + ["index" + "." + "html"])
  {
    RejectsExactlyGeneratedIndexes({directory + ["index" + "." + "md"]}, {"md", "markdown", "mdown"}, "html",
                                   other + ["index" + "." + "html"]);
    IndexPageLooksGenerated(other);
    OtherDirectoryOtherDocument(directory, other);
  }
}

=== FILE: json.dfy ===
/**
 * JSON documents as json-simple hands them over after parsing: the value tree only, with
 * the casts the code applies to the values it reads.
 */
module JsonValues {
  import opened Outcomes

  datatype Json =
    | JNull
    | JBool(b: bool)
    | JInt(i: int)
    | JString(s: string)
    | JArray(items: seq<Json>)
    | JObject(fields: map<string, Json>)

  /**
   * (JSONObject) value, then read from: a null value casts, and the first read from it is a
   * NullPointerException; any other non-object is a ClassCastException.
   */
  function GetObject(j: Json): (r: Result<map<string, Json>>)
    ensures r.Success? <==> j.JObject?
    ensures r.Success? ==> r.value == j.fields
    ensures r.Failure? ==> r.error == (if j.JNull? then NullPointerException else ClassCastException)
  {
    match j
    case JObject(fields) => Success(fields)
    case JNull => Failure(NullPointerException)
    case _ => Failure(ClassCastException)
  }

  /**
   * (String) object.get(key): an absent or null value is a null reference, which is a legal
   * String; any other non-string is a ClassCastException.
   */
  function GetNullableString(fields: map<string, Json>, key: string): (r: Result<Option<string>>)
    ensures r.Failure? <==> key in fields && !fields[key].JNull? && !fields[key].JString?
    ensures r.Failure? ==> r.error == ClassCastException
    ensures r.Success? ==> (r.value.None? <==> key !in fields || fields[key].JNull?)
    ensures r.Success? && r.value.Some? ==> fields[key] == JString(r.value.value)
  {
    if key !in fields || fields[key].JNull? then Success(None)
    else if !fields[key].JString? then Failure(ClassCastException)
    else Success(Some(fields[key].s))
  }

  /**
   * (String) object.get(key) for a string the code goes on to dereference: an absent or null
   * value is a NullPointerException at that use, which the model reports at once.
   */
  function GetString(fields: map<string, Json>, key: string): (r: Result<string>)
    ensures r.Success? <==> key in fields && fields[key].JString?
    ensures r.Success? ==> r.value == fields[key].s
    ensures r.Failure? && key in fields && !fields[key].JNull? ==> r.error == ClassCastException
    ensures key !in fields || fields[key].JNull? ==> r == Failure(NullPointerException)
  {
    var text :- GetNullableString(fields, key);
    if text.None? then Failure(NullPointerException) else Success(text.value)
  }

  /** (JSONArray) object.get(key), iterated over: null is a NullPointerException. */
  function GetArray(fields: map<string, Json>, key: string): (r: Result<seq<Json>>)
    ensures r.Success? <==> key in fields && fields[key].JArray?
    ensures r.Success? ==> r.value == fields[key].items
    ensures r.Failure? && key in fields && !fields[key].JNull? ==> r.error == ClassCastException
  {
    if key !in fields || fields[key].JNull? then Failure(NullPointerException)
    else if !fields[key].JArray? then Failure(ClassCastException)
    else Success(fields[key].items)
  }
}

=== FILE: magisto.dfy ===
/**
 * Magisto: the planner. It walks the sorted source and target trees side by side and adds
 * one action per step (skip, copy, convert or delete), then one action per static file,
 * into an action set. Loading the previous sitemap decides whether everything is redone.
 */
module Planner {
  import opened Outcomes
  import opened Paths
  import Strings
  import opened FileStores
  import MarkdownLoader
  import FreeMarker
  import opened Actions
  import opened ActionSets
  import Sitemaps
  import SplitPaths

  /** STATIC_CONTENT_DIRECTORY, under the source root. */
  const StaticContentDirectory: string := ".static"

  function StaticRoot(sourceRoot: Location): Location
  {
    Resolve(sourceRoot, [StaticContentDirectory])
  }

  /** Every path is one a directory listing of root returns: valid, and present in the store. */
  predicate Listed(fs: FileStore, root: Location, ps: seq<Path>)
  {
    forall p | p in ps :: ValidPath(p) && Exists(fs, Resolve(root, p))
  }

  /** nullableNext: the next path of an enumeration, or null when it is exhausted. */
  function Head(ps: seq<Path>): (r: Option<Path>)
    ensures r.Some? <==> |ps| > 0
    ensures r.Some? ==> r.value == ps[0]
  {
    if |ps| == 0 then None else Some(ps[0])
  }

  // ---------------------------------------------------------------------------------------
  // Comparing and dating
  // ---------------------------------------------------------------------------------------

  /** What a source is matched on: its converted file name when the loader supports it. */
  function SourceKey(s: Path): string
  {
    if |s| > 0 && MarkdownLoader.Supports(s) then Join(FreeMarker.ConvertedFileName(s)) else Join(s)
  }

  lemma LessImpliesDifferent(a: string, b: string)
    requires Strings.Less(a, b)
    ensures a != b
  {
    Strings.CompareZeroIffEqual(a, b);
  }

  /**
   * compareNullablePaths: an exhausted source compares greater, an exhausted target
   * smaller; otherwise the source, by its converted name when supported, against the target.
   */
  function CompareNullablePaths(source: Option<Path>, target: Option<Path>): (r: int)
    ensures source.None? ==> r > 0
    ensures source.Some? && target.None? ==> r < 0
    ensures source.Some? && target.Some? ==>
              && (r == 0 <==> SourceKey(source.value) == Join(target.value))
              && (r < 0 <==> Strings.Less(SourceKey(source.value), Join(target.value)))
              && (r > 0 <==> Strings.Less(Join(target.value), SourceKey(source.value)))
  {
    if source.None? then 1
    else if target.None? then -1
    else
      var s := source.value;
      var comparison := if |s| > 0 && MarkdownLoader.Supports(s) then Paths.Compare(FreeMarker.ConvertedFileName(s), target.value)
                        else Paths.Compare(s, target.value);
      Strings.CompareZeroIffEqual(SourceKey(s), Join(target.value));
      Strings.CompareAntisymmetric(SourceKey(s), Join(target.value));
      comparison
  }

  /**
   * isSourceNewerThanTarget: whether the source's modification time is strictly later than
   * the target's; reading the time of a missing file fails.
   */
  function IsSourceNewerThanTarget(fs: FileStore, sourcePath: Location, targetPath: Location): (r: Result<bool>)
    ensures r.Success? <==> Exists(fs, sourcePath) && Exists(fs, targetPath)
    ensures r.Success? ==> (r.value <==> fs[sourcePath.names].lastModified > fs[targetPath.names].lastModified)
  {
    var sourceLastModified :- LastModified(fs, sourcePath);
    var targetLastModified :- LastModified(fs, targetPath);
    Success(sourceLastModified > targetLastModified)
  }

  // ---------------------------------------------------------------------------------------
  // The merge of source and target trees
  // ---------------------------------------------------------------------------------------

  /**
   * What the merge works with: the file store, the two roots, the forceCopy field and the
   * forceConvert decision of the run.
   */
  datatype Context = Context(fs: FileStore, sourceRoot: Location, targetRoot: Location,
                             forceCopy: bool, forceConvert: bool)

  predicate SourceNewer(c: Context, s: Path, t: Path)
  {
    IsSourceNewerThanTarget(c.fs, Resolve(c.sourceRoot, s), Resolve(c.targetRoot, t)) == Success(true)
  }

  /**
   * The decision for a source with its corresponding target: a newer source is converted
   * when supported and copied otherwise; a source that is not newer is converted when
   * conversion is forced and it is supported, else copied when copying is forced, else
   * skipped.
   */
  function CorrespondingDecision(newer: bool, supported: bool, forceConvert: bool, forceCopy: bool): (r: ActionType)
    ensures r == ConvertSource <==> supported && (newer || forceConvert)
    ensures r == CopySource <==>
              if newer then !supported else forceCopy && !(forceConvert && supported)
    ensures r == SkipSource <==> !newer && !(forceConvert && supported) && !forceCopy
    ensures r in {ConvertSource, CopySource, SkipSource}
  {
    if newer then
      if supported then ConvertSource else CopySource
    else if forceConvert && supported then ConvertSource
    else if forceCopy then CopySource
    else SkipSource
  }

  /** The action for a source with its corresponding target, dated through the file store. */
  function CorrespondingAction(c: Context, s: Path, t: Path): (r: Action)
    requires ValidPath(s) && Exists(c.fs, Resolve(c.sourceRoot, s)) && Exists(c.fs, Resolve(c.targetRoot, t))
    ensures r.path == s && r.Category() == Source
    ensures r.actionType ==
              CorrespondingDecision(SourceNewer(c, s, t), MarkdownLoader.Supports(s), c.forceConvert, c.forceCopy)
  {
    var newer := IsSourceNewerThanTarget(c.fs, Resolve(c.sourceRoot, s), Resolve(c.targetRoot, t)).value;
    Action(s, CorrespondingDecision(newer, MarkdownLoader.Supports(s), c.forceConvert, c.forceCopy))
  }

  /** A source without a corresponding target: converted when supported, copied otherwise. */
  function NewSourceAction(s: Path): (r: Action)
    requires |s| > 0
    ensures r.path == s && r.Category() == Source
    ensures MarkdownLoader.Supports(s) ==> r.actionType == ConvertSource
    ensures !MarkdownLoader.Supports(s) ==> r.actionType == CopySource
  {
    var supported := MarkdownLoader.Supports(s);
    Action(s, if supported then ConvertSource else CopySource)
  }

  /**
   * addSourceActions, the loop: compare the heads of both enumerations; a match yields the
   * corresponding action and advances both, a smaller source yields its action and advances
   * the sources, a smaller target is deleted and advances the targets. Each step consumes at
   * least one path and yields exactly one action.
   */
  function Merge(c: Context, sources: seq<Path>, targets: seq<Path>): (r: seq<Action>)
    requires Listed(c.fs, c.sourceRoot, sources) && Listed(c.fs, c.targetRoot, targets)
    ensures |sources| <= |r| <= |sources| + |targets| && |targets| <= |r|
    ensures forall i :: 0 <= i < |r| ==> r[i].Category() == Source
    decreases |sources| + |targets|
  {
    if |sources| == 0 && |targets| == 0 then []
    else
      var comparison := CompareNullablePaths(Head(sources), Head(targets));
      if comparison == 0 then
        [CorrespondingAction(c, sources[0], targets[0])] + Merge(c, sources[1..], targets[1..])
      else if comparison < 0 then
        assert sources[0] in sources;
        [NewSourceAction(sources[0])] + Merge(c, sources[1..], targets)
      else
        [Action(targets[0], DeleteTarget)] + Merge(c, sources, targets[1..])
  }

  // ---------------------------------------------------------------------------------------
  // What the merge computes, stated per source and per target
  // ---------------------------------------------------------------------------------------

  /** The sources ordered strictly by their keys, as the prioritising enumeration lists them. */
  predicate SourcesSorted(sources: seq<Path>)
  {
    forall i, j :: 0 <= i < j < |sources| ==> Strings.Less(SourceKey(sources[i]), SourceKey(sources[j]))
  }

  /** The targets ordered strictly by name. */
  predicate TargetsSorted(targets: seq<Path>)
  {
    forall i, j :: 0 <= i < j < |targets| ==> Strings.Less(Join(targets[i]), Join(targets[j]))
  }

  /** The target a source corresponds to: the first one named by the source's key. */
  function Counterpart(targets: seq<Path>, s: Path): (r: Option<Path>)
    ensures r.Some? ==> r.value in targets && Join(r.value) == SourceKey(s)
    ensures r.None? <==> forall j :: 0 <= j < |targets| ==> Join(targets[j]) != SourceKey(s)
    decreases |targets|
  {
    if |targets| == 0 then None
    else if Join(targets[0]) == SourceKey(s) then Some(targets[0])
    else Counterpart(targets[1..], s)
  }

  /** Whether some source corresponds to the target. */
  function HasSource(sources: seq<Path>, t: Path): (r: bool)
    ensures r <==> exists i :: 0 <= i < |sources| && SourceKey(sources[i]) == Join(t)
    decreases |sources|
  {
    if |sources| == 0 then false
    else SourceKey(sources[0]) == Join(t) || HasSource(sources[1..], t)
  }

  /** An action on the source side for the given source. */
  predicate PlansSource(a: Action, s: Path)
  {
    a.path == s && a.actionType != DeleteTarget
  }

  /**
   * The reference plan for the sources: each source, in order, gets the corresponding
   * action when it has a counterpart and the new-source action otherwise.
   */
  function Planned(c: Context, sources: seq<Path>, targets: seq<Path>): (r: seq<Action>)
    requires Listed(c.fs, c.sourceRoot, sources) && Listed(c.fs, c.targetRoot, targets)
    ensures |r| == |sources|
    ensures forall i :: 0 <= i < |r| ==> PlansSource(r[i], sources[i])
    decreases |sources|
  {
    if |sources| == 0 then []
    else
      assert sources[0] in sources;
      [PlannedAction(c, sources[0], targets)] + Planned(c, sources[1..], targets)
  }

  /** The planned action for one source: the corresponding action, or the new-source one. */
  function PlannedAction(c: Context, s: Path, targets: seq<Path>): (r: Action)
    requires ValidPath(s) && Exists(c.fs, Resolve(c.sourceRoot, s)) && Listed(c.fs, c.targetRoot, targets)
    ensures PlansSource(r, s)
  {
    match Counterpart(targets, s)
    case Some(t) => CorrespondingAction(c, s, t)
    case None => NewSourceAction(s)
  }

  /** The targets no source corresponds to, in order. */
  function Unmatched(sources: seq<Path>, targets: seq<Path>): (r: seq<Path>)
    ensures forall t :: t in r <==> t in targets && !HasSource(sources, t)
    decreases |targets|
  {
    if |targets| == 0 then []
    else (if HasSource(sources, targets[0]) then [] else [targets[0]]) + Unmatched(sources, targets[1..])
  }

  /** The actions on the source side, in order. */
  function SourceActions(r: seq<Action>): seq<Action>
    decreases |r|
  {
    if |r| == 0 then []
    else (if r[0].actionType == DeleteTarget then [] else [r[0]]) + SourceActions(r[1..])
  }

  /** The deleted target paths, in order. */
  function DeletedPaths(r: seq<Action>): seq<Path>
    decreases |r|
  {
    if |r| == 0 then []
    else (if r[0].actionType == DeleteTarget then [r[0].path] else []) + DeletedPaths(r[1..])
  }

  /** A target that sorts below every source key leaves the plan for the sources alone. */
  lemma {:induction false} PlannedSkipsTarget(c: Context, sources: seq<Path>, targets: seq<Path>)
    requires Listed(c.fs, c.sourceRoot, sources) && Listed(c.fs, c.targetRoot, targets)
    requires |targets| > 0 && forall i :: 0 <= i < |sources| ==> SourceKey(sources[i]) != Join(targets[0])
    ensures Planned(c, sources, targets) == Planned(c, sources, targets[1..])
    decreases |sources|
  {
    if |sources| > 0 {
      PlannedSkipsTarget(c, sources[1..], targets);
    }
  }

  /** A source whose key names no target leaves the unmatched targets alone. */
  lemma {:induction false} UnmatchedSkipsSource(sources: seq<Path>, targets: seq<Path>)
    requires |sources| > 0 && forall j :: 0 <= j < |targets| ==> SourceKey(sources[0]) != Join(targets[j])
    ensures Unmatched(sources, targets) == Unmatched(sources[1..], targets)
    decreases |targets|
  {
    if |targets| > 0 {
      UnmatchedSkipsSource(sources, targets[1..]);
    }
  }

  /** Below the first key of a sorted sequence, nothing in it has an equal key. */
  lemma SourcesAboveKey(sources: seq<Path>, key: string)
    requires SourcesSorted(sources) && |sources| > 0 && Strings.Less(key, SourceKey(sources[0]))
    ensures forall i :: 0 <= i < |sources| ==> SourceKey(sources[i]) != key
  {
    forall i | 0 <= i < |sources| ensures SourceKey(sources[i]) != key {
      if i > 0 {
        Strings.LessTransitive(key, SourceKey(sources[0]), SourceKey(sources[i]));
      }
      LessImpliesDifferent(key, SourceKey(sources[i]));
    }
  }

  lemma TargetsAboveKey(targets: seq<Path>, key: string)
    requires TargetsSorted(targets) && |targets| > 0 && Strings.Less(key, Join(targets[0]))
    ensures forall j :: 0 <= j < |targets| ==> key != Join(targets[j])
  {
    forall j | 0 <= j < |targets| ensures key != Join(targets[j]) {
      if j > 0 {
        Strings.LessTransitive(key, Join(targets[0]), Join(targets[j]));
      }
      LessImpliesDifferent(key, Join(targets[j]));
    }
  }

  lemma ActionsCons(a: Action, rest: seq<Action>)
    ensures SourceActions([a] + rest) == (if a.actionType == DeleteTarget then [] else [a]) + SourceActions(rest)
    ensures DeletedPaths([a] + rest) == (if a.actionType == DeleteTarget then [a.path] else []) + DeletedPaths(rest)
  {
    assert ([a] + rest)[1..] == rest;
  }

  /** What the merge should compute, for the sources and for the targets. */
  predicate MergesAsPlanned(c: Context, sources: seq<Path>, targets: seq<Path>)
    requires Listed(c.fs, c.sourceRoot, sources) && Listed(c.fs, c.targetRoot, targets)
  {
    && SourceActions(Merge(c, sources, targets)) == Planned(c, sources, targets)
    && DeletedPaths(Merge(c, sources, targets)) == Unmatched(sources, targets)
  }

  /** A step that pairs a source with its target. */
  lemma MatchStep(c: Context, sources: seq<Path>, targets: seq<Path>)
    requires Listed(c.fs, c.sourceRoot, sources) && Listed(c.fs, c.targetRoot, targets)
    requires SourcesSorted(sources) && TargetsSorted(targets)
    requires |sources| > 0 && |targets| > 0 && SourceKey(sources[0]) == Join(targets[0])
    requires MergesAsPlanned(c, sources[1..], targets[1..])
    ensures MergesAsPlanned(c, sources, targets)
  {
    var first := CorrespondingAction(c, sources[0], targets[0]);
    assert Merge(c, sources, targets) == [first] + Merge(c, sources[1..], targets[1..]);
    ActionsCons(first, Merge(c, sources[1..], targets[1..]));
    MatchStepSources(c, sources, targets);
    MatchStepTargets(sources, targets);
  }

  lemma MatchStepSources(c: Context, sources: seq<Path>, targets: seq<Path>)
    requires Listed(c.fs, c.sourceRoot, sources) && Listed(c.fs, c.targetRoot, targets)
    requires SourcesSorted(sources)
    requires |sources| > 0 && |targets| > 0 && SourceKey(sources[0]) == Join(targets[0])
    ensures Planned(c, sources, targets) ==
              [CorrespondingAction(c, sources[0], targets[0])] + Planned(c, sources[1..], targets[1..])
  {
    assert Counterpart(targets, sources[0]) == Some(targets[0]);
    if |sources| > 1 {
      SourcesAboveKey(sources[1..], Join(targets[0]));
    }
    PlannedSkipsTarget(c, sources[1..], targets);
  }

  lemma MatchStepTargets(sources: seq<Path>, targets: seq<Path>)
    requires TargetsSorted(targets)
    requires |sources| > 0 && |targets| > 0 && SourceKey(sources[0]) == Join(targets[0])
    ensures Unmatched(sources, targets) == Unmatched(sources[1..], targets[1..])
  {
    assert HasSource(sources, targets[0]);
    if |targets| > 1 {
      TargetsAboveKey(targets[1..], SourceKey(sources[0]));
    }
    UnmatchedSkipsSource(sources, targets[1..]);
  }

  /** A step that meets a source without a target. */
  lemma SourceStep(c: Context, sources: seq<Path>, targets: seq<Path>)
    requires Listed(c.fs, c.sourceRoot, sources) && Listed(c.fs, c.targetRoot, targets)
    requires SourcesSorted(sources) && TargetsSorted(targets)
    requires |sources| > 0 && (|targets| == 0 || Strings.Less(SourceKey(sources[0]), Join(targets[0])))
    requires MergesAsPlanned(c, sources[1..], targets)
    ensures MergesAsPlanned(c, sources, targets)
  {
    var key := SourceKey(sources[0]);
    assert sources[0] in sources;
    var first := NewSourceAction(sources[0]);
    assert Merge(c, sources, targets) == [first] + Merge(c, sources[1..], targets);
    ActionsCons(first, Merge(c, sources[1..], targets));
    if |targets| > 0 {
      TargetsAboveKey(targets, key);
    }
    UnmatchedSkipsSource(sources, targets);
  }

  /** A step that meets a target without a source. */
  lemma TargetStep(c: Context, sources: seq<Path>, targets: seq<Path>)
    requires Listed(c.fs, c.sourceRoot, sources) && Listed(c.fs, c.targetRoot, targets)
    requires SourcesSorted(sources) && TargetsSorted(targets)
    requires |targets| > 0 && (|sources| == 0 || Strings.Less(Join(targets[0]), SourceKey(sources[0])))
    requires MergesAsPlanned(c, sources, targets[1..])
    ensures MergesAsPlanned(c, sources, targets)
  {
    var first := Action(targets[0], DeleteTarget);
    assert Merge(c, sources, targets) == [first] + Merge(c, sources, targets[1..]);
    ActionsCons(first, Merge(c, sources, targets[1..]));
    if |sources| > 0 {
      SourcesAboveKey(sources, Join(targets[0]));
    }
    PlannedSkipsTarget(c, sources, targets);
  }

  /**
   * The merge does what the reference plan says: every source gets exactly one action, in
   * order, the corresponding action exactly when a target has its key; and exactly the
   * targets no source corresponds to are deleted, each once, in order.
   */
  lemma MergeIsPlanned(c: Context, sources: seq<Path>, targets: seq<Path>)
    requires Listed(c.fs, c.sourceRoot, sources) && Listed(c.fs, c.targetRoot, targets)
    requires SourcesSorted(sources) && TargetsSorted(targets)
    ensures SourceActions(Merge(c, sources, targets)) == Planned(c, sources, targets)
    ensures DeletedPaths(Merge(c, sources, targets)) == Unmatched(sources, targets)
  {
    MergesAsPlannedByInduction(c, sources, targets);
  }

  lemma {:induction false} MergesAsPlannedByInduction(c: Context, sources: seq<Path>, targets: seq<Path>)
    requires Listed(c.fs, c.sourceRoot, sources) && Listed(c.fs, c.targetRoot, targets)
    requires SourcesSorted(sources) && TargetsSorted(targets)
    ensures MergesAsPlanned(c, sources, targets)
    decreases |sources| + |targets|
  {
    if |sources| == 0 && |targets| == 0 {
    } else {
      var comparison := CompareNullablePaths(Head(sources), Head(targets));
      if comparison == 0 {
        MergesAsPlannedByInduction(c, sources[1..], targets[1..]);
        MatchStep(c, sources, targets);
      } else if comparison < 0 {
        MergesAsPlannedByInduction(c, sources[1..], targets);
        SourceStep(c, sources, targets);
      } else {
        MergesAsPlannedByInduction(c, sources, targets[1..]);
        TargetStep(c, sources, targets);
      }
    }
  }

  /** Every source path, sorted or not, gets an action. */
  lemma {:induction false} MergeCoversSources(c: Context, sources: seq<Path>, targets: seq<Path>)
    requires Listed(c.fs, c.sourceRoot, sources) && Listed(c.fs, c.targetRoot, targets)
    ensures forall i :: 0 <= i < |sources| ==> sources[i] in PathsOf(Merge(c, sources, targets))
    decreases |sources| + |targets|
  {
    if |sources| > 0 || |targets| > 0 {
      var comparison := CompareNullablePaths(Head(sources), Head(targets));
      var r := Merge(c, sources, targets);
      PathsOfCons(r);
      if comparison == 0 {
        MergeCoversSources(c, sources[1..], targets[1..]);
        assert r[0].path == sources[0] && r[1..] == Merge(c, sources[1..], targets[1..]);
        ShiftedCovered(sources, PathsOf(r[1..]));
      } else if comparison < 0 {
        MergeCoversSources(c, sources[1..], targets);
        assert r[0].path == sources[0] && r[1..] == Merge(c, sources[1..], targets);
        ShiftedCovered(sources, PathsOf(r[1..]));
      } else {
        MergeCoversSources(c, sources, targets[1..]);
        assert r[1..] == Merge(c, sources, targets[1..]);
      }
    }
  }

  lemma ShiftedCovered(sources: seq<Path>, covered: set<Path>)
    requires |sources| > 0
    requires forall i :: 0 <= i < |sources[1..]| ==> sources[1..][i] in covered
    ensures forall i :: 0 < i < |sources| ==> sources[i] in covered
  {
    forall i | 0 < i < |sources| ensures sources[i] in covered {
      assert sources[i] == sources[1..][i - 1];
    }
  }

  /** The merge acts on source and target paths only. */
  lemma {:induction false} MergeWithinInputs(c: Context, sources: seq<Path>, targets: seq<Path>)
    requires Listed(c.fs, c.sourceRoot, sources) && Listed(c.fs, c.targetRoot, targets)
    ensures forall p :: p in PathsOf(Merge(c, sources, targets)) ==> p in sources || p in targets
    decreases |sources| + |targets|
  {
    if |sources| > 0 || |targets| > 0 {
      var comparison := CompareNullablePaths(Head(sources), Head(targets));
      var r := Merge(c, sources, targets);
      PathsOfCons(r);
      if comparison == 0 {
        MergeWithinInputs(c, sources[1..], targets[1..]);
        assert r[0].path == sources[0] && r[1..] == Merge(c, sources[1..], targets[1..]);
        TailWithin(sources);
        TailWithin(targets);
      } else if comparison < 0 {
        MergeWithinInputs(c, sources[1..], targets);
        assert r[0].path == sources[0] && r[1..] == Merge(c, sources[1..], targets);
        TailWithin(sources);
      } else {
        MergeWithinInputs(c, sources, targets[1..]);
        assert r[0].path == targets[0] && r[1..] == Merge(c, sources, targets[1..]);
        TailWithin(targets);
      }
    }
  }

  lemma TailWithin(paths: seq<Path>)
    requires |paths| > 0
    ensures forall p :: p in paths[1..] ==> p in paths
  {
  }

  /** On a tree where nothing changed and nothing is forced, every source is skipped. */
  lemma {:induction false} UpToDateIsSkipped(c: Context, sources: seq<Path>, targets: seq<Path>)
    requires Listed(c.fs, c.sourceRoot, sources) && Listed(c.fs, c.targetRoot, targets)
    requires !c.forceCopy && !c.forceConvert
    requires forall i :: 0 <= i < |sources| ==> UpToDate(c, targets, sources[i])
    ensures AllSkipped(Planned(c, sources, targets))
    decreases |sources|
  {
    if |sources| > 0 {
      UpToDateIsSkipped(c, sources[1..], targets);
      var first := UpToDateFirst(c, sources, targets);
      SkippedCons(first, Planned(c, sources[1..], targets));
    }
  }

  /** The source has a target and is not newer than it. */
  predicate UpToDate(c: Context, targets: seq<Path>, s: Path)
  {
    Counterpart(targets, s).Some? && !SourceNewer(c, s, Counterpart(targets, s).value)
  }

  /** The first source of an unforced plan, when up to date, is skipped. */
  lemma UpToDateFirst(c: Context, sources: seq<Path>, targets: seq<Path>) returns (first: Action)
    requires Listed(c.fs, c.sourceRoot, sources) && Listed(c.fs, c.targetRoot, targets)
    requires !c.forceCopy && !c.forceConvert
    requires |sources| > 0 && UpToDate(c, targets, sources[0])
    ensures first.actionType == SkipSource
    ensures Planned(c, sources, targets) == [first] + Planned(c, sources[1..], targets)
  {
    assert sources[0] in sources;
    first := CorrespondingAction(c, sources[0], Counterpart(targets, sources[0]).value);
  }

  /** Every action of r skips its source. */
  predicate AllSkipped(r: seq<Action>)
  {
    forall i :: 0 <= i < |r| ==> r[i].actionType == SkipSource
  }

  lemma SkippedCons(a: Action, rest: seq<Action>)
    requires a.actionType == SkipSource && AllSkipped(rest)
    ensures AllSkipped([a] + rest)
  {
  }

  // ---------------------------------------------------------------------------------------
  // Static files
  // ---------------------------------------------------------------------------------------

  /**
   * addStaticActions, per path: copied when copying is forced, when the target is missing,
   * or when the static file is strictly newer than the target; skipped otherwise.
   */
  function StaticAction(c: Context, p: Path): (r: Action)
    requires Exists(c.fs, Resolve(StaticRoot(c.sourceRoot), p))
    ensures r.path == p && r.Category() == Static
    ensures r.actionType == CopyStatic <==>
              || c.forceCopy
              || !Exists(c.fs, Resolve(c.targetRoot, p))
              || IsSourceNewerThanTarget(c.fs, Resolve(StaticRoot(c.sourceRoot), p), Resolve(c.targetRoot, p)) == Success(true)
    ensures r.actionType != CopyStatic ==> r.actionType == SkipStatic
  {
    if || c.forceCopy
       || !Exists(c.fs, Resolve(c.targetRoot, p))
       || IsSourceNewerThanTarget(c.fs, Resolve(StaticRoot(c.sourceRoot), p), Resolve(c.targetRoot, p)).value
    then Action(p, CopyStatic)
    else Action(p, SkipStatic)
  }

  /** One static action per listed static path, in order. */
  function StaticActionsOf(c: Context, staticPaths: seq<Path>): (r: seq<Action>)
    requires Listed(c.fs, StaticRoot(c.sourceRoot), staticPaths)
    ensures |r| == |staticPaths|
    ensures forall i :: 0 <= i < |r| ==> staticPaths[i] in staticPaths && r[i] == StaticAction(c, staticPaths[i])
    decreases |staticPaths|
  {
    if |staticPaths| == 0 then []
    else
      assert staticPaths[0] in staticPaths;
      [StaticAction(c, staticPaths[0])] + StaticActionsOf(c, staticPaths[1..])
  }

  /** addStaticActions: nothing when the static directory is missing. */
  function AddStaticActions(c: Context, staticPaths: seq<Path>): (r: seq<Action>)
    requires Exists(c.fs, StaticRoot(c.sourceRoot)) ==> Listed(c.fs, StaticRoot(c.sourceRoot), staticPaths)
    ensures !Exists(c.fs, StaticRoot(c.sourceRoot)) ==> r == []
    ensures Exists(c.fs, StaticRoot(c.sourceRoot)) ==>
              |r| == |staticPaths| && forall i :: 0 <= i < |r| ==> r[i] == StaticAction(c, staticPaths[i])
  {
    if !Exists(c.fs, StaticRoot(c.sourceRoot)) then [] else StaticActionsOf(c, staticPaths)
  }

  // ---------------------------------------------------------------------------------------
  // The planning part of a run
  // ---------------------------------------------------------------------------------------

  /** The converter the run uses: templates under the source root, output in the target root. */
  function Converter(sourceRoot: Location, targetRoot: Location): FreeMarker.FreeMarkerDocumentConverter
  {
    FreeMarker.FreeMarkerDocumentConverter(sourceRoot, targetRoot)
  }

  /**
   * The flags of a run: copying is forced by the forceOverwrite setting alone; conversion is
   * forced as well when the previous sitemap is empty or could not be loaded, and otherwise
   * when the custom page template changed, which is only asked for in that case.
   */
  function RunContext(forceCopy: bool, fs: FileStore, sourceRoot: Location, targetRoot: Location,
                      stored: Sitemaps.StoredSitemap): (r: Result<Context>)
    ensures r.Success? ==>
              && r.value.fs == fs && r.value.sourceRoot == sourceRoot && r.value.targetRoot == targetRoot
              && r.value.forceCopy == forceCopy
    ensures r.Success? <==>
              && Sitemaps.LoadCurrentSitemap(targetRoot, stored).Success?
              && sourceRoot.absolute
              && (|| forceCopy
                  || Sitemaps.IsEmpty(Sitemaps.LoadCurrentSitemap(targetRoot, stored).value)
                  || FreeMarker.IsCustomTemplateChanged(Converter(sourceRoot, targetRoot), fs).Success?)
    ensures r.Success? ==>
              (r.value.forceConvert <==>
                 || forceCopy
                 || Sitemaps.IsEmpty(Sitemaps.LoadCurrentSitemap(targetRoot, stored).value)
                 || FreeMarker.IsCustomTemplateChanged(Converter(sourceRoot, targetRoot), fs) == Success(true))
  {
    var currentSitemap :- Sitemaps.LoadCurrentSitemap(targetRoot, stored);
    var forceOverwrite := forceCopy || Sitemaps.IsEmpty(currentSitemap);
    var _ :- MarkdownLoader.NewLoader(sourceRoot);
    var forceConvert :- if forceOverwrite then Success(true)
                        else FreeMarker.IsCustomTemplateChanged(Converter(sourceRoot, targetRoot), fs);
    Success(Context(fs, sourceRoot, targetRoot, forceCopy, forceConvert))
  }

  /** A run without a loadable sitemap converts every supported source it pairs with a target. */
  lemma MissingSitemapForcesConversion(forceCopy: bool, fs: FileStore, sourceRoot: Location, targetRoot: Location)
    requires sourceRoot.absolute && targetRoot.absolute
    ensures RunContext(forceCopy, fs, sourceRoot, targetRoot, Sitemaps.Missing).Success?
    ensures RunContext(forceCopy, fs, sourceRoot, targetRoot, Sitemaps.Missing).value.forceConvert
  {
    Sitemaps.FirstRunStartsEmpty(targetRoot);
  }

  /**
   * The planning part of run: the run's flags, then the plan of those flags. A failure to
   * settle the flags is passed on; otherwise every source and every static path has an
   * action in the set, and nothing else but targets does.
   */
  function PlanActions(forceCopy: bool, fs: FileStore, sourceRoot: Location, targetRoot: Location,
                       stored: Sitemaps.StoredSitemap, sources: seq<Path>, targets: seq<Path>,
                       staticPaths: seq<Path>): (r: Result<ActionSet>)
    requires Listed(fs, sourceRoot, sources) && Listed(fs, targetRoot, targets)
    requires Exists(fs, StaticRoot(sourceRoot)) ==> Listed(fs, StaticRoot(sourceRoot), staticPaths)
    ensures RunContext(forceCopy, fs, sourceRoot, targetRoot, stored).Failure? ==>
              r == Failure(RunContext(forceCopy, fs, sourceRoot, targetRoot, stored).error)
    ensures RunContext(forceCopy, fs, sourceRoot, targetRoot, stored).Success? ==>
              r == Plan(RunContext(forceCopy, fs, sourceRoot, targetRoot, stored).value, sources, targets, staticPaths)
    ensures r.Success? ==> forall i :: 0 <= i < |sources| ==> sources[i] in r.value.actions
    ensures r.Success? && Exists(fs, StaticRoot(sourceRoot)) ==>
              forall i :: 0 <= i < |staticPaths| ==> staticPaths[i] in r.value.actions
    ensures r.Success? ==> forall p :: p in r.value.actions ==>
              p in sources || p in targets || (Exists(fs, StaticRoot(sourceRoot)) && p in staticPaths)
  {
    var c :- RunContext(forceCopy, fs, sourceRoot, targetRoot, stored);
    Plan(c, sources, targets, staticPaths)
  }

  /**
   * The plan of a run with settled flags: the merge's actions, then the static actions,
   * added to one empty action set. Only the action set can refuse, when one path gets two
   * actions of one category. On success the set holds, on each path, the merge's action,
   * the static action, or what the collision rule makes of the two; every source and every
   * listed static path has an action, and nothing else but targets does.
   */
  function Plan(c: Context, sources: seq<Path>, targets: seq<Path>, staticPaths: seq<Path>): (r: Result<ActionSet>)
    requires Listed(c.fs, c.sourceRoot, sources) && Listed(c.fs, c.targetRoot, targets)
    requires Exists(c.fs, StaticRoot(c.sourceRoot)) ==> Listed(c.fs, StaticRoot(c.sourceRoot), staticPaths)
    ensures r.Failure? ==> r.error == IllegalStateException
    ensures r.Success? ==> Valid(r.value)
    ensures r.Success? ==> HoldsPlan(r.value, Merge(c, sources, targets), AddStaticActions(c, staticPaths))
    ensures r.Success? ==> forall i :: 0 <= i < |sources| ==> sources[i] in r.value.actions
    ensures r.Success? && Exists(c.fs, StaticRoot(c.sourceRoot)) ==>
              forall i :: 0 <= i < |staticPaths| ==> staticPaths[i] in r.value.actions
    ensures r.Success? ==> forall p :: p in r.value.actions ==>
              p in sources || p in targets || (Exists(c.fs, StaticRoot(c.sourceRoot)) && p in staticPaths)
  {
    var merged := Merge(c, sources, targets);
    var withSources :- AddAll(EmptySet(), merged);
    var staticActions := AddStaticActions(c, staticPaths);
    MergeCoversSources(c, sources, targets);
    MergeWithinInputs(c, sources, targets);
    StaticPaths(c, staticPaths);
    SourcesThenStatics(merged, staticActions);
    AddAll(withSources, staticActions)
  }

  /**
   * What a planned action set holds on each path: no path has two merge actions; a path
   * only the merge names holds its merge action, a path only the static side names holds
   * its static action, and a path both name holds what the collision rule makes of the two.
   */
  predicate HoldsPlan(s: ActionSet, merged: seq<Action>, statics: seq<Action>)
  {
    && (forall i :: 0 <= i < |merged| ==> merged[i].Category() == Source)
    && (forall j :: 0 <= j < |statics| ==> statics[j].Category() == Static)
    && DistinctPaths(merged)
    && (forall i :: 0 <= i < |merged| && merged[i].path !in PathsOf(statics) ==>
          merged[i].path in s.actions && s.actions[merged[i].path] == merged[i])
    && (forall j :: 0 <= j < |statics| && statics[j].path !in PathsOf(merged) ==>
          statics[j].path in s.actions && s.actions[statics[j].path] == statics[j])
    && (forall i, j :: 0 <= i < |merged| && 0 <= j < |statics| && merged[i].path == statics[j].path ==>
          merged[i].path in s.actions && s.actions[merged[i].path] == DetermineAction(merged[i], statics[j]))
  }

  /** Adding the merge's actions to an empty set and then the static ones leaves the plan. */
  lemma SourcesThenStatics(merged: seq<Action>, statics: seq<Action>)
    requires forall i :: 0 <= i < |merged| ==> merged[i].Category() == Source
    requires forall j :: 0 <= j < |statics| ==> statics[j].Category() == Static
    ensures AddAll(EmptySet(), merged).Success? && AddAll(AddAll(EmptySet(), merged).value, statics).Success? ==>
              HoldsPlan(AddAll(AddAll(EmptySet(), merged).value, statics).value, merged, statics)
  {
    if AddAll(EmptySet(), merged).Success? && AddAll(AddAll(EmptySet(), merged).value, statics).Success? {
      var w := AddAll(EmptySet(), merged).value;
      MergedStored(merged);
      forall i | 0 <= i < |merged| && merged[i].path !in PathsOf(statics)
        ensures merged[i].path in AddAll(w, statics).value.actions
        ensures AddAll(w, statics).value.actions[merged[i].path] == merged[i]
      {
        NotInPathsOf(statics, merged[i].path);
        AddAllFrame(w, statics, merged[i].path);
      }
      forall j | 0 <= j < |statics| && statics[j].path !in PathsOf(merged)
        ensures statics[j].path in AddAll(w, statics).value.actions
        ensures AddAll(w, statics).value.actions[statics[j].path] == statics[j]
      {
        AddAllNewPath(w, statics, statics[j].path, Static);
      }
      forall i, j | 0 <= i < |merged| && 0 <= j < |statics| && merged[i].path == statics[j].path
        ensures merged[i].path in AddAll(w, statics).value.actions
        ensures AddAll(w, statics).value.actions[merged[i].path] == DetermineAction(merged[i], statics[j])
      {
        AddAllOntoSource(w, statics, merged[i].path);
      }
    }
  }

  /** A successful add of the merge's actions stores each one, on pairwise different paths. */
  lemma MergedStored(merged: seq<Action>)
    requires forall i :: 0 <= i < |merged| ==> merged[i].Category() == Source
    requires AddAll(EmptySet(), merged).Success?
    ensures DistinctPaths(merged)
    ensures forall i :: 0 <= i < |merged| ==>
              merged[i].path in AddAll(EmptySet(), merged).value.actions
              && AddAll(EmptySet(), merged).value.actions[merged[i].path] == merged[i]
  {
    forall i | 0 <= i < |merged|
      ensures merged[i].path in AddAll(EmptySet(), merged).value.actions
      ensures AddAll(EmptySet(), merged).value.actions[merged[i].path] == merged[i]
      ensures forall j :: 0 <= j < |merged| && j != i ==> merged[j].path != merged[i].path
    {
      AddAllNewPath(EmptySet(), merged, merged[i].path, Source);
    }
  }

  lemma NotInPathsOf(actions: seq<Action>, q: Path)
    requires q !in PathsOf(actions)
    ensures Avoids(actions, q)
  {
  }

  lemma StaticPaths(c: Context, staticPaths: seq<Path>)
    requires Exists(c.fs, StaticRoot(c.sourceRoot)) ==> Listed(c.fs, StaticRoot(c.sourceRoot), staticPaths)
    ensures Exists(c.fs, StaticRoot(c.sourceRoot)) ==>
              forall i :: 0 <= i < |staticPaths| ==> staticPaths[i] in PathsOf(AddStaticActions(c, staticPaths))
    ensures forall p :: p in PathsOf(AddStaticActions(c, staticPaths)) ==>
              Exists(c.fs, StaticRoot(c.sourceRoot)) && p in staticPaths
  {
    var r := AddStaticActions(c, staticPaths);
    if Exists(c.fs, StaticRoot(c.sourceRoot)) {
      forall i | 0 <= i < |staticPaths| ensures staticPaths[i] in PathsOf(r) {
        assert r[i].path == staticPaths[i];
      }
    }
  }

  // ---------------------------------------------------------------------------------------
  // Scenarios
  // ---------------------------------------------------------------------------------------

  /** A Markdown source stem.extension is compared under the name stem.html. */
  lemma MarkdownSourceKey(directory: Path, stem: string, extension: string)
    requires |stem| > 0 && '.' !in extension && Strings.ToLower(extension) in MarkdownLoader.MarkdownExtensions
    ensures MarkdownLoader.Supports(directory + [stem + "." + extension])
    ensures SourceKey(directory + [stem + "." + extension]) == Join(directory + [stem + "." + "html"])
  {
    MarkdownLoader.SupportsExtension(directory + [stem + "." + extension], stem, extension);
    FreeMarker.ConvertedFileNameOf(directory, stem, extension);
  }

  /** A supported source is never compared under its own name: its key ends in "html". */
  lemma SourceKeyIsNotOwnName(p: Path)
    requires ValidPath(p) && MarkdownLoader.Supports(p)
    ensures SourceKey(p) != Join(p)
  {
    var converted := FreeMarker.ConvertedFileName(p);
    FreeMarker.ConvertedKeepsDocument(p);
    FreeMarker.ConvertedIsValid(p);
    if SourceKey(p) == Join(p) {
      JoinInjective(converted, p);
      MarkdownLoader.HtmlIsNotMarkdown();
      assert false;
    }
  }

  /** Two source-side actions on one path: the second is refused. */
  lemma SamePathTwiceFails(a: Action, b: Action)
    requires a.path == b.path && a.Category() == Source && b.Category() == Source
    ensures AddAll(EmptySet(), [a, b]) == Failure(IllegalStateException)
  {
    var s := Add(EmptySet(), a).value;
    assert [a, b][1..] == [b];
    assert AddAll(EmptySet(), [a, b]) == AddAll(s, [b]);
  }

  /** One step of the merge when the source sorts first. */
  lemma MergeTakesSource(c: Context, sources: seq<Path>, targets: seq<Path>)
    requires Listed(c.fs, c.sourceRoot, sources) && Listed(c.fs, c.targetRoot, targets)
    requires |sources| > 0 && (|targets| == 0 || Strings.Less(SourceKey(sources[0]), Join(targets[0])))
    ensures |sources[0]| > 0
    ensures Merge(c, sources, targets) == [NewSourceAction(sources[0])] + Merge(c, sources[1..], targets)
  {
    assert sources[0] in sources;
  }

  /** One step of the merge when the target sorts first. */
  lemma MergeTakesTarget(c: Context, sources: seq<Path>, targets: seq<Path>)
    requires Listed(c.fs, c.sourceRoot, sources) && Listed(c.fs, c.targetRoot, targets)
    requires |targets| > 0 && (|sources| == 0 || Strings.Less(Join(targets[0]), SourceKey(sources[0])))
    ensures Merge(c, sources, targets) == [Action(targets[0], DeleteTarget)] + Merge(c, sources, targets[1..])
  {
  }

  /** One step of the merge when the source and the target correspond. */
  lemma MergeTakesBoth(c: Context, sources: seq<Path>, targets: seq<Path>)
    requires Listed(c.fs, c.sourceRoot, sources) && Listed(c.fs, c.targetRoot, targets)
    requires |sources| > 0 && |targets| > 0 && SourceKey(sources[0]) == Join(targets[0])
    ensures sources[0] in sources && targets[0] in targets
    ensures Merge(c, sources, targets)
              == [CorrespondingAction(c, sources[0], targets[0])] + Merge(c, sources[1..], targets[1..])
  {
  }

  /**
   * A source the loader supports that is still present in the target under its own name:
   * the merge converts the source and deletes the stray target, two source-side actions on
   * one path, in the order of the converted name and the stray name; the action set
   * refuses the second one.
   */
  lemma StrayMarkdownTargetConflicts(c: Context, p: Path)
    requires ValidPath(p) && MarkdownLoader.Supports(p)
    requires Listed(c.fs, c.sourceRoot, [p]) && Listed(c.fs, c.targetRoot, [p])
    ensures Merge(c, [p], [p]) == [Action(p, ConvertSource), Action(p, DeleteTarget)]
            || Merge(c, [p], [p]) == [Action(p, DeleteTarget), Action(p, ConvertSource)]
    ensures AddAll(EmptySet(), Merge(c, [p], [p])) == Failure(IllegalStateException)
  {
    SourceKeyIsNotOwnName(p);
    Strings.LessTotal(SourceKey(p), Join(p));
    if Strings.Less(SourceKey(p), Join(p)) {
      StrayAfterKey(c, p);
    } else {
      StrayBeforeKey(c, p);
    }
  }

  /** The converted name sorts first: the conversion, then the delete. */
  lemma StrayAfterKey(c: Context, p: Path)
    requires ValidPath(p) && MarkdownLoader.Supports(p) && Strings.Less(SourceKey(p), Join(p))
    requires Listed(c.fs, c.sourceRoot, [p]) && Listed(c.fs, c.targetRoot, [p])
    ensures Merge(c, [p], [p]) == [Action(p, ConvertSource), Action(p, DeleteTarget)]
    ensures AddAll(EmptySet(), Merge(c, [p], [p])) == Failure(IllegalStateException)
  {
    var paths: seq<Path> := [p];
    var empty: seq<Path> := [];
    assert paths[1..] == empty;
    MergeTakesSource(c, paths, paths);
    MergeTakesTarget(c, empty, paths);
    ConsOntoEmpty(Action(p, ConvertSource), Action(p, DeleteTarget), Merge(c, empty, empty));
    SamePathTwiceFails(Action(p, ConvertSource), Action(p, DeleteTarget));
  }

  /** The stray name sorts first: the delete, then the conversion. */
  lemma StrayBeforeKey(c: Context, p: Path)
    requires ValidPath(p) && MarkdownLoader.Supports(p) && Strings.Less(Join(p), SourceKey(p))
    requires Listed(c.fs, c.sourceRoot, [p]) && Listed(c.fs, c.targetRoot, [p])
    ensures Merge(c, [p], [p]) == [Action(p, DeleteTarget), Action(p, ConvertSource)]
    ensures AddAll(EmptySet(), Merge(c, [p], [p])) == Failure(IllegalStateException)
  {
    var paths: seq<Path> := [p];
    var empty: seq<Path> := [];
    assert paths[1..] == empty;
    MergeTakesTarget(c, paths, paths);
    MergeTakesSource(c, paths, empty);
    ConsOntoEmpty(Action(p, DeleteTarget), Action(p, ConvertSource), Merge(c, empty, empty));
    SamePathTwiceFails(Action(p, DeleteTarget), Action(p, ConvertSource));
  }

  /**
   * A Markdown source next to a source that sorts below its converted name, with that
   * other source already in the target: listed with the Markdown source first, the merge
   * deletes the target, converts the Markdown source and copies the other source, two
   * source-side actions on one path, and the action set refuses the copy.
   */
  lemma ListedBeforeNeighbourConflicts(c: Context, markdown: Path, other: Path)
    requires ValidPath(markdown) && ValidPath(other)
    requires Listed(c.fs, c.sourceRoot, [markdown, other]) && Listed(c.fs, c.targetRoot, [other])
    requires MarkdownLoader.Supports(markdown) && !MarkdownLoader.Supports(other)
    requires Strings.Less(Join(other), SourceKey(markdown))
    ensures Merge(c, [markdown, other], [other])
              == [Action(other, DeleteTarget), Action(markdown, ConvertSource), Action(other, CopySource)]
    ensures AddAll(EmptySet(), Merge(c, [markdown, other], [other])).Failure?
  {
    var sources: seq<Path> := [markdown, other];
    var targets: seq<Path> := [other];
    var empty: seq<Path> := [];
    assert sources[1..] == targets && targets[1..] == empty;
    ListedTail(c.fs, c.sourceRoot, sources);
    MergeTakesTarget(c, sources, targets);
    MergeTakesSource(c, sources, empty);
    MergeTakesSource(c, targets, empty);
    ConsOntoEmpty(Action(markdown, ConvertSource), Action(other, CopySource), Merge(c, empty, empty));
    ConsPair(Action(other, DeleteTarget), Action(markdown, ConvertSource), Action(other, CopySource));
    CopyAfterDeleteFails(other, markdown);
  }

  /** A delete, an action on another path, then a copy of the deleted path: the copy is refused. */
  lemma CopyAfterDeleteFails(p: Path, q: Path)
    requires p != q
    ensures AddAll(EmptySet(), [Action(p, DeleteTarget), Action(q, ConvertSource), Action(p, CopySource)]).Failure?
  {
    var actions := [Action(p, DeleteTarget), Action(q, ConvertSource), Action(p, CopySource)];
    var rest := [Action(q, ConvertSource), Action(p, CopySource)];
    assert actions[1..] == rest;
    var s1 := Add(EmptySet(), actions[0]).value;
    assert p in s1.actions && s1.actions[p] == actions[0];
    AddAllFirst(EmptySet(), actions);
    assert OnPathOfCategory(rest, p, Source);
    AddAllRefusesSameCategory(s1, rest, p);
    assert !Avoids(rest, p) by {
      assert rest[1].path == p;
    }
  }

  /**
   * The instance: stem.md and stem.css side by side, stem.md listed first as the Markdown
   * extensions come first, and stem.css already copied to the target. Its name sorts below
   * stem.html, so the run is refused.
   */
  lemma StyleSheetBesideMarkdown(c: Context, stem: string)
    requires |stem| > 0
    requires Listed(c.fs, c.sourceRoot, [[stem + "." + "md"], [stem + "." + "css"]])
    requires Listed(c.fs, c.targetRoot, [[stem + "." + "css"]])
    ensures Merge(c, [[stem + "." + "md"], [stem + "." + "css"]], [[stem + "." + "css"]])
              == [Action([stem + "." + "css"], DeleteTarget), Action([stem + "." + "md"], ConvertSource),
                  Action([stem + "." + "css"], CopySource)]
    ensures AddAll(EmptySet(), Merge(c, [[stem + "." + "md"], [stem + "." + "css"]], [[stem + "." + "css"]])).Failure?
  {
    var markdown: Path := [stem + "." + "md"];
    var other: Path := [stem + "." + "css"];
    assert markdown in [markdown, other] && other in [markdown, other];
    StyleSheetSortsFirst(stem);
    ListedBeforeNeighbourConflicts(c, markdown, other);
  }

  /** stem.css is not Markdown and sorts below stem.html, the key of stem.md. */
  lemma StyleSheetSortsFirst(stem: string)
    requires |stem| > 0
    ensures MarkdownLoader.Supports([stem + "." + "md"]) && !MarkdownLoader.Supports([stem + "." + "css"])
    ensures Strings.Less(Join([stem + "." + "css"]), SourceKey([stem + "." + "md"]))
  {
    MarkdownIsKeyedAsHtml(stem);
    MarkdownLoader.StyleSheetExtension();
    MarkdownLoader.SupportsExtension([stem + "." + "css"], stem, "css");
    CssBeforeHtml(stem);
  }

  lemma MarkdownIsKeyedAsHtml(stem: string)
    requires |stem| > 0
    ensures MarkdownLoader.Supports([stem + "." + "md"])
    ensures SourceKey([stem + "." + "md"]) == Join([stem + "." + "html"])
  {
    var empty: Path := [];
    MarkdownLoader.ExtensionsAreLowerCase("md");
    MarkdownSourceKey(empty, stem, "md");
    assert empty + [stem + "." + "md"] == [stem + "." + "md"];
    assert empty + [stem + "." + "html"] == [stem + "." + "html"];
  }

  lemma CssBeforeHtml(stem: string)
    ensures Strings.Less(Join([stem + "." + "css"]), Join([stem + "." + "html"]))
  {
    assert Strings.Less("css", "html");
    Strings.LessUnderPrefix(stem + ".", "css", "html");
  }

  /**
   * One incremental run, nothing forced: a Markdown source newer than its converted target
   * is converted, a source with no target yet and no Markdown extension is copied, and a
   * target no source maps to any more is deleted.
   */
  lemma MergeExample(c: Context, markdown: Path, converted: Path, picture: Path, stale: Path)
    requires Listed(c.fs, c.sourceRoot, [markdown, picture]) && Listed(c.fs, c.targetRoot, [converted, stale])
    requires ValidPath(markdown) && ValidPath(picture)
    requires MarkdownLoader.Supports(markdown) && SourceKey(markdown) == Join(converted)
    requires SourceNewer(c, markdown, converted)
    requires !MarkdownLoader.Supports(picture) && Strings.Less(Join(picture), Join(stale))
    ensures Merge(c, [markdown, picture], [converted, stale])
              == [Action(markdown, ConvertSource), Action(picture, CopySource), Action(stale, DeleteTarget)]
  {
    var sources: seq<Path> := [markdown, picture];
    var targets: seq<Path> := [converted, stale];
    assert sources[1..] == [picture] && targets[1..] == [stale];
    ListedTail(c.fs, c.sourceRoot, sources);
    ListedTail(c.fs, c.targetRoot, targets);
    MergeTakesBoth(c, sources, targets);
    ConvertsNewerDocument(c, markdown, converted);
    MergeExampleRest(c, picture, stale);
    ConsPair(Action(markdown, ConvertSource), Action(picture, CopySource), Action(stale, DeleteTarget));
  }

  lemma ListedTail(fs: FileStore, root: Location, ps: seq<Path>)
    requires Listed(fs, root, ps) && |ps| > 0
    ensures Listed(fs, root, ps[1..])
  {
    TailWithin(ps);
  }

  /** A supported source newer than its target is converted, forced or not. */
  lemma ConvertsNewerDocument(c: Context, s: Path, t: Path)
    requires ValidPath(s) && Exists(c.fs, Resolve(c.sourceRoot, s)) && Exists(c.fs, Resolve(c.targetRoot, t))
    requires MarkdownLoader.Supports(s) && SourceNewer(c, s, t)
    ensures CorrespondingAction(c, s, t) == Action(s, ConvertSource)
  {
  }

  /** The rest of the run: the copy of the new source, then the delete of the stale target. */
  lemma MergeExampleRest(c: Context, picture: Path, stale: Path)
    requires Listed(c.fs, c.sourceRoot, [picture]) && Listed(c.fs, c.targetRoot, [stale])
    requires ValidPath(picture) && !MarkdownLoader.Supports(picture) && Strings.Less(Join(picture), Join(stale))
    ensures Merge(c, [picture], [stale]) == [Action(picture, CopySource), Action(stale, DeleteTarget)]
  {
    var sources: seq<Path> := [picture];
    var targets: seq<Path> := [stale];
    var empty: seq<Path> := [];
    assert sources[1..] == empty && targets[1..] == empty;
    MergeTakesSource(c, sources, targets);
    MergeTakesTarget(c, empty, targets);
  }
}

=== FILE: markdown_loader.dfy ===
/** document/markdown/MarkdownDocumentLoader: which source files are Markdown documents. */
module MarkdownLoader {
  import Strings
  import opened Outcomes
  import opened Paths
  import opened SplitPaths

  /** MARKDOWN_EXTENSIONS. */
  const MarkdownExtensions: set<string> := {"md", "markdown", "mdown"}

  /** The loader is bound to an absolute source root. */
  datatype MarkdownDocumentLoader = MarkdownDocumentLoader(sourceRoot: Location)

  /** The constructor: a relative source root is rejected. */
  function NewLoader(sourceRoot: Location): (r: Result<MarkdownDocumentLoader>)
    ensures r.Success? <==> sourceRoot.absolute
    ensures r.Success? ==> r.value.sourceRoot == sourceRoot
  {
    if !sourceRoot.absolute then Failure(IllegalArgumentException)
    else Success(MarkdownDocumentLoader(sourceRoot))
  }

  /** getSupportedExtensions. */
  function SupportedExtensions(): (r: set<string>)
    ensures r == {"md", "markdown", "mdown"}
  {
    MarkdownExtensions
  }

  /** supports: the lower-cased extension of the last name is a Markdown extension. */
  predicate Supports(p: Path)
    requires |p| > 0
  {
    Strings.ToLower(Split(p).originalExtension) in MarkdownExtensions
  }

  /**
   * A file is supported exactly when its name is stem + "." + extension with a non-empty
   * stem, a dot-free extension, and that extension a Markdown one in any letter case.
   */
  lemma SupportsIff(p: Path)
    requires |p| > 0
    ensures Supports(p) <==>
              exists k :: 1 <= k < |FileName(p)| && FileName(p)[k] == '.'
                          && '.' !in FileName(p)[k + 1..]
                          && Strings.ToLower(FileName(p)[k + 1..]) in MarkdownExtensions
  {
    var name := FileName(p);
    if Supports(p) {
      var k := SupportedHasDotExtension(p);
    } else {
      forall k | 1 <= k < |name| && name[k] == '.' && '.' !in name[k + 1..]
        ensures Strings.ToLower(name[k + 1..]) !in MarkdownExtensions
      {
        DotExtensionSupport(p, k);
      }
    }
  }

  /** The extension a supported file is recognised by follows a dot after its first character. */
  lemma SupportedHasDotExtension(p: Path) returns (k: int)
    requires |p| > 0 && Supports(p)
    ensures 1 <= k < |FileName(p)| && FileName(p)[k] == '.' && '.' !in FileName(p)[k + 1..]
    ensures Strings.ToLower(FileName(p)[k + 1..]) in MarkdownExtensions
  {
    var s := Split(p);
    assert |Strings.ToLower(s.originalExtension)| > 0;
    assert !NoExtension(FileName(p));
    k := |FileName(s.pathWithoutExtension)|;
    DotAfterStem(FileName(p), FileName(s.pathWithoutExtension), s.originalExtension);
  }

  /** A dot after the first character with no dot after it marks the extension support depends on. */
  lemma DotExtensionSupport(p: Path, k: int)
    requires |p| > 0 && 1 <= k < |FileName(p)| && FileName(p)[k] == '.' && '.' !in FileName(p)[k + 1..]
    ensures Supports(p) <==> Strings.ToLower(FileName(p)[k + 1..]) in MarkdownExtensions
  {
    var name := FileName(p);
    assert name == name[..k] + "." + name[k + 1..];
    SupportsExtension(p, name[..k], name[k + 1..]);
  }

  lemma DotAfterStem(name: string, stem: string, extension: string)
    requires name == stem + "." + extension
    ensures name[|stem|] == '.' && name[|stem| + 1..] == extension
  {
  }

  /** For a name stem + "." + extension, support depends on the extension alone. */
  lemma SupportsExtension(p: Path, stem: string, extension: string)
    requires |p| > 0 && |stem| > 0 && '.' !in extension
    requires FileName(p) == stem + "." + extension
    ensures Supports(p) <==> Strings.ToLower(extension) in MarkdownExtensions
  {
    SplitOfStemAndExtension(p, stem, extension);
  }

  /** The Markdown extensions are their own lower-case forms. */
  lemma ExtensionsAreLowerCase(extension: string)
    requires extension in MarkdownExtensions
    ensures Strings.ToLower(extension) == extension
  {
    Strings.ToLowerOfLowerCase(extension);
  }

  /** None of them holds a dot, so each is a whole extension. */
  lemma ExtensionsHaveNoDot(extension: string)
    requires extension in MarkdownExtensions
    ensures '.' !in extension
  {
  }

  /** "MarkDown" folds to one of them. */
  lemma MixedCaseExtension()
    ensures Strings.ToLower("MarkDown") in MarkdownExtensions
  {
    Strings.ToLowerExample();
  }

  /** "jpg" is not among them. */
  lemma PictureExtension()
    ensures Strings.ToLower("jpg") !in MarkdownExtensions
  {
    Strings.ToLowerOfLowerCase("jpg");
  }

  /** Nor is "css". */
  lemma StyleSheetExtension()
    ensures Strings.ToLower("css") !in MarkdownExtensions
  {
    Strings.ToLowerOfLowerCase("css");
  }

  /** Nor is "html", the extension converted documents get. */
  lemma HtmlIsNotMarkdown()
    ensures Strings.ToLower("html") !in MarkdownExtensions
  {
    Strings.ToLowerOfLowerCase("html");
  }

  /** The three Markdown extensions are recognised, whatever the document is called. */
  lemma SupportsMarkdownExtensions(stem: string, extension: string)
    requires |stem| > 0 && extension in MarkdownExtensions
    ensures Supports([stem + "." + extension])
  {
    ExtensionsAreLowerCase(extension);
    ExtensionsHaveNoDot(extension);
    SupportsExtension([stem + "." + extension], stem, extension);
  }

  /** Letter case is ignored: any variant that lower-cases to a Markdown extension is supported. */
  lemma SupportsAnyLetterCase(stem: string, variant: string)
    requires |stem| > 0 && Strings.ToLower(variant) in MarkdownExtensions
    ensures Supports([stem + "." + variant])
  {
    ExtensionsHaveNoDot(Strings.ToLower(variant));
    forall i | 0 <= i < |variant|
      ensures variant[i] != '.'
    {
      assert Strings.ToLower(variant)[i] == Strings.LowerChar(variant[i]);
    }
    SupportsExtension([stem + "." + variant], stem, variant);
  }

  /** "foo.MarkDown" is a Markdown document. */
  lemma SupportsMixedCase(stem: string)
    requires |stem| > 0
    ensures Supports([stem + "." + "MarkDown"])
  {
    MixedCaseExtension();
    SupportsAnyLetterCase(stem, "MarkDown");
  }

  /** Other extensions are not: "foo.jpg" is not a Markdown document. */
  lemma DoesNotSupportOtherExtensions(stem: string)
    requires |stem| > 0
    ensures !Supports([stem + "." + "jpg"])
  {
    PictureExtension();
    SupportsExtension([stem + "." + "jpg"], stem, "jpg");
  }

  /** A name without an extension, or a dot-file such as ".md", is not a document. */
  lemma NoExtensionNotSupported(p: Path)
    requires |p| > 0 && |FileName(p)| > 0 && '.' !in FileName(p)[1..]
    ensures !Supports(p)
  {
    DotFileHasNoExtension(p);
    assert Strings.ToLower("") == "";
  }
}

=== FILE: outcomes.dfy ===
/** Exceptions of the modelled code as values, and the failure-compatible Result used for them. */
module Outcomes {

  /** The Java exceptions the modelled code throws or lets propagate. */
  datatype Error =
    | IOException               // checked: a missing file, an invalid sitemap
    | IllegalStateException     // internal-consistency failures in the action registry
    | IllegalArgumentException  // a relative path where an absolute one is required, or vice versa
    | ClassCastException        // a JSON value of the wrong shape
    | NullPointerException      // a JSON field that is absent, a subdirectory that does not exist

  /** Either a value or the exception that was thrown instead. */
  datatype Result<+T> = Success(value: T) | Failure(error: Error) {

    predicate IsFailure() {
      Failure?
    }

    function PropagateFailure<U>(): Result<U>
      requires Failure?
    {
      Failure(error)
    }

    function Extract(): T
      requires Success?
    {
      value
    }
  }

  /** A value or Java's null. */
  datatype Option<+T> = None | Some(value: T)
}

=== FILE: page.dfy ===
/** Page: a (directory, file, title) record of the sitemap, ordered by directory and file. */
module Pages {
  import opened Outcomes
  import opened Paths
  import Strings
  import opened JsonValues

  const DirectoryField: string := "directory"
  const FileField: string := "file"
  const TitleField: string := "title"

  /** A page title; the code lets it be null, and a stored page without one reads back as null. */
  type Title = Option<string>

  datatype Page = Page(directory: string, file: string, title: Title)

  /** What identifies a page: everything but its title. */
  datatype PageKey = PageKey(directory: string, file: string)

  function Key(p: Page): PageKey
  {
    PageKey(p.directory, p.file)
  }

  /**
   * Page(path, title): the directory is the parent path as text, or "" without a parent;
   * the file is the last name.
   */
  function PageOf(path: Path, title: Title): (r: Page)
    ensures r.title == title
    ensures |path| <= 1 ==> r.directory == ""
    ensures |path| >= 2 ==> r.directory == Join(Parent(path))
    ensures |path| >= 1 ==> r.file == FileName(path)
  {
    Page(if |path| <= 1 then "" else Join(Parent(path)), if |path| == 0 then "" else FileName(path), title)
  }

  /** Page(path): a page with the empty title. */
  function NewPage(path: Path): (r: Page)
    ensures r.title == Some("") && Key(r) == Key(PageOf(path, None))
  {
    PageOf(path, Some(""))
  }

  function KeyOf(path: Path): PageKey
  {
    Key(PageOf(path, None))
  }

  /** Different listed paths never share a page key. */
  lemma KeyOfInjective(p: Path, q: Path)
    requires ValidPath(p) && ValidPath(q)
    ensures KeyOf(p) == KeyOf(q) <==> p == q
  {
    if KeyOf(p) == KeyOf(q) {
      if |p| >= 2 {
        ParentJoinNonEmpty(p);
      }
      if |q| >= 2 {
        ParentJoinNonEmpty(q);
      }
      if |p| >= 2 && |q| >= 2 {
        assert ValidPath(Parent(p)) && ValidPath(Parent(q));
        JoinInjective(Parent(p), Parent(q));
        assert p == Parent(p) + [FileName(p)];
        assert q == Parent(q) + [FileName(q)];
      }
    }
  }

  lemma ParentJoinNonEmpty(p: Path)
    requires ValidPath(p) && |p| >= 2
    ensures |Join(Parent(p))| > 0
  {
    assert ValidPath(Parent(p));
    FirstSeparator(Parent(p));
  }

  /**
   * Page.compareTo: by directory, then by file, each in String.compareTo's UTF-16 order;
   * the title plays no part.
   */
  function Compare(a: Page, b: Page): (r: int)
    ensures r < 0 <==> || Strings.CompareTo(a.directory, b.directory) < 0
                       || (a.directory == b.directory && Strings.CompareTo(a.file, b.file) < 0)
    ensures r > 0 <==> || Strings.CompareTo(a.directory, b.directory) > 0
                       || (a.directory == b.directory && Strings.CompareTo(a.file, b.file) > 0)
  {
    Strings.CompareToZeroIffEqual(a.directory, b.directory);
    var comparison := Strings.CompareTo(a.directory, b.directory);
    if comparison != 0 then comparison else Strings.CompareTo(a.file, b.file)
  }

  /** compareTo is zero exactly for pages with the same key, whatever their titles. */
  lemma CompareZeroIffSameKey(a: Page, b: Page)
    ensures Compare(a, b) == 0 <==> Key(a) == Key(b)
  {
    Strings.CompareToZeroIffEqual(a.directory, b.directory);
    Strings.CompareToZeroIffEqual(a.file, b.file);
  }

  lemma CompareAntisymmetric(a: Page, b: Page)
    ensures Compare(a, b) == -Compare(b, a)
  {
    Strings.CompareToAntisymmetric(a.directory, b.directory);
    Strings.CompareToAntisymmetric(a.file, b.file);
  }

  predicate Less(a: Page, b: Page)
  {
    Compare(a, b) < 0
  }

  lemma LessTransitive(a: Page, b: Page, c: Page)
    requires Less(a, b) && Less(b, c)
    ensures Less(a, c)
  {
    Strings.CompareToZeroIffEqual(a.directory, b.directory);
    Strings.CompareToZeroIffEqual(b.directory, c.directory);
    Strings.CompareToZeroIffEqual(a.directory, c.directory);
    if a.directory == b.directory == c.directory {
      Strings.CompareToTransitive(a.file, b.file, c.file);
    } else if a.directory == b.directory {
    } else if b.directory == c.directory {
    } else {
      Strings.CompareToTransitive(a.directory, b.directory, c.directory);
    }
  }

  /** A file name with U+1F600 sorts before one with U+FF21 in the same directory. */
  lemma Utf16PageOrderExample(directory: string, t: Title, t': Title)
    ensures Less(Page(directory, "\U{1F600}", t), Page(directory, "\U{FF21}", t'))
  {
    Strings.CompareToZeroIffEqual(directory, directory);
    Strings.Utf16OrderExample();
  }

  /** Pages with different keys are ordered one way or the other. */
  lemma LessTotal(a: Page, b: Page)
    ensures Key(a) == Key(b) || Less(a, b) || Less(b, a)
  {
    CompareZeroIffSameKey(a, b);
    CompareAntisymmetric(a, b);
  }

  /** A title as JSON: a string, or null. */
  function TitleToJson(t: Title): Json
  {
    if t.None? then JNull else JString(t.value)
  }

  /** toJSONObject: the three fields as strings, the title possibly null. */
  function ToJson(p: Page): Json
  {
    JObject(map[DirectoryField := JString(p.directory), FileField := JString(p.file), TitleField := TitleToJson(p.title)])
  }

  /**
   * fromJSONObject: reads the three fields back. The directory and the file are compared as
   * soon as the page enters the sorted page set, so a null there is a NullPointerException;
   * a null title is kept. A null entry is a NullPointerException, any other non-object a
   * ClassCastException.
   */
  function FromJson(j: Json): (r: Result<Page>)
    ensures !j.JObject? ==> r == Failure(if j.JNull? then NullPointerException else ClassCastException)
    ensures r.Success? <==>
              && j.JObject?
              && DirectoryField in j.fields && j.fields[DirectoryField].JString?
              && FileField in j.fields && j.fields[FileField].JString?
              && (TitleField !in j.fields || j.fields[TitleField].JNull? || j.fields[TitleField].JString?)
    ensures r.Success? ==>
              && j.fields[DirectoryField] == JString(r.value.directory)
              && j.fields[FileField] == JString(r.value.file)
              && (r.value.title.None? <==> TitleField !in j.fields || j.fields[TitleField].JNull?)
              && (r.value.title.Some? ==> j.fields[TitleField] == JString(r.value.title.value))
  {
    var fields :- GetObject(j);
    var directory :- GetString(fields, DirectoryField);
    var file :- GetString(fields, FileField);
    var title :- GetNullableString(fields, TitleField);
    Success(Page(directory, file, title))
  }

  /** Writing a page and reading it back gives the same directory, file and title. */
  lemma JsonRoundTrip(p: Page)
    ensures FromJson(ToJson(p)) == Success(p)
  {
  }
}

=== FILE: paths.dfy ===
/**
 * Relative paths as sequences of names, the absolute roots they are resolved against, and
 * the order java.nio.file.Path.compareTo puts them in.
 */
module Paths {
  import Strings

  /** A relative path: its names, first to last. */
  type Path = seq<string>

  /** A name as a directory listing returns it: not empty, no separator. */
  predicate ValidName(n: string)
  {
    |n| > 0 && '/' !in n
  }

  /** A relative path as a directory listing returns it: at least one name, all valid. */
  predicate ValidPath(p: Path)
  {
    |p| > 0 && forall i :: 0 <= i < |p| ==> ValidName(p[i])
  }

  /** Path.toString: the names joined by "/". */
  function Join(p: Path): string
  {
    if |p| == 0 then "" else if |p| == 1 then p[0] else p[0] + "/" + Join(p[1..])
  }

  /** Path.compareTo: the joined forms compared as strings. */
  function Compare(p: Path, q: Path): int
  {
    Strings.Compare(Join(p), Join(q))
  }

  /** Path.getFileName: the last name. */
  function FileName(p: Path): string
    requires |p| > 0
  {
    p[|p| - 1]
  }

  /** Path.getParent: every name but the last (empty when there is no parent). */
  function Parent(p: Path): Path
    requires |p| > 0
  {
    p[..|p| - 1]
  }

  /** Path.resolveSibling: the last name replaced by another one. */
  function ResolveSibling(p: Path, name: string): (r: Path)
    requires |p| > 0
    ensures |r| == |p| && Parent(r) == Parent(p) && FileName(r) == name
  {
    Parent(p) + [name]
  }

  /** One element in front of a pair makes a triple. */
  lemma ConsPair<T>(x: T, a: T, b: T)
    ensures [x] + [a, b] == [x, a, b]
  {
  }

  /** Two elements in front of nothing make a pair. */
  lemma ConsOntoEmpty<T>(x: T, y: T, rest: seq<T>)
    requires |rest| == 0
    ensures [x] + ([y] + rest) == [x, y]
  {
  }

  /** The last element of the rest of a sequence is its last element. */
  lemma LastOfTail<T>(s: seq<T>)
    requires |s| >= 2
    ensures s[1..][|s[1..]| - 1] == s[|s| - 1]
  {
  }

  /** Dropping the first of the first n + 1 elements is taking n of the rest. */
  lemma TailOfPrefix<T>(s: seq<T>, n: nat)
    requires n < |s|
    ensures s[..n + 1][1..] == s[1..][..n]
  {
  }

  /** A path is its parent followed by its file name. */
  lemma ParentAndName(p: Path)
    requires |p| > 0
    ensures p == Parent(p) + [FileName(p)]
  {
  }

  /** A path in the file system, as Path.isAbsolute and the names see it. */
  datatype Location = Location(absolute: bool, names: seq<string>)

  /** Path.resolve of a relative path against a root. */
  function Resolve(root: Location, p: Path): Location
  {
    Location(root.absolute, root.names + p)
  }

  /** A relative path given as a Location, as Paths.requireRelativePath accepts it. */
  function Relative(p: Path): Location
  {
    Location(false, p)
  }

  lemma JoinOfLongPath(p: Path)
    requires |p| >= 2
    ensures Join(p) == p[0] + "/" + Join(p[1..])
  {
  }

  /** The first name of a valid path ends where the first separator of its joined form is. */
  lemma FirstSeparator(p: Path)
    requires ValidPath(p)
    ensures |p[0]| <= |Join(p)| && Join(p)[..|p[0]|] == p[0]
    ensures '/' !in Join(p)[..|p[0]|]
    ensures |p| >= 2 ==> |p[0]| < |Join(p)| && Join(p)[|p[0]|] == '/'
                         && Join(p)[|p[0]| + 1..] == Join(p[1..])
    ensures |p| == 1 ==> Join(p) == p[0]
  {
    assert ValidName(p[0]);
  }

  lemma TailIsValid(p: Path)
    requires ValidPath(p) && |p| >= 2
    ensures ValidPath(p[1..])
  {
    forall i | 0 <= i < |p[1..]|
      ensures ValidName(p[1..][i])
    {
      assert p[1..][i] == p[i + 1];
    }
  }

  /** Different valid paths have different string forms. */
  lemma {:induction false} JoinInjective(p: Path, q: Path)
    requires ValidPath(p) && ValidPath(q) && Join(p) == Join(q)
    ensures p == q
  {
    FirstSeparator(p);
    FirstSeparator(q);
    var a, b := |p[0]|, |q[0]|;
    if |p| == 1 && |q| == 1 {
      assert p == [p[0]] && q == [q[0]];
    } else if |p| >= 2 && |q| >= 2 {
      if a != b {
        assert false;
      }
      assert p[0] == q[0];
      TailIsValid(p);
      TailIsValid(q);
      JoinInjective(p[1..], q[1..]);
      assert p == [p[0]] + p[1..] && q == [q[0]] + q[1..];
    } else {
      assert false;
    }
  }

  /** Path.compareTo is zero exactly for equal paths. */
  lemma CompareZeroIffEqual(p: Path, q: Path)
    requires ValidPath(p) && ValidPath(q)
    ensures Compare(p, q) == 0 <==> p == q
  {
    Strings.CompareZeroIffEqual(Join(p), Join(q));
    if Join(p) == Join(q) {
      JoinInjective(p, q);
    }
  }

  lemma {:induction false} JoinOfConcat(p: Path, q: Path)
    requires |p| > 0 && |q| > 0
    ensures Join(p + q) == Join(p) + "/" + Join(q)
  {
    if |p| == 1 {
      assert (p + q)[1..] == q;
    } else {
      assert (p + q)[1..] == p[1..] + q;
      JoinOfConcat(p[1..], q);
    }
  }

  /**
   * An entry inside a directory sorts after the directory itself, so a listing in
   * descending order names every entry before the directory that holds it.
   */
  lemma DescendantSortsAfter(p: Path, q: Path)
    requires |p| > 0 && |q| > 0
    ensures Compare(p, p + q) < 0
  {
    JoinOfConcat(p, q);
    assert Join(p) == Join(p + q)[..|Join(p)|];
    Strings.ProperPrefixIsLess(Join(p), Join(p + q));
  }
}

=== FILE: sitemap.dfy ===
/**
 * Sitemap: the flat, versioned set of pages produced so far, loaded from and saved to a
 * JSON document in the target root, and patched with the changes of a run.
 */
module Sitemaps {
  import opened Outcomes
  import opened Paths
  import opened JsonValues
  import opened Pages
  import opened Changes
  import opened Walks

  const SitemapFile: string := ".magisto-sitemap"
  const VersionField: string := "version"
  const PagesField: string := "pages"
  /** The format version; a stored sitemap of any other version is discarded. */
  const CurrentVersion: int := 1

  /** The pages of the site: one title per page key, as the sorted page set keeps them. */
  datatype Sitemap = Sitemap(pages: map<PageKey, Title>)

  /** getPages. */
  function PagesOf(s: Sitemap): (r: set<Page>)
    ensures forall p :: p in r <==> Key(p) in s.pages && s.pages[Key(p)] == p.title
  {
    set k | k in s.pages :: Page(k.directory, k.file, s.pages[k])
  }

  predicate IsEmpty(s: Sitemap)
  {
    |s.pages| == 0
  }

  /** emptySitemap. */
  function EmptySitemap(): (r: Sitemap)
    ensures IsEmpty(r) && PagesOf(r) == {}
  {
    Sitemap(map[])
  }

  /** What reading the sitemap file yields: nothing, text that does not parse, or a document. */
  datatype StoredSitemap = Missing | Unparsable | Parsed(document: Json)

  /**
   * The page array of a stored sitemap, read in order. Of two entries for the same page the
   * first is kept, as a set that identifies pages by key keeps the first one added.
   */
  function DecodePages(items: seq<Json>): (r: Result<map<PageKey, Title>>)
    ensures r.Success? ==> |r.value| <= |items|
    ensures r.Success? && |items| > 0 ==> DecodePages(items[..|items| - 1]).Success?
    decreases |items|
  {
    if |items| == 0 then Success(map[])
    else
      var pages :- DecodePages(items[..|items| - 1]);
      var page :- Pages.FromJson(items[|items| - 1]);
      if Key(page) in pages then Success(pages) else Success(pages[Key(page) := page.title])
  }

  /** Every entry of a page array reads as a page. */
  predicate AllDecode(items: seq<Json>)
  {
    forall i :: 0 <= i < |items| ==> Pages.FromJson(items[i]).Success?
  }

  /** Reading the page array succeeds exactly when every entry reads as a page. */
  lemma {:induction false} DecodePagesSucceeds(items: seq<Json>)
    ensures DecodePages(items).Success? <==> AllDecode(items)
    decreases |items|
  {
    if |items| > 0 {
      var prefix := items[..|items| - 1];
      assert forall i :: 0 <= i < |items| - 1 ==> prefix[i] == items[i];
      DecodePagesSucceeds(prefix);
    }
  }

  /** The entry reads as a page of key k. */
  predicate EntryOfKey(j: Json, k: PageKey)
  {
    Pages.FromJson(j).Success? && Key(Pages.FromJson(j).value) == k
  }

  /** The pages read are exactly those of the entries' keys. */
  lemma DecodePagesKeys(items: seq<Json>)
    requires DecodePages(items).Success?
    ensures forall k :: k in DecodePages(items).value <==> exists i :: 0 <= i < |items| && EntryOfKey(items[i], k)
  {
    DecodedKeysFromEntries(items);
    EntryKeysDecoded(items);
  }

  /** Every page read has the key of some entry. */
  lemma {:induction false} DecodedKeysFromEntries(items: seq<Json>)
    requires DecodePages(items).Success?
    ensures forall k :: k in DecodePages(items).value ==> exists i :: 0 <= i < |items| && EntryOfKey(items[i], k)
    decreases |items|
  {
    if |items| > 0 {
      var n := |items|;
      var prefix := items[..n - 1];
      DecodeKeysStep(items);
      DecodedKeysFromEntries(prefix);
      forall k | k in DecodePages(items).value
        ensures exists i :: 0 <= i < n && EntryOfKey(items[i], k)
      {
        if k in DecodePages(prefix).value {
          var i :| 0 <= i < n - 1 && EntryOfKey(prefix[i], k);
          PrefixAt(items, i);
          assert EntryOfKey(items[i], k);
        } else {
          assert EntryOfKey(items[n - 1], k);
        }
      }
    }
  }

  /** The key of every entry is read. */
  lemma {:induction false} EntryKeysDecoded(items: seq<Json>)
    requires DecodePages(items).Success?
    ensures forall k :: (exists i :: 0 <= i < |items| && EntryOfKey(items[i], k)) ==> k in DecodePages(items).value
    decreases |items|
  {
    if |items| > 0 {
      var n := |items|;
      var prefix := items[..n - 1];
      DecodeKeysStep(items);
      EntryKeysDecoded(prefix);
      forall k | exists i :: 0 <= i < n && EntryOfKey(items[i], k)
        ensures k in DecodePages(items).value
      {
        var i :| 0 <= i < n && EntryOfKey(items[i], k);
        if i < n - 1 {
          PrefixAt(items, i);
          assert EntryOfKey(prefix[i], k);
        }
      }
    }
  }

  /** One step of reading the page array: the keys so far and the last entry's. */
  lemma DecodeKeysStep(items: seq<Json>)
    requires |items| > 0 && DecodePages(items).Success?
    ensures DecodePages(items[..|items| - 1]).Success?
    ensures forall k :: k in DecodePages(items).value <==>
              k in DecodePages(items[..|items| - 1]).value || EntryOfKey(items[|items| - 1], k)
  {
    var n := |items|;
    var m := DecodePages(items[..n - 1]).value;
    var last := Pages.FromJson(items[n - 1]).value;
    var r := DecodePages(items).value;
    assert r == if Key(last) in m then m else m[Key(last) := last.title];
    forall k
      ensures k in r <==> k in m || EntryOfKey(items[n - 1], k)
    {
      assert EntryOfKey(items[n - 1], k) <==> k == Key(last);
    }
  }

  /** The entry reads as page p. */
  predicate EntryIs(j: Json, p: Page)
  {
    Pages.FromJson(j) == Success(p)
  }

  /** Each page read has the title of an entry of its key. */
  lemma {:induction false} DecodePagesTitles(items: seq<Json>)
    requires DecodePages(items).Success?
    ensures forall k :: k in DecodePages(items).value ==>
              exists i :: 0 <= i < |items| && EntryIs(items[i], Page(k.directory, k.file, DecodePages(items).value[k]))
    decreases |items|
  {
    if |items| > 0 {
      var n := |items|;
      var prefix := items[..n - 1];
      DecodePagesTitles(prefix);
      var m := DecodePages(prefix).value;
      var page := Pages.FromJson(items[n - 1]).value;
      var r := DecodePages(items).value;
      assert r == if Key(page) in m then m else m[Key(page) := page.title];
      forall k | k in r
        ensures exists i :: 0 <= i < n && EntryIs(items[i], Page(k.directory, k.file, r[k]))
      {
        if k in m {
          assert r[k] == m[k];
          var i :| 0 <= i < n - 1 && EntryIs(prefix[i], Page(k.directory, k.file, m[k]));
          PrefixAt(items, i);
          assert EntryIs(items[i], Page(k.directory, k.file, r[k]));
        } else {
          assert k == Key(page) && r[k] == page.title;
          assert EntryIs(items[n - 1], Page(k.directory, k.file, r[k]));
        }
      }
    }
  }

  lemma PrefixAt<T>(s: seq<T>, i: int)
    requires 0 <= i < |s| - 1
    ensures s[..|s| - 1][i] == s[i]
  {
  }

  /**
   * load: a missing or unparsable file is an IOException, and so is a version field that
   * is absent, null or an integer other than 1; a document, version or page array of the
   * wrong JSON type is a ClassCastException, and a null document a NullPointerException.
   * A version-1 document gives one page per distinct entry.
   */
  function Load(targetRoot: Location, stored: StoredSitemap): (r: Result<Sitemap>)
    ensures !targetRoot.absolute ==> r == Failure(IllegalArgumentException)
    ensures targetRoot.absolute && (stored.Missing? || stored.Unparsable?) ==> r == Failure(IOException)
    ensures targetRoot.absolute && stored.Parsed? && !stored.document.JObject? ==>
              r == Failure(if stored.document.JNull? then NullPointerException else ClassCastException)
    ensures targetRoot.absolute && stored.Parsed? && stored.document.JObject? ==>
              (VersionField !in stored.document.fields || stored.document.fields[VersionField] == JNull ||
               (stored.document.fields[VersionField].JInt? && stored.document.fields[VersionField].i != CurrentVersion))
              ==> r == Failure(IOException)
    ensures (targetRoot.absolute && stored.Parsed? && stored.document.JObject? &&
             VersionField in stored.document.fields &&
             !stored.document.fields[VersionField].JNull? && !stored.document.fields[VersionField].JInt?)
              ==> r == Failure(ClassCastException)
    ensures r.Success? ==>
              && stored.Parsed? && stored.document.JObject?
              && VersionField in stored.document.fields
              && stored.document.fields[VersionField] == JInt(CurrentVersion)
              && PagesField in stored.document.fields
              && stored.document.fields[PagesField].JArray?
              && DecodePages(stored.document.fields[PagesField].items) == Success(r.value.pages)
              && |r.value.pages| <= |stored.document.fields[PagesField].items|
  {
    if !targetRoot.absolute then Failure(IllegalArgumentException)
    else match stored
      case Missing => Failure(IOException)
      case Unparsable => Failure(IOException)
      case Parsed(document) =>
        var fields :- GetObject(document);
        if VersionField !in fields || fields[VersionField].JNull? then Failure(IOException)
        else if !fields[VersionField].JInt? then Failure(ClassCastException)
        else if fields[VersionField].i != CurrentVersion then Failure(IOException)
        else
          var items :- GetArray(fields, PagesField);
          var pages :- DecodePages(items);
          Success(Sitemap(pages))
  }

  /** A stored page without a title loads, with a null title. */
  lemma UntitledPageLoads(targetRoot: Location)
    requires targetRoot.absolute
    ensures var entry := JObject(map[DirectoryField := JString(""), FileField := JString("a.html")]);
            Load(targetRoot, Parsed(JObject(map[VersionField := JInt(1), PagesField := JArray([entry])])))
              == Success(Sitemap(map[PageKey("", "a.html") := None]))
  {
    var entry := JObject(map[DirectoryField := JString(""), FileField := JString("a.html")]);
    assert DirectoryField != FileField by { assert DirectoryField[0] != FileField[0]; }
    assert TitleField !in entry.fields by { assert TitleField[0] != DirectoryField[0] && TitleField[0] != FileField[0]; }
    assert Pages.FromJson(entry) == Success(Page("", "a.html", None));
    assert [entry][..0] == [];
    assert DecodePages([entry]) == Success(map[PageKey("", "a.html") := None]);
    LoadDocument(targetRoot, [entry]);
  }

  /** A version-1 document whose page array does not read fails as the array does. */
  lemma LoadRefusesEntries(targetRoot: Location, items: seq<Json>)
    requires targetRoot.absolute && DecodePages(items).Failure?
    ensures Load(targetRoot, Parsed(DocumentOf(items))) == Failure(DecodePages(items).error)
  {
    SitemapFieldsDiffer();
    assert GetArray(DocumentOf(items).fields, PagesField) == Success(items);
  }

  /** A stored page whose file is null is refused. */
  lemma NullFileRefused(targetRoot: Location)
    requires targetRoot.absolute
    ensures var entry := JObject(map[DirectoryField := JString(""), FileField := JNull]);
            Load(targetRoot, Parsed(JObject(map[VersionField := JInt(1), PagesField := JArray([entry])])))
              == Failure(NullPointerException)
  {
    var entry := JObject(map[DirectoryField := JString(""), FileField := JNull]);
    assert DirectoryField != FileField by { assert DirectoryField[0] != FileField[0]; }
    assert Pages.FromJson(entry) == Failure(NullPointerException);
    assert [entry][..0] == [];
    assert DecodePages([entry]) == Failure(NullPointerException);
    LoadRefusesEntries(targetRoot, [entry]);
  }

  /** A null page entry is refused. */
  lemma NullEntryRefused(targetRoot: Location)
    requires targetRoot.absolute
    ensures Load(targetRoot, Parsed(JObject(map[VersionField := JInt(1), PagesField := JArray([JNull])])))
              == Failure(NullPointerException)
  {
    assert [JNull][..0] == [];
    assert DecodePages([JNull]) == Failure(NullPointerException);
    LoadRefusesEntries(targetRoot, [JNull]);
  }

  /** A stored sitemap of version 2 is refused like a missing one. */
  lemma IncompatibleVersionRefused(targetRoot: Location, pages: seq<Json>)
    requires targetRoot.absolute
    ensures Load(targetRoot, Parsed(JObject(map[VersionField := JInt(2), PagesField := JArray(pages)])))
              == Failure(IOException)
  {
  }

  /**
   * Magisto.loadCurrentSitemap: a sitemap that cannot be read for an I/O reason (including
   * a wrong version) is replaced by the empty one; other errors are not caught.
   */
  function LoadCurrentSitemap(targetRoot: Location, stored: StoredSitemap): (r: Result<Sitemap>)
    ensures Load(targetRoot, stored).Success? ==> r == Load(targetRoot, stored)
    ensures Load(targetRoot, stored) == Failure(IOException) ==> r == Success(EmptySitemap())
    ensures r.Failure? ==> r == Load(targetRoot, stored) && r.error != IOException
  {
    match Load(targetRoot, stored)
    case Failure(IOException) => Success(EmptySitemap())
    case other => other
  }

  /** A sitemap file that is not there yet gives the empty sitemap, which forces a full rebuild. */
  lemma FirstRunStartsEmpty(targetRoot: Location)
    requires targetRoot.absolute
    ensures LoadCurrentSitemap(targetRoot, Missing) == Success(EmptySitemap())
    ensures IsEmpty(LoadCurrentSitemap(targetRoot, Missing).value)
  {
  }

  // ---------------------------------------------------------------------------------------
  // save
  // ---------------------------------------------------------------------------------------

  predicate StrictlySorted(ps: seq<Page>)
  {
    forall i, j :: 0 <= i < j < |ps| ==> Less(ps[i], ps[j])
  }

  predicate DistinctKeys(ps: seq<Page>)
  {
    forall i, j :: 0 <= i < j < |ps| ==> Key(ps[i]) != Key(ps[j])
  }

  lemma SortedHasDistinctKeys(ps: seq<Page>)
    requires StrictlySorted(ps)
    ensures DistinctKeys(ps)
  {
    forall i, j | 0 <= i < j < |ps| ensures Key(ps[i]) != Key(ps[j]) {
      CompareZeroIffSameKey(ps[i], ps[j]);
    }
  }

  /**
   * Inserting a page with a new key into a strictly sorted sequence at its place; the same
   * step as Actions.Insert, under the page order.
   */
  method InsertPage(sorted: seq<Page>, x: Page) returns (r: seq<Page>, at: nat)
    requires StrictlySorted(sorted)
    requires forall k :: 0 <= k < |sorted| ==> Key(sorted[k]) != Key(x)
    ensures at <= |sorted| && r == sorted[..at] + [x] + sorted[at..]
    ensures StrictlySorted(r)
  {
    at := 0;
    while at < |sorted| && Less(sorted[at], x)
      invariant at <= |sorted|
      invariant forall k :: 0 <= k < at ==> Less(sorted[k], x)
    {
      at := at + 1;
    }
    r := sorted[..at] + [x] + sorted[at..];
    if at < |sorted| {
      LessTotal(sorted[at], x);
      forall k | at <= k < |sorted|
        ensures Less(x, sorted[k])
      {
        if k > at {
          LessTransitive(x, sorted[at], sorted[k]);
        }
      }
    }
    forall i, j | 0 <= i < j < |r|
      ensures Less(r[i], r[j])
    {
      if i < at && j > at {
        assert r[i] == sorted[i] && r[j] == sorted[j - 1];
      } else if i < at && j == at {
      } else if i == at {
        assert r[j] == sorted[j - 1];
      } else if i > at {
        assert r[i] == sorted[i - 1] && r[j] == sorted[j - 1];
      } else {
        assert r[i] == sorted[i] && r[j] == sorted[j];
      }
    }
  }

  lemma InsertedMembers(before: seq<Page>, x: Page, at: nat)
    requires at <= |before|
    ensures forall p :: p in before[..at] + [x] + before[at..] <==> p in before || p == x
  {
    assert before == before[..at] + before[at..];
  }

  /** The loop invariant of SortedPages: order holds exactly the pages of the keys in done. */
  predicate HoldsPagesOf(s: Sitemap, order: seq<Page>, done: set<PageKey>)
  {
    && done <= s.pages.Keys
    && StrictlySorted(order)
    && (forall i :: 0 <= i < |order| ==> Key(order[i]) in done && s.pages[Key(order[i])] == order[i].title)
    && (forall k :: k in done ==> Page(k.directory, k.file, s.pages[k]) in order)
    && |order| == |done|
  }

  lemma SortedPagesStep(s: Sitemap, before: seq<Page>, done: set<PageKey>, k: PageKey, at: nat)
    requires HoldsPagesOf(s, before, done) && k in s.pages && k !in done && at <= |before|
    requires StrictlySorted(before[..at] + [Page(k.directory, k.file, s.pages[k])] + before[at..])
    ensures HoldsPagesOf(s, before[..at] + [Page(k.directory, k.file, s.pages[k])] + before[at..], done + {k})
  {
    var page := Page(k.directory, k.file, s.pages[k]);
    InsertedMembers(before, page, at);
    InsertedWithin(s, before, done, k, at);
    InsertedCovers(s, before, done, k, at);
  }

  lemma InsertedWithin(s: Sitemap, before: seq<Page>, done: set<PageKey>, k: PageKey, at: nat)
    requires k in s.pages && done <= s.pages.Keys && at <= |before|
    requires forall i :: 0 <= i < |before| ==> Key(before[i]) in done && s.pages[Key(before[i])] == before[i].title
    requires forall p :: p in before[..at] + [Page(k.directory, k.file, s.pages[k])] + before[at..] <==>
               p in before || p == Page(k.directory, k.file, s.pages[k])
    ensures var order := before[..at] + [Page(k.directory, k.file, s.pages[k])] + before[at..];
            forall i :: 0 <= i < |order| ==> Key(order[i]) in done + {k} && s.pages[Key(order[i])] == order[i].title
  {
    var page := Page(k.directory, k.file, s.pages[k]);
    var order := before[..at] + [page] + before[at..];
    forall i | 0 <= i < |order| ensures Key(order[i]) in done + {k} && s.pages[Key(order[i])] == order[i].title {
      assert order[i] in before || order[i] == page;
    }
  }

  lemma InsertedCovers(s: Sitemap, before: seq<Page>, done: set<PageKey>, k: PageKey, at: nat)
    requires k in s.pages && done <= s.pages.Keys && at <= |before|
    requires forall j :: j in done ==> Page(j.directory, j.file, s.pages[j]) in before
    requires forall p :: p in before[..at] + [Page(k.directory, k.file, s.pages[k])] + before[at..] <==>
               p in before || p == Page(k.directory, k.file, s.pages[k])
    ensures var order := before[..at] + [Page(k.directory, k.file, s.pages[k])] + before[at..];
            forall j :: j in done + {k} ==> Page(j.directory, j.file, s.pages[j]) in order
  {
  }

  /** The pages in the order of the sorted page set: by directory, then by file. */
  method SortedPages(s: Sitemap) returns (order: seq<Page>)
    ensures StrictlySorted(order)
    ensures forall i :: 0 <= i < |order| ==> Key(order[i]) in s.pages && s.pages[Key(order[i])] == order[i].title
    ensures forall k :: k in s.pages ==> Page(k.directory, k.file, s.pages[k]) in order
    ensures |order| == |s.pages|
  {
    order := [];
    var remaining := s.pages.Keys;
    while remaining != {}
      invariant remaining <= s.pages.Keys
      invariant HoldsPagesOf(s, order, s.pages.Keys - remaining)
      decreases |remaining|
    {
      var k :| k in remaining;
      var page := Page(k.directory, k.file, s.pages[k]);
      var before := order;
      var at;
      order, at := InsertPage(before, page);
      TakeOne(s.pages.Keys, remaining, k);
      SortedPagesStep(s, before, s.pages.Keys - remaining, k, at);
      remaining := remaining - {k};
    }
    NoneRemaining(s.pages.Keys);
  }

  /** The JSON items of a sequence of pages. */
  function ToJsons(ps: seq<Page>): (r: seq<Json>)
    ensures |r| == |ps| && forall i :: 0 <= i < |ps| ==> r[i] == Pages.ToJson(ps[i])
  {
    seq(|ps|, i requires 0 <= i < |ps| => Pages.ToJson(ps[i]))
  }

  /** The pages of a sequence as a map, later entries overriding earlier ones. */
  function MapOf(ps: seq<Page>): map<PageKey, Title>
    decreases |ps|
  {
    if |ps| == 0 then map[] else MapOf(ps[..|ps| - 1])[Key(ps[|ps| - 1]) := ps[|ps| - 1].title]
  }

  lemma {:induction false} MapOfKeys(ps: seq<Page>)
    ensures forall k :: k in MapOf(ps) <==> exists i :: 0 <= i < |ps| && Key(ps[i]) == k
    decreases |ps|
  {
    if |ps| > 0 {
      var prefix := ps[..|ps| - 1];
      MapOfKeys(prefix);
      forall k | k in MapOf(ps) ensures exists i :: 0 <= i < |ps| && Key(ps[i]) == k {
        if k != Key(ps[|ps| - 1]) {
          assert k in MapOf(prefix);
          var i :| 0 <= i < |prefix| && Key(prefix[i]) == k;
          assert Key(ps[i]) == k;
        }
      }
      forall k | exists i :: 0 <= i < |ps| && Key(ps[i]) == k ensures k in MapOf(ps) {
        var i :| 0 <= i < |ps| && Key(ps[i]) == k;
        if i < |ps| - 1 {
          assert Key(prefix[i]) == k;
        }
      }
    }
  }

  lemma {:induction false} MapOfValues(ps: seq<Page>)
    requires DistinctKeys(ps)
    ensures forall i :: 0 <= i < |ps| ==> Key(ps[i]) in MapOf(ps) && MapOf(ps)[Key(ps[i])] == ps[i].title
    decreases |ps|
  {
    if |ps| > 0 {
      var prefix := ps[..|ps| - 1];
      MapOfValues(prefix);
      forall i | 0 <= i < |ps| - 1
        ensures Key(ps[i]) in MapOf(ps) && MapOf(ps)[Key(ps[i])] == ps[i].title
      {
        assert ps[i] == prefix[i];
      }
    }
  }

  /** One more item for a page with a new key adds that page. */
  lemma DecodeStep(items: seq<Json>, m: map<PageKey, Title>, p: Page)
    requires |items| > 0 && DecodePages(items[..|items| - 1]) == Success(m)
    requires items[|items| - 1] == Pages.ToJson(p) && Key(p) !in m
    ensures DecodePages(items) == Success(m[Key(p) := p.title])
  {
    JsonRoundTrip(p);
  }

  /** Reading back the items of pages with distinct keys gives exactly those pages. */
  lemma {:induction false} DecodeDistinctPages(ps: seq<Page>)
    requires DistinctKeys(ps)
    ensures DecodePages(ToJsons(ps)) == Success(MapOf(ps))
    decreases |ps|
  {
    if |ps| > 0 {
      var prefix := ps[..|ps| - 1];
      var items := ToJsons(ps);
      assert items[..|ps| - 1] == ToJsons(prefix);
      DecodeDistinctPages(prefix);
      MapOfKeys(prefix);
      DecodeStep(items, MapOf(prefix), ps[|ps| - 1]);
    }
  }

  lemma SortedMapIsSitemap(s: Sitemap, order: seq<Page>)
    requires DistinctKeys(order)
    requires forall i :: 0 <= i < |order| ==> Key(order[i]) in s.pages && s.pages[Key(order[i])] == order[i].title
    requires forall k :: k in s.pages ==> Page(k.directory, k.file, s.pages[k]) in order
    ensures MapOf(order) == s.pages
  {
    MapOfKeysWithin(s, order);
    MapOfCovers(s, order);
    MapsEqual(MapOf(order), s.pages);
  }

  lemma MapOfKeysWithin(s: Sitemap, order: seq<Page>)
    requires forall i :: 0 <= i < |order| ==> Key(order[i]) in s.pages
    ensures forall k :: k in MapOf(order) ==> k in s.pages
  {
    MapOfKeys(order);
  }

  lemma MapOfCovers(s: Sitemap, order: seq<Page>)
    requires DistinctKeys(order)
    requires forall k :: k in s.pages ==> Page(k.directory, k.file, s.pages[k]) in order
    ensures forall k :: k in s.pages ==> k in MapOf(order) && MapOf(order)[k] == s.pages[k]
  {
    MapOfValues(order);
    forall k | k in s.pages ensures k in MapOf(order) && MapOf(order)[k] == s.pages[k] {
      var i :| 0 <= i < |order| && order[i] == Page(k.directory, k.file, s.pages[k]);
      assert Key(order[i]) == k;
    }
  }

  /**
   * save: a document with version 1 and one page entry per page, in page order. Reading
   * the saved document back gives the same sitemap.
   */
  method Save(s: Sitemap, targetRoot: Location) returns (r: Result<Json>)
    ensures r.Success? <==> targetRoot.absolute
    ensures r.Failure? ==> r.error == IllegalArgumentException
    ensures r.Success? ==>
              && r.value.JObject?
              && VersionField in r.value.fields && r.value.fields[VersionField] == JInt(CurrentVersion)
              && PagesField in r.value.fields && r.value.fields[PagesField].JArray?
              && |r.value.fields[PagesField].items| == |s.pages|
    ensures r.Success? ==> Load(targetRoot, Parsed(r.value)) == Success(s)
  {
    if !targetRoot.absolute {
      return Failure(IllegalArgumentException);
    }
    var order := SortedPages(s);
    SavedDocumentLoads(s, targetRoot, order);
    r := Success(SavedDocument(order));
  }

  /** The saved document for pages in order. */
  function SavedDocument(order: seq<Page>): Json
  {
    DocumentOf(ToJsons(order))
  }

  /** A version-1 document with the given page items. */
  function DocumentOf(items: seq<Json>): Json
  {
    JObject(map[VersionField := JInt(CurrentVersion), PagesField := JArray(items)])
  }

  lemma SitemapFieldsDiffer()
    ensures VersionField != PagesField
  {
    assert VersionField[0] != PagesField[0];
  }

  /** A version-1 document has both fields, and loads as what its items decode to. */
  lemma LoadDocument(targetRoot: Location, items: seq<Json>)
    requires targetRoot.absolute
    ensures var document := DocumentOf(items);
              && document.JObject?
              && VersionField in document.fields && document.fields[VersionField] == JInt(CurrentVersion)
              && PagesField in document.fields && document.fields[PagesField] == JArray(items)
    ensures DecodePages(items).Success? ==>
              Load(targetRoot, Parsed(DocumentOf(items))) == Success(Sitemap(DecodePages(items).value))
  {
    SitemapFieldsDiffer();
    assert GetArray(DocumentOf(items).fields, PagesField) == Success(items);
  }

  /** The saved document of the sorted pages has the expected shape and loads back. */
  lemma SavedDocumentLoads(s: Sitemap, targetRoot: Location, order: seq<Page>)
    requires targetRoot.absolute && StrictlySorted(order)
    requires forall i :: 0 <= i < |order| ==> Key(order[i]) in s.pages && s.pages[Key(order[i])] == order[i].title
    requires forall k :: k in s.pages ==> Page(k.directory, k.file, s.pages[k]) in order
    requires |order| == |s.pages|
    ensures var document := SavedDocument(order);
              && document.JObject?
              && VersionField in document.fields && document.fields[VersionField] == JInt(CurrentVersion)
              && PagesField in document.fields && document.fields[PagesField].JArray?
              && |document.fields[PagesField].items| == |s.pages|
    ensures Load(targetRoot, Parsed(SavedDocument(order))) == Success(s)
  {
    SortedHasDistinctKeys(order);
    DecodeDistinctPages(order);
    SortedMapIsSitemap(s, order);
    LoadDocument(targetRoot, ToJsons(order));
  }

  // ---------------------------------------------------------------------------------------
  // apply
  // ---------------------------------------------------------------------------------------

  /**
   * One change: a delete removes the page at the path; an insert-or-update stores the page
   * with the title of the source document at the path. A document that cannot be loaded
   * (absent from titles) is an IOException.
   */
  function ApplyChange(pages: map<PageKey, Title>, c: Change, titles: map<Path, Title>)
    : (r: Result<map<PageKey, Title>>)
    ensures c.changeType == Changes.Delete ==> r.Success? && KeyOf(c.path) !in r.value
    ensures c.changeType == InsertOrUpdate ==> (r.Success? <==> c.path in titles)
    ensures c.changeType == InsertOrUpdate && r.Success? ==>
              KeyOf(c.path) in r.value && r.value[KeyOf(c.path)] == titles[c.path]
    ensures r.Failure? ==> r.error == IOException
    ensures r.Success? ==> forall k :: k != KeyOf(c.path) ==>
              (k in r.value <==> k in pages) && (k in pages ==> r.value[k] == pages[k])
  {
    match c.changeType
    case Delete => Success(pages - {KeyOf(c.path)})
    case InsertOrUpdate =>
      if c.path !in titles then Failure(IOException)
      else Success(pages[KeyOf(c.path) := titles[c.path]])
  }

  /** Every document an insert-or-update change needs has a title. */
  predicate TitlesAvailable(changes: seq<Change>, titles: map<Path, Title>)
  {
    forall i :: 0 <= i < |changes| && changes[i].changeType == InsertOrUpdate ==> changes[i].path in titles
  }

  /** No change in the list concerns the page key k. */
  predicate Untouched(changes: seq<Change>, k: PageKey)
  {
    forall i :: 0 <= i < |changes| ==> KeyOf(changes[i].path) != k
  }

  /**
   * apply: the changes in list order, on a copy; the result is a new sitemap. It succeeds
   * exactly when every inserted or updated document has a title, and pages no change
   * concerns keep their titles.
   */
  function Apply(s: Sitemap, changes: seq<Change>, titles: map<Path, Title>): (r: Result<Sitemap>)
    ensures r.Success? <==> TitlesAvailable(changes, titles)
    ensures r.Failure? ==> r.error == IOException
    ensures r.Success? ==> forall k :: Untouched(changes, k) ==>
              (k in r.value.pages <==> k in s.pages) && (k in s.pages ==> r.value.pages[k] == s.pages[k])
    decreases |changes|
  {
    if |changes| == 0 then Success(s)
    else
      match ApplyChange(s.pages, changes[0], titles)
      case Failure(e) => Failure(e)
      case Success(pages) =>
        assert forall i :: 1 <= i < |changes| ==> changes[1..][i - 1] == changes[i];
        Apply(Sitemap(pages), changes[1..], titles)
  }

  /** Applying a list and then one more change is applying the longer list. */
  lemma {:induction false} ApplySnoc(s: Sitemap, changes: seq<Change>, c: Change, titles: map<Path, Title>)
    ensures Apply(s, changes + [c], titles) ==
              match Apply(s, changes, titles)
              case Failure(e) => Failure(e)
              case Success(s') =>
                match ApplyChange(s'.pages, c, titles)
                case Failure(e) => Failure(e)
                case Success(pages) => Success(Sitemap(pages))
    decreases |changes|
  {
    if |changes| == 0 {
      assert changes + [c] == [c];
      assert [c][1..] == [];
    } else {
      assert (changes + [c])[0] == changes[0];
      assert (changes + [c])[1..] == changes[1..] + [c];
      match ApplyChange(s.pages, changes[0], titles)
      case Failure(e) =>
      case Success(pages) => ApplySnoc(Sitemap(pages), changes[1..], c, titles);
    }
  }

  /** The last change to a page decides: a delete leaves no page, an update leaves its title. */
  lemma LastChangeWins(s: Sitemap, changes: seq<Change>, c: Change, titles: map<Path, Title>)
    requires Apply(s, changes + [c], titles).Success?
    ensures c.changeType == Changes.Delete ==> KeyOf(c.path) !in Apply(s, changes + [c], titles).value.pages
    ensures c.changeType == InsertOrUpdate ==>
              && c.path in titles
              && KeyOf(c.path) in Apply(s, changes + [c], titles).value.pages
              && Apply(s, changes + [c], titles).value.pages[KeyOf(c.path)] == titles[c.path]
  {
    ApplySnoc(s, changes, c, titles);
  }

  // ---------------------------------------------------------------------------------------
  // apply, as the source writes it
  // ---------------------------------------------------------------------------------------

  /**
   * One change as the source's switch runs it: the delete case has no break, so after
   * removing the page it goes on into the insert-or-update case, loads the document at the
   * path and stores the page again.
   */
  function ApplyChangeAsWritten(pages: map<PageKey, Title>, c: Change, titles: map<Path, Title>)
    : (r: Result<map<PageKey, Title>>)
    ensures r.Success? <==> c.path in titles
    ensures r.Failure? ==> r.error == IOException
    ensures r.Success? ==> KeyOf(c.path) in r.value && r.value[KeyOf(c.path)] == titles[c.path]
  {
    var remaining := if c.changeType == Changes.Delete then pages - {KeyOf(c.path)} else pages;
    if c.path !in titles then Failure(IOException)
    else Success(remaining[KeyOf(c.path) := titles[c.path]])
  }

  /**
   * As written, a delete never takes a page out: it fails when the deleted document can no
   * longer be loaded, and otherwise leaves a page at the path; either way the outcome
   * differs from the intended removal.
   */
  lemma DeleteFallsThrough(pages: map<PageKey, Title>, path: Path, titles: map<Path, Title>)
    ensures ApplyChangeAsWritten(pages, Change(Changes.Delete, path), titles).Success? ==>
              KeyOf(path) in ApplyChangeAsWritten(pages, Change(Changes.Delete, path), titles).value
    ensures ApplyChangeAsWritten(pages, Change(Changes.Delete, path), titles)
              != ApplyChange(pages, Change(Changes.Delete, path), titles)
  {
  }

  /** Deleting old.html, whose source is gone, makes the whole apply fail. */
  lemma DeleteFallsThroughExample()
    ensures var pages := map[KeyOf(["old.html"]) := Some("Old")];
            var c := Change(Changes.Delete, ["old.html"]);
            && ApplyChangeAsWritten(pages, c, map[]) == Failure(IOException)
            && ApplyChange(pages, c, map[]) == Success(map[])
  {
    var pages := map[KeyOf(["old.html"]) := Some("Old")];
    assert pages - {KeyOf(["old.html"])} == map[];
  }

  /**
   * Page objects as the source keeps them in a hash set: Page defines compareTo but neither
   * equals nor hashCode, so removing a freshly made page removes nothing and adding one
   * always adds it, next to any earlier page of the same path. The delete case falls
   * through as above.
   */
  function ApplyChangeToObjects(pages: seq<Page>, c: Change, titles: map<Path, Title>): (r: Result<seq<Page>>)
    ensures r.Success? <==> c.path in titles
    ensures r.Success? ==> |r.value| == |pages| + 1 && r.value[..|pages|] == pages
    ensures r.Success? ==> Key(r.value[|pages|]) == KeyOf(c.path) && r.value[|pages|].title == titles[c.path]
  {
    if c.path !in titles then Failure(IOException)
    else Success(pages + [PageOf(c.path, titles[c.path])])
  }

  /**
   * new TreeSet(pages): of several pages that compare equal, the one met first in the
   * iteration order is kept.
   */
  function TreeSetOf(ps: seq<Page>): (r: map<PageKey, Title>)
    ensures forall i :: 0 <= i < |ps| ==> Key(ps[i]) in r
    decreases |ps|
  {
    if |ps| == 0 then map[]
    else
      var kept := TreeSetOf(ps[..|ps| - 1]);
      var last := ps[|ps| - 1];
      assert forall i :: 0 <= i < |ps| - 1 ==> ps[..|ps| - 1][i] == ps[i];
      if Key(last) in kept then kept else kept[Key(last) := last.title]
  }

  /** The sorted set holds the title of the first page of each key, and no other key. */
  lemma {:induction false} TreeSetKeepsFirst(ps: seq<Page>, i: nat)
    requires i < |ps| && forall j :: 0 <= j < i ==> Key(ps[j]) != Key(ps[i])
    ensures TreeSetOf(ps)[Key(ps[i])] == ps[i].title
    decreases |ps|
  {
    var prefix := ps[..|ps| - 1];
    if i < |ps| - 1 {
      assert prefix[i] == ps[i];
      assert forall j :: 0 <= j < i ==> prefix[j] == ps[j];
      TreeSetKeepsFirst(prefix, i);
    } else if |ps| > 1 {
      TreeSetMembers(prefix, Key(ps[i]));
    }
  }

  lemma {:induction false} TreeSetMembers(ps: seq<Page>, k: PageKey)
    ensures k in TreeSetOf(ps) <==> exists i :: 0 <= i < |ps| && Key(ps[i]) == k
    decreases |ps|
  {
    if |ps| > 0 {
      var prefix := ps[..|ps| - 1];
      TreeSetMembers(prefix, k);
      if k in TreeSetOf(prefix) {
        var i :| 0 <= i < |prefix| && Key(prefix[i]) == k;
        assert Key(ps[i]) == k;
      }
    }
  }

  /**
   * Updating the title of a page already in the sitemap: the hash set then holds the old
   * and the new page object, and when the old one is iterated first the sorted set keeps
   * the old title, where the intended apply stores the new one. Which one comes first
   * depends on identity hash codes; FreshTitleExample shows the other order.
   */
  lemma StaleTitleExample()
    ensures var stored := Page("", "a.html", Some("Old"));
            var c := Change(InsertOrUpdate, ["a.html"]);
            var titles := map[["a.html"] := Some("New")];
            && ApplyChangeToObjects([stored], c, titles).Success?
            && TreeSetOf(ApplyChangeToObjects([stored], c, titles).value)[Key(stored)] == Some("Old")
            && Apply(Sitemap(map[Key(stored) := Some("Old")]), [c], titles).Success?
            && Apply(Sitemap(map[Key(stored) := Some("Old")]), [c], titles).value.pages[Key(stored)] == Some("New")
  {
    var stored := Page("", "a.html", Some("Old"));
    var c := Change(InsertOrUpdate, ["a.html"]);
    var titles := map[["a.html"] := Some("New")];
    assert KeyOf(["a.html"]) == Key(stored);
    var ps := ApplyChangeToObjects([stored], c, titles).value;
    assert ps[0] == stored;
  }

  /** The same update when the new page object is iterated first: the new title is kept. */
  lemma FreshTitleExample()
    ensures var stored := Page("", "a.html", Some("Old"));
            var updated := PageOf(["a.html"], Some("New"));
            TreeSetOf([updated, stored])[Key(stored)] == Some("New")
  {
    var stored := Page("", "a.html", Some("Old"));
    var updated := PageOf(["a.html"], Some("New"));
    assert Key(updated) == Key(stored);
    assert [updated, stored][..1] == [updated];
    assert [updated][..0] == [];
    assert TreeSetOf([updated]) == map[Key(updated) := Some("New")];
    assert TreeSetOf([updated, stored]) == TreeSetOf([updated]);
  }
}

=== FILE: split_path.dfy ===
/** io/SplitPath: a path split at the last dot of its file name. */
module SplitPaths {
  import Strings
  import opened Paths

  /** The path with the extension of its last name removed, and that extension. */
  datatype SplitPath = SplitPath(pathWithoutExtension: Path, originalExtension: string)

  /** A file name with no dot after its first character has no extension. */
  predicate NoExtension(name: string)
  {
    forall i :: 1 <= i < |name| ==> name[i] != '.'
  }

  /**
   * The SplitPath constructor. A name whose only dot is its first character (".page") has
   * no extension; otherwise the extension is what follows the last dot, and only the last
   * name is shortened.
   */
  function Split(p: Path): (r: SplitPath)
    requires |p| > 0
    ensures '.' !in r.originalExtension
    ensures |r.pathWithoutExtension| == |p| && Parent(r.pathWithoutExtension) == Parent(p)
    ensures NoExtension(FileName(p)) ==> r == SplitPath(p, "")
    ensures !NoExtension(FileName(p)) ==>
              |FileName(r.pathWithoutExtension)| > 0 &&
              FileName(r.pathWithoutExtension) + "." + r.originalExtension == FileName(p)
  {
    var filename := FileName(p);
    var position := Strings.LastIndexOf(filename, '.');
    if position < 1 then
      SplitPath(p, "")
    else
      var stem, extension := filename[..position], Strings.Substring(filename, position + 1);
      Strings.SubstringIsSuffix(filename, position + 1);
      assert filename == stem + "." + extension;
      assert !NoExtension(filename) by {
        assert filename[position] == '.';
      }
      SplitPath(ResolveSibling(p, stem), extension)
  }

  /** SplitPath.equals: only the paths without extension are compared. */
  predicate Equal(a: SplitPath, b: SplitPath): (r: bool)
    ensures r <==> a.pathWithoutExtension == b.pathWithoutExtension
  {
    a.pathWithoutExtension == b.pathWithoutExtension
  }

  /** SplitPath.hashCode: the hash of the path without extension. */
  function HashCode(s: SplitPath): (r: int)
    ensures -0x8000_0000 <= r < 0x8000_0000
  {
    Strings.HashCode(Join(s.pathWithoutExtension))
  }

  /** Equal split paths hash alike, as HashSet membership needs. */
  lemma EqualImpliesSameHash(a: SplitPath, b: SplitPath)
    requires Equal(a, b)
    ensures HashCode(a) == HashCode(b)
  {
  }

  /** Two paths denote the same document when they differ in the extension alone. */
  predicate SameDocument(p: Path, q: Path)
    requires |p| > 0 && |q| > 0
  {
    Equal(Split(p), Split(q))
  }

  /** Splitting a name built as stem + "." + extension gives back the stem and the extension. */
  lemma SplitOfStemAndExtension(p: Path, stem: string, extension: string)
    requires |p| > 0 && |stem| > 0 && '.' !in extension
    requires FileName(p) == stem + "." + extension
    ensures Split(p) == SplitPath(ResolveSibling(p, stem), extension)
  {
    var name := FileName(p);
    var position := Strings.LastIndexOf(name, '.');
    assert name[|stem|] == '.';
    if position != |stem| {
      assert false;
    }
    Strings.SubstringIsSuffix(name, position + 1);
    assert name[..position] == stem && name[position + 1..] == extension;
  }

  /** A file stem.extension inside a directory splits into the directory's stem and the extension. */
  lemma SplitInDirectory(directory: Path, stem: string, extension: string)
    requires |stem| > 0 && '.' !in extension
    ensures Split(directory + [stem + "." + extension]) == SplitPath(directory + [stem], extension)
  {
    var p := directory + [stem + "." + extension];
    SplitOfStemAndExtension(p, stem, extension);
    assert Parent(p) == directory;
  }

  /** "a/foo.md" and "a/foo.html" are one document; "b/foo.md" is another. */
  lemma SameDocumentExamples()
    ensures SameDocument(["a", "foo.md"], ["a", "foo.html"])
    ensures !SameDocument(["a", "foo.md"], ["b", "foo.md"])
  {
    SplitOfStemAndExtension(["a", "foo.md"], "foo", "md");
    SplitOfStemAndExtension(["a", "foo.html"], "foo", "html");
    SplitOfStemAndExtension(["b", "foo.md"], "foo", "md");
    assert ResolveSibling(["a", "foo.md"], "foo") == ["a", "foo"];
    assert ResolveSibling(["a", "foo.html"], "foo") == ["a", "foo"];
    assert ResolveSibling(["b", "foo.md"], "foo") == ["b", "foo"];
  }

  /** A name with no dot, or a dot-file such as ".md", keeps its name and has no extension. */
  lemma DotFileHasNoExtension(p: Path)
    requires |p| > 0 && |FileName(p)| > 0 && '.' !in FileName(p)[1..]
    ensures Split(p) == SplitPath(p, "")
  {
    var name := FileName(p);
    forall i | 1 <= i < |name|
      ensures name[i] != '.'
    {
      assert name[i] == name[1..][i - 1];
    }
  }
}

=== FILE: strings.dfy ===
/** The java.lang.String operations the modelled code relies on. */
module Strings {

  /**
   * Lexicographic order by code point: the difference of the first differing characters,
   * or else the difference of the lengths. This is the order of Path.compareTo, which
   * compares the UTF-8 bytes of two paths; UTF-8 keeps code point order, so the sign
   * agrees. String.compareTo is CompareTo below.
   */
  function Compare(a: string, b: string): int
  {
    if |a| == 0 || |b| == 0 then |a| - |b|
    else if a[0] != b[0] then a[0] as int - b[0] as int
    else Compare(a[1..], b[1..])
  }

  /** String order: a sorts strictly before b. */
  predicate Less(a: string, b: string)
  {
    Compare(a, b) < 0
  }

  lemma {:induction false} CompareZeroIffEqual(a: string, b: string)
    ensures Compare(a, b) == 0 <==> a == b
  {
    if |a| == 0 || |b| == 0 {
    } else if a[0] != b[0] {
    } else {
      CompareZeroIffEqual(a[1..], b[1..]);
      assert a == [a[0]] + a[1..];
      assert b == [b[0]] + b[1..];
    }
  }

  lemma {:induction false} CompareAntisymmetric(a: string, b: string)
    ensures Compare(a, b) == -Compare(b, a)
  {
    if |a| == 0 || |b| == 0 {
    } else if a[0] != b[0] {
    } else {
      CompareAntisymmetric(a[1..], b[1..]);
    }
  }

  lemma {:induction false} LessTransitive(a: string, b: string, c: string)
    requires Less(a, b) && Less(b, c)
    ensures Less(a, c)
  {
    if |a| == 0 || |b| == 0 || |c| == 0 {
    } else if a[0] != b[0] || b[0] != c[0] {
    } else {
      LessTransitive(a[1..], b[1..], c[1..]);
    }
  }

  /** Any two different strings are ordered one way or the other. */
  lemma LessTotal(a: string, b: string)
    ensures a == b || Less(a, b) || Less(b, a)
  {
    CompareZeroIffEqual(a, b);
    CompareAntisymmetric(a, b);
  }

  /** A proper prefix sorts first: "a" before "a/b". */
  lemma {:induction false} ProperPrefixIsLess(a: string, b: string)
    requires |a| < |b| && a == b[..|a|]
    ensures Less(a, b)
  {
    if |a| == 0 {
    } else {
      assert a[0] == b[0];
      assert a[1..] == b[1..][..|a| - 1];
      ProperPrefixIsLess(a[1..], b[1..]);
    }
  }

  /** A common prefix keeps the order of what follows it. */
  lemma {:induction false} LessUnderPrefix(prefix: string, a: string, b: string)
    requires Less(a, b)
    ensures Less(prefix + a, prefix + b)
    decreases |prefix|
  {
    if |prefix| > 0 {
      assert (prefix + a)[1..] == prefix[1..] + a;
      assert (prefix + b)[1..] == prefix[1..] + b;
      LessUnderPrefix(prefix[1..], a, b);
    } else {
      assert prefix + a == a && prefix + b == b;
    }
  }

  /**
   * The UTF-16 code units Java stores for one character: the character itself below
   * U+10000, and otherwise a high surrogate followed by a low one.
   */
  function Utf16Char(c: char): (r: seq<int>)
    ensures |r| == (if c as int < 0x10000 then 1 else 2)
    ensures c as int < 0x10000 ==> r == [c as int] && !(0xD800 <= r[0] < 0xE000)
    ensures c as int >= 0x10000 ==>
              && 0xD800 <= r[0] < 0xDC00 && 0xDC00 <= r[1] < 0xE000
              && (r[0] - 0xD800) * 0x400 + (r[1] - 0xDC00) + 0x10000 == c as int
  {
    if c as int < 0x10000 then [c as int]
    else
      var v := c as int - 0x10000;
      [0xD800 + v / 0x400, 0xDC00 + v % 0x400]
  }

  /** The UTF-16 form of a string, as a Java String holds it. */
  function Utf16(s: string): (r: seq<int>)
    ensures |r| >= |s|
  {
    if |s| == 0 then [] else Utf16Char(s[0]) + Utf16(s[1..])
  }

  /** Two strings whose UTF-16 forms start alike start with the same character. */
  lemma Utf16CharPrefix(c: char, d: char, rest: seq<int>, rest': seq<int>)
    requires Utf16Char(c) + rest == Utf16Char(d) + rest'
    ensures c == d && rest == rest'
  {
    var u, w := Utf16Char(c), Utf16Char(d);
    assert u[0] == (u + rest)[0] && w[0] == (w + rest')[0];
    if c as int >= 0x10000 && d as int >= 0x10000 {
      assert u[1] == (u + rest)[1] && w[1] == (w + rest')[1];
    }
    assert rest == (u + rest)[|u|..];
    assert rest' == (w + rest')[|w|..];
  }

  /** Different strings have different UTF-16 forms. */
  lemma {:induction false} Utf16Injective(a: string, b: string)
    requires Utf16(a) == Utf16(b)
    ensures a == b
    decreases |a|
  {
    if |a| > 0 && |b| > 0 {
      Utf16CharPrefix(a[0], b[0], Utf16(a[1..]), Utf16(b[1..]));
      Utf16Injective(a[1..], b[1..]);
      assert a == [a[0]] + a[1..] && b == [b[0]] + b[1..];
    }
  }

  /**
   * The loop of String.compareTo over two code unit arrays: the difference of the first
   * differing units, or else the difference of the lengths.
   */
  function CompareUnits(a: seq<int>, b: seq<int>): int
  {
    if |a| == 0 || |b| == 0 then |a| - |b|
    else if a[0] != b[0] then a[0] - b[0]
    else CompareUnits(a[1..], b[1..])
  }

  lemma {:induction false} CompareUnitsZeroIffEqual(a: seq<int>, b: seq<int>)
    ensures CompareUnits(a, b) == 0 <==> a == b
  {
    if |a| == 0 || |b| == 0 {
    } else if a[0] != b[0] {
    } else {
      CompareUnitsZeroIffEqual(a[1..], b[1..]);
      assert a == [a[0]] + a[1..];
      assert b == [b[0]] + b[1..];
    }
  }

  lemma {:induction false} CompareUnitsAntisymmetric(a: seq<int>, b: seq<int>)
    ensures CompareUnits(a, b) == -CompareUnits(b, a)
  {
    if |a| == 0 || |b| == 0 {
    } else if a[0] != b[0] {
    } else {
      CompareUnitsAntisymmetric(a[1..], b[1..]);
    }
  }

  lemma {:induction false} CompareUnitsTransitive(a: seq<int>, b: seq<int>, c: seq<int>)
    requires CompareUnits(a, b) < 0 && CompareUnits(b, c) < 0
    ensures CompareUnits(a, c) < 0
  {
    if |a| == 0 || |b| == 0 || |c| == 0 {
    } else if a[0] != b[0] || b[0] != c[0] {
    } else {
      CompareUnitsTransitive(a[1..], b[1..], c[1..]);
    }
  }

  /** String.compareTo: the UTF-16 code units compared, not the characters. */
  function CompareTo(a: string, b: string): int
  {
    CompareUnits(Utf16(a), Utf16(b))
  }

  /** String.compareTo is zero exactly for equal strings. */
  lemma CompareToZeroIffEqual(a: string, b: string)
    ensures CompareTo(a, b) == 0 <==> a == b
  {
    CompareUnitsZeroIffEqual(Utf16(a), Utf16(b));
    if Utf16(a) == Utf16(b) {
      Utf16Injective(a, b);
    }
  }

  lemma CompareToAntisymmetric(a: string, b: string)
    ensures CompareTo(a, b) == -CompareTo(b, a)
  {
    CompareUnitsAntisymmetric(Utf16(a), Utf16(b));
  }

  lemma CompareToTransitive(a: string, b: string, c: string)
    requires CompareTo(a, b) < 0 && CompareTo(b, c) < 0
    ensures CompareTo(a, c) < 0
  {
    CompareUnitsTransitive(Utf16(a), Utf16(b), Utf16(c));
  }

  /**
   * The two orders part ways between a character above U+FFFF and one from U+E000 to
   * U+FFFF: String.compareTo puts U+1F600 (units D83D DE00) before U+FF21, code point
   * order after it.
   */
  lemma Utf16OrderExample()
    ensures CompareTo("\U{1F600}", "\U{FF21}") < 0
    ensures Compare("\U{1F600}", "\U{FF21}") > 0
  {
    assert Utf16("\U{1F600}") == [0xD83D, 0xDE00] by {
      assert "\U{1F600}"[1..] == [];
    }
    assert Utf16("\U{FF21}") == [0xFF21] by {
      assert "\U{FF21}"[1..] == [];
    }
  }

  /** String.lastIndexOf(char): the last index holding c, or -1. */
  function LastIndexOf(s: string, c: char): (r: int)
    ensures -1 <= r < |s|
    ensures r >= 0 ==> s[r] == c
    ensures forall i :: r < i < |s| ==> s[i] != c
  {
    if |s| == 0 then -1
    else if s[|s| - 1] == c then |s| - 1
    else
      assert s == s[..|s| - 1] + [s[|s| - 1]];
      LastIndexOf(s[..|s| - 1], c)
  }

  /** String.substring(start): the characters of s from position start on. */
  function Substring(s: string, start: nat): (r: string)
    requires start <= |s|
    ensures |r| == |s| - start
    ensures forall i :: 0 <= i < |r| ==> r[i] == s[start + i]
    decreases |s| - start
  {
    if start == |s| then [] else [s[start]] + Substring(s, start + 1)
  }

  lemma SubstringIsSuffix(s: string, start: nat)
    requires start <= |s|
    ensures Substring(s, start) == s[start..]
  {
  }

  /** Character.toLowerCase restricted to ASCII letters. */
  function LowerChar(c: char): char
  {
    if 'A' <= c <= 'Z' then (c as int + 32) as char else c
  }

  /** String.toLowerCase restricted to ASCII letters. */
  function ToLower(s: string): (r: string)
    ensures |r| == |s|
    ensures forall i :: 0 <= i < |s| ==> r[i] == LowerChar(s[i])
  {
    LowerFrom(s, 0)
  }

  /** The lower-case form of the characters of s from position start on. */
  function LowerFrom(s: string, start: nat): (r: string)
    requires start <= |s|
    ensures |r| == |s| - start
    ensures forall i :: 0 <= i < |r| ==> r[i] == LowerChar(s[start + i])
    decreases |s| - start
  {
    if start == |s| then [] else [LowerChar(s[start])] + LowerFrom(s, start + 1)
  }

  /** String.equalsIgnoreCase restricted to ASCII letters. */
  predicate EqualsIgnoreCase(a: string, b: string)
  {
    ToLower(a) == ToLower(b)
  }

  /** A string without upper-case ASCII letters is its own lower-case form. */
  lemma ToLowerOfLowerCase(s: string)
    requires forall i :: 0 <= i < |s| ==> !('A' <= s[i] <= 'Z')
    ensures ToLower(s) == s
  {
  }

  /** Mixed-case letters fold: "MarkDown" becomes "markdown". */
  lemma ToLowerExample()
    ensures ToLower("MarkDown") == "markdown"
  {
    var r := ToLower("MarkDown");
    assert r[0] == 'm' && r[1] == 'a' && r[2] == 'r' && r[3] == 'k';
    assert r[4] == 'd' && r[5] == 'o' && r[6] == 'w' && r[7] == 'n';
  }

  /** Java int arithmetic: reduce to the signed 32-bit range. */
  function Int32(x: int): (r: int)
    ensures -0x8000_0000 <= r < 0x8000_0000
    ensures (r - x) % 0x1_0000_0000 == 0
  {
    var m := x % 0x1_0000_0000;
    if m >= 0x8000_0000 then m - 0x1_0000_0000 else m
  }

  /**
   * The hash the model gives a path's text: h = 31 * h + c over its code points, reduced
   * to a Java int. Path.hashCode folds the path's bytes and String.hashCode its UTF-16
   * units, so the value differs from both; the model relies only on its range and on equal
   * texts hashing alike, which all three share.
   */
  function HashCode(s: string): (r: int)
    ensures -0x8000_0000 <= r < 0x8000_0000
  {
    if |s| == 0 then 0 else Int32(31 * HashCode(s[..|s| - 1]) + s[|s| - 1] as int)
  }
}

=== FILE: walks.dfy ===
/** Walking a finite set one element at a time, as the loops over map key sets do. */
module Walks {

  /** Taking p out of what remains adds it to what is done. */
  lemma TakeOne<T>(all: set<T>, remaining: set<T>, p: T)
    requires p in remaining && remaining <= all
    ensures all - (remaining - {p}) == (all - remaining) + {p}
    ensures p !in all - remaining
  {
  }

  /** Once nothing remains, everything is done. */
  lemma NoneRemaining<T>(all: set<T>)
    ensures all - {} == all
  {
  }

  /** Two maps with the same keys and the same value at every key are equal. */
  lemma MapsEqual<K, V>(a: map<K, V>, b: map<K, V>)
    requires forall k :: k in a <==> k in b
    requires forall k :: k in a ==> a[k] == b[k]
    ensures a == b
  {
  }
}
